=== FILE: README.md ===
# Belgian influenza metapopulation model: engine and input preparation

This project models the core of a spatially explicit, age-stratified SIR
model of influenza in Belgium's municipalities, together with the scripts
that prepare its inputs. Every definition is pure and written in Dafny.

The model covers:

- **The engine.** There are two variants of the force of infection.
  - The contact-tensor model builds
    `C = (1 - f_v) N ⊗ I + f_v N ⊗ M` and computes
    `λ = β · einsum('abcd,bd->ac', C, I/(S+I+R))`.
  - The legacy model weighs the prevalence at home against the prevalence
    among the visitors of each destination, `I_v / T_v`. Those visiting
    populations come from `matmul_2D_3D_matrix`, which applies a 2-D or
    age-stratified 3-D origin–destination matrix.
  - Both variants share one ODE right-hand side (`dS = -λS`,
    `dI = λS - I/γ`, `dR = I/γ`). They also share the per-capita jump
    rates `{S: [λ], I: [1/γ]}` and the jump update that moves drawn
    transition counts between compartments.
- **The helpers.**
  - Finding a municipality's NIS code by its name.
  - The seed infections (`loc` and `agedist`) and the susceptibles left
    over.
  - The mobility matrix, normalised by the active population (54%).
  - The model's coordinates.
- **The data preparation.**
  - Binning the 2017 population structure into the age groups `0-5`,
    `5-15`, `15-65` and `65+`.
  - Grouping the population by NIS code and age bin.
  - The 2019 municipality fusions and code changes, and the sort by NIS
    code.
  - The vaccination coverage per region. The region is read from the
    first characters of the decimal NIS code.
- **The flepiMoP inputs.**
  - The mobility long table without its diagonal.
  - The initial condition, with age groups and without. One infected
    person is placed in Arlon (NIS 81001).
  - The demography summed per municipality.

Arithmetic on compartments and rates is over `real`. Population counts are
`int`. File reads become parameters: the interim demography table is a
`Demography.Grid` (NIS codes × age labels × counts), or a flat list of
`Demography.Record`s. Random draws become given positions (`choice`, `pick`)
or given counts. Errors the source raises become `Result` failures.

## Model

| member | source | states |
|---|---|---|
| Compartments.Derivatives | use_pySODM/models.py:34-36 | The three derivatives cancel in every (age, location) cell, so the ODE conserves each cell's population. |
| Compartments.PerCapitaRates | use_pySODM/models.py:93-96 | One rate array per transition. The S→I rate is the force of infection itself. Every I→R rate times γ is 1, so the rate is 1/γ everywhere, and it has the shape of S. |
| Compartments.ApplyTransitionings | use_pySODM/models.py:103-105 | The update keeps each cell's S+I+R. S stays non-negative exactly when the S→I count does not exceed S. R does not decrease exactly when the I→R count is non-negative. |
| Compartments.NoTransitionsNoChange | use_pySODM/models.py:103-105 | Zero transition counts leave the state unchanged. |
| Compartments.MeanFieldJumpIsEulerStep | use_pySODM/models.py:93-105 | Suppose the drawn counts equal their means, τ · rate · compartment. Then the jump update is exactly an explicit Euler step of length τ of the ODE derivatives, in S, I and R. |
| Compartments.RatesDriveDerivatives | use_pySODM/models.py:34-36 | Each derivative is the flow the jump rates describe: dS = -rate_S·S, dI = rate_S·S - rate_I·I, dR = rate_I·I. |
| Compartments.DerivativesAtRest | use_pySODM/models.py:34-36 | With no force of infection and no infected, all three derivatives are zero. |
| Compartments.DerivativeSigns | use_pySODM/models.py:34-36 | With a non-negative force, a non-negative state and γ > 0, S never grows and R never shrinks. |
| Compartments.PrevalenceEntry | use_pySODM/models.py:31 | The prevalence `I/(S+I+R)` times the cell's total population gives back the cell's infected. |
| ContactModel.ContactTensor | use_pySODM/models.py:28 | The tensor assembled from the two outer products has entries C[a][b][c][d] = (1-f_v)·N[a][b]·[c=d] + f_v·N[a][b]·M[c][d]. |
| ContactModel.ContractionDecomposition | use_pySODM/models.py:28-31 | The contraction 'abcd,bd->ac' of the contact tensor is a (1-f_v, f_v) mixture of two terms. The home term is Σ_b N[a][b]·P[b][c]. The visiting term is Σ_b N[a][b]·Σ_d M[c][d]·P[b][d]. |
| ContactModel.ForceDecomposition | use_pySODM/models.py:28-31 | λ[a][c] = β·((1-f_v)·home + f_v·visiting), with P the prevalence of the state. |
| ContactModel.ForceWithoutVisits | use_pySODM/models.py:28-31 | With f_v = 0, λ is β times the home term. The mobility matrix plays no part. |
| ContactModel.ForceOnlyVisits | use_pySODM/models.py:28-31 | With f_v = 1, λ is β times the visiting term. |
| ContactModel.PrevalenceOfNoInfection | use_pySODM/models.py:31 | Without infected, the prevalence is zero everywhere. |
| ContactModel.PrevalenceIsFraction | use_pySODM/models.py:31 | With non-negative compartments, every prevalence lies in [0, 1]. |
| ContactModel.ContractionOfZero | use_pySODM/models.py:31 | Contracting the contact tensor with a zero prevalence gives zero. |
| ContactModel.ContractionNonNegative | use_pySODM/models.py:28-31 | Non-negative N, M and prevalence, with 0 ≤ f_v ≤ 1, give a non-negative contraction. |
| ContactModel.Integrate | use_pySODM/models.py:25-38 | The derivatives are those of the contact tensor's force of infection λ = β·einsum('abcd,bd->ac', C, I/(S+I+R)): dS = -λS, dI = λS - I/γ, dR = I/γ. They have the age × location shape and sum to zero in every cell. |
| ContactModel.ComputeRates | use_pySODM/models.py:85-98 | One age × location rate array per transition. The S→I rate is the same force of infection λ of the contact tensor. The I→R rate times γ is 1 in every cell. |
| ContactModel.ComputeRatesCell | use_pySODM/models.py:88-95 | The S→I rate of age a in location c is β·((1-f_v)·Σ_b N[a][b]·P[b][c] + f_v·Σ_b N[a][b]·Σ_d M[c][d]·P[b][d]), with P = I/(S+I+R). |
| ContactModel.ApplyTransitionings | use_pySODM/models.py:101-107 | The update keeps each cell's total population. The legacy class's `apply_transitionings` (use_pySODM/models_legacy.py:84-93) is the same update and is modelled by this member. |
| ContactModel.ODEMatchesJumpRates | use_pySODM/models.py:28-36 | The ODE class and the jump-process class use the same force of infection. The jump rates are the per-capita rates of the contact tensor's λ, and the ODE's derivatives are those of the jump process's S→I rate. |
| ContactModel.NoInfectionIsFixedPoint | use_pySODM/models.py:31-36 | Without infected, the force of infection and all three derivatives are zero. |
| ContactModel.ForceNonNegative | use_pySODM/models.py:28-36 | With non-negative inputs, β ≥ 0, 0 ≤ f_v ≤ 1 and γ > 0, λ is non-negative. Then dS ≤ 0 and dR ≥ 0 in every cell. |
| LegacyModel.BroadcastWeights | use_pySODM/models_legacy.py:116-117 | After `atleast_3d` and `broadcast_to((m, m, n))`, entry [p][q][a] is the weight of flow p→q for age group a. That is the shared 2-D weight, or the age's own layer. |
| LegacyModel.BroadcastInflow | use_pySODM/models_legacy.py:116-117 | The broadcast fiber over origins at (destination j, age i) lists the weights of the flows into j for age i. |
| LegacyModel.MatMul2D3D | use_pySODM/models_legacy.py:96-117 | O[i][j] = Σ_k X[i][k]·W[k][j][i], the element-wise form the docstring gives, with a 2-D W used for every age. |
| LegacyModel.FlatIsMatrixProduct | use_pySODM/models_legacy.py:96-117 | With a 2-D mobility matrix, the helper is the ordinary matrix product X·M. |
| LegacyModel.FlatEqualsStack | use_pySODM/models_legacy.py:116-117 | A 2-D matrix and the same matrix stacked in depth 1 or n give the same product. |
| LegacyModel.VisitorsBounded | use_pySODM/models_legacy.py:31-32 | With non-negative weights, the visiting counts are non-negative and monotone. Because I ≤ T, we get I_v ≤ T_v. |
| LegacyModel.VisitorsOfNoInfection | use_pySODM/models_legacy.py:32 | Zero infected give zero visiting infected. |
| LegacyModel.VisitorPrevalenceEntry | use_pySODM/models_legacy.py:35 | The visitor prevalence `I_v/T_v` times the visiting population gives back the visiting infected. |
| LegacyModel.HomeEinsumIsHomeTerm | use_pySODM/models_legacy.py:35 | Cell (i, j) of `einsum('kj,ikj->ij', P, atleast_3d(N))` is the home term Σ_k N[i][k]·P[k][j]. |
| LegacyModel.VisitEinsumIsVisitTerm | use_pySODM/models_legacy.py:35 | Cell (i, j) of `einsum('jki,lk,ilk->ij', atleast_3d(M), P_v, atleast_3d(N))` is Σ_k M[j][k][i]·Σ_l N[i][l]·P_v[l][k]. |
| LegacyModel.MixedForceDecomposition | use_pySODM/models_legacy.py:35 | The legacy λ[i][j] is β(1-f_v)·(home term of I/T) + β·f_v·(destination-weighted home terms of I_v/T_v). |
| LegacyModel.VisitorPrevalenceIsFraction | use_pySODM/models_legacy.py:28-35 | With non-negative compartments and weights, 0 ≤ I_v ≤ T_v and every visitor prevalence lies in [0, 1]. |
| LegacyModel.LegacyForceOfNoInfection | use_pySODM/models_legacy.py:28-35 | Without infected, both I_v and the legacy λ are zero. |
| LegacyModel.LegacyForceNonNegative | use_pySODM/models_legacy.py:28-35 | With non-negative inputs, β ≥ 0 and 0 ≤ f_v ≤ 1, the legacy λ is non-negative. |
| LegacyModel.AgreesWithTensorModelWithoutVisits | use_pySODM/models_legacy.py:35 | With f_v = 0 and a 2-D mobility matrix, the legacy force of infection equals the contact-tensor model's. |
| LegacyModel.Integrate | use_pySODM/models_legacy.py:25-42 | The legacy derivatives are those of the legacy force of infection λ, which mixes the home prevalence I/T with the visitor prevalence I_v/T_v: dS = -λS, dI = λS - I/γ, dR = I/γ. They have the age × location shape and sum to zero in every cell. |
| LegacyModel.ComputeRates | use_pySODM/models_legacy.py:59-81 | One rate array per transition. The S→I rate is the same legacy force of infection λ. The I→R rate, `size_dummy * (1/γ)`, times γ is 1 everywhere. |
| LegacyModel.ComputeRatesCell | use_pySODM/models_legacy.py:64-79 | The legacy S→I rate of age i living in j is β(1-f_v)·Σ_k N[i][k]·(I/T)[k][j] + β·f_v·Σ_k M[j][k]·Σ_l N[i][l]·(I_v/T_v)[l][k], where an age-stratified M contributes M[j][k][i]. |
| LegacyModel.ODEMatchesJumpRates | use_pySODM/models_legacy.py:28-40 | The legacy jump rates are the per-capita rates of the legacy λ, and the legacy ODE's derivatives are those of the jump process's S→I rate. |
| LegacyModel.NoInfectionIsFixedPoint | use_pySODM/models_legacy.py:35-40 | Without infected, all three legacy derivatives are zero. |
| LegacyModel.DerivativeSignsHold | use_pySODM/models_legacy.py:35-40 | With non-negative inputs, β ≥ 0, 0 ≤ f_v ≤ 1 and γ > 0, dS ≤ 0 and dR ≥ 0 in every cell. |
| Utils.FindName | use_pySODM/utils.py:19-24 | Returns none exactly when no row has the name. Otherwise it returns the position of the first such row. |
| Utils.Name2Nis | use_pySODM/utils.py:12-24 | The result is a `ValueError` exactly when the name is not in the table. Otherwise it is the NIS code of the first row with that name. |
| Utils.SeedsPerAge | use_pySODM/utils.py:59-69 | `demographic`: the multinomial draw. `uniform`: each of the n_age groups holds n/n_age. `random`: all n in the picked group. |
| Utils.SeedsAddUp | use_pySODM/utils.py:61-65 | The uniform and the single-group spreads hand out exactly n infections. |
| Utils.InfectedAt | use_pySODM/utils.py:57-80 | An unknown `agedist` is a `ValueError`. A NIS code outside the demography is an error. Otherwise the result is an n_age × n_NIS array that is zero outside the seeded municipality, whose column holds the spread. |
| Utils.ConstructInitialInfected | use_pySODM/utils.py:27-80 | As written: `loc='random'` always fails on `.values`. An unknown name fails as in `name2NIS`. Otherwise it seeds the named municipality. |
| Utils.ConstructInitialInfectedFixed | use_pySODM/utils.py:52-55 | With `random.choice` over the unique NIS codes, `loc='random'` seeds the chosen municipality. Named locations behave as before. |
| Utils.RandomLocationSeedsChosenMunicipality | use_pySODM/utils.py:52-80 | With the fix and a valid `agedist`, `loc='random'` yields an array that is zero outside the chosen column, which holds the spread. |
| Utils.RandomLocationAlwaysFails | use_pySODM/utils.py:52-53 | For the same inputs, the as-written function fails and the fixed one succeeds. |
| Utils.SeededColumnHoldsN | use_pySODM/utils.py:57-80 | The seeded column adds up to n, given a multinomial draw that adds up to n. Every other column adds up to 0. |
| Utils.ConstructInitialSusceptible | use_pySODM/utils.py:82-98 | S0 + I0 is the demography in every cell. S0 is non-negative exactly when I0 never exceeds the demography. |
| Utils.SusceptiblesOutsideSeed | use_pySODM/utils.py:72-98 | Every municipality but the seeded one keeps its whole population as susceptibles. |
| Utils.GetMobilityMatrix | use_pySODM/utils.py:100-113 | Every commuter count equals the inhabitants of the origin × 0.54 × the normalised entry. A normalised entry is zero exactly when the count is. |
| Utils.MobilityRowTotals | use_pySODM/utils.py:113 | A row's commuters are the origin's active inhabitants times the row sum of the normalised matrix. |
| Utils.ConstructCoordinates | use_pySODM/utils.py:120-126 | The age coordinates are exactly `0-5`, `5-15`, `15-65`, `65+` in that order. The location coordinates are the NIS column of the census table, in order. |
| FormatDemography.AgeBin | analysis/data_conversion/format_demography.py:21-22 | `pd.cut` with left-closed bins: the result is a bin that contains the age, or none exactly when no bin does. |
| FormatDemography.BinsPartitionAges | analysis/data_conversion/format_demography.py:21-22 | An age has a bin exactly when 0 ≤ age < 120, and then its bin is the only one that contains it. |
| FormatDemography.AgeGroupLabelsNameBins | analysis/data_conversion/format_demography.py:21 | The model's age labels `0-5`, `5-15`, `15-65` and `65+` name these bins. |
| FormatDemography.GroupedLayout | analysis/data_conversion/format_demography.py:25 | The grouped table has four rows per NIS code, in ascending code order. Row 4k+b holds the summed population of code k in bin b. |
| FormatDemography.GroupedTotal | analysis/data_conversion/format_demography.py:22-25 | Grouping keeps every source person whose age falls in a bin. |
| FormatDemography.MergedCellsTotal | analysis/data_conversion/format_demography.py:53-57 | The four merged rows hold everyone of the retired codes. |
| FormatDemography.Fuse | analysis/data_conversion/format_demography.py:51-61 | One fusion keeps the rows of every other code unchanged and in their order, drops the retired codes' rows, and appends four rows under the new code, one per bin, each holding that bin's merged sum. |
| FormatDemography.FuseTotal | analysis/data_conversion/format_demography.py:51-61 | One fusion keeps the table's total population. |
| FormatDemography.FusionCodeFresh | analysis/data_conversion/format_demography.py:40-49 | No new fusion code is one of the retired codes. |
| FormatDemography.FusionsPreserveTotal | analysis/data_conversion/format_demography.py:51-61 | All seven fusions keep the table's total population. |
| FormatDemography.FusionsRemoveOldCodes | analysis/data_conversion/format_demography.py:51-61 | After the seven fusions, no retired code is left. |
| FormatDemography.RenameCode | analysis/data_conversion/format_demography.py:65-67 | A code that is not in the old list is kept. |
| FormatDemography.RenameTablesWellFormed | analysis/data_conversion/format_demography.py:65-66 | The 11 old codes are distinct. No new code is an old code, and none is a code retired by a fusion. |
| FormatDemography.RenameMapsPairs | analysis/data_conversion/format_demography.py:65-67 | Each old code is replaced by its partner in the new list. |
| FormatDemography.RenameKeepsTotalsAndCodes | analysis/data_conversion/format_demography.py:65-67 | Renaming keeps the total, and afterwards no row has an old code or a code retired by a fusion. |
| FormatDemography.InsertIsPermutation | analysis/data_conversion/format_demography.py:70 | Inserting a row adds exactly that row to the multiset and its population to the total. |
| FormatDemography.InsertKeepsSorted | analysis/data_conversion/format_demography.py:70 | Inserting into a table sorted by NIS code keeps it sorted. |
| FormatDemography.SortByNis | analysis/data_conversion/format_demography.py:70 | The sorted table is ordered by NIS code and is a permutation of the input with the same total. |
| FormatDemography.FormatProperties | analysis/data_conversion/format_demography.py:20-70 | The formatted table is sorted by code and holds every binned source person. It holds no code renamed or retired in 2019. |
| VaccinationCoverage.Coverage | data/conversion/make_vaccination_coverage.py:34-38 | Four coverages per region, all in [0, 1] and increasing with age. |
| Decimal.NatStringRoundTrip | data/conversion/make_vaccination_coverage.py:43-56 | Reading back the decimal numeral `str(NIS)` gives the code, as `int(NIS)` relies on. |
| Decimal.FiveDigitPrefix | data/conversion/make_vaccination_coverage.py:43-49 | The numeral of a five-digit code has five characters. Its first two are the code's first two digits. |
| VaccinationCoverage.ClassifyFiveDigitCode | data/conversion/make_vaccination_coverage.py:43-54 | For a five-digit code, the character test picks the region of its leading digits. It is Flanders for 1, 3, 4, 7, 23 and 24, Wallonia for 5, 6, 8, 9 and 25, Brussels for 21, and none otherwise. |
| VaccinationCoverage.Pass | data/conversion/make_vaccination_coverage.py:42-54 | One pass either fails with the `IndexError` or `NameError` of that code, or chooses a region. Without an earlier region, it succeeds only on a code the chain assigns. |
| VaccinationCoverage.RegionsFrom | data/conversion/make_vaccination_coverage.py:41-56 | A successful loop gives one region per code. |
| VaccinationCoverage.FillCoverage | data/conversion/make_vaccination_coverage.py:41-56 | A successful fill keeps every row's NIS code and age label, in order. |
| VaccinationCoverage.CountsOfListedCodes | data/conversion/make_vaccination_coverage.py:56 | A successful loop has exactly four rows for each code, the length the coverage list assigns. |
| VaccinationCoverage.RegionsOfWellCoded | data/conversion/make_vaccination_coverage.py:41-56 | For five-digit codes with a region and four rows each, the loop succeeds, and each code gets the region of its digits. |
| VaccinationCoverage.FillCoverageSucceeds | data/conversion/make_vaccination_coverage.py:41-56 | A well-coded table is always filled without error. |
| VaccinationCoverage.FillCoverageOfWellCoded | data/conversion/make_vaccination_coverage.py:41-56 | Row i of a well-coded table gets its region's coverage for the row's position among its municipality's rows. |
| VaccinationCoverage.FirstCodeNeedsRegion | data/conversion/make_vaccination_coverage.py:44-56 | If the first code matches no branch, the script fails with a `NameError` on `region`. |
| VaccinationCoverage.CodeTwoIsIndexError | data/conversion/make_vaccination_coverage.py:48-49 | The code 2 has a one-character numeral, so `NIS[1]` raises an `IndexError`. |
| VaccinationCoverage.UnassignedInheritsRegion | data/conversion/make_vaccination_coverage.py:44-56 | A code that matches no branch takes the region left by the previous code. |
| BuildMobility.FillFrom | use_flepiMoP/w_age_groups/model_input/build-mobility.py:30-31 | The fill loop succeeds exactly when every unit fits, and then it gives each unit's flows in order. |
| BuildMobility.Units | use_flepiMoP/w_age_groups/model_input/build-mobility.py:25 | `index.unique()` gives distinct codes, exactly those of the matrix rows. |
| BuildMobility.BuildMobility | use_flepiMoP/w_age_groups/model_input/build-mobility.py:25-36 | The script succeeds exactly when every origin has one row of n flows. |
| BuildMobility.ProductCell | use_flepiMoP/w_age_groups/model_input/build-mobility.py:26-31 | Row q of the (ori, dest) product is origin q div n and destination q mod n, with the matching flow. |
| BuildMobility.DropLoopsIsOffDiagonal | use_flepiMoP/w_age_groups/model_input/build-mobility.py:35-36 | Dropping each unit's (su, su) row in turn is the same as keeping the off-diagonal rows. |
| BuildMobility.OffDiagonalLayout | use_flepiMoP/w_age_groups/model_input/build-mobility.py:33-36 | Without the diagonal, the table is origin-major, with every other destination in order. |
| BuildMobility.BuildMobilityLayout | use_flepiMoP/w_age_groups/model_input/build-mobility.py:25-36 | The output is, for each origin, its flows to every other destination, read from its matrix row. |
| BuildMobility.BuildMobilityLength | use_flepiMoP/w_age_groups/model_input/build-mobility.py:25-36 | The output has n·(n-1) rows. |
| BuildMobility.BuildMobilityKeepsOffDiagonal | use_flepiMoP/w_age_groups/model_input/build-mobility.py:25-36 | The output is the full product with exactly its diagonal rows removed. |
| BuildMobility.BuildMobilityLabelsIncrease | use_flepiMoP/w_age_groups/model_input/build-mobility.py:34-36 | The surviving row labels of `reset_index` strictly increase. |
| InitialConditionByAge.SplitMcNameRoundTrip | use_flepiMoP/w_age_groups/model_input/build-initial_condition.py:47 | Cutting `stage + '_' + age` at its first underscore gives back the stage and the age. |
| InitialConditionByAge.McNamesDistinct | use_flepiMoP/w_age_groups/model_input/build-initial_condition.py:32-47 | The twelve (stage, age group) pairs get twelve different compartment names. |
| InitialConditionByAge.InitialConditionLayout | use_flepiMoP/w_age_groups/model_input/build-initial_condition.py:30-47 | 12 rows per municipality. If Arlon (81001) is missing, one more row follows them: (81001, `I_<chosen age>`, 1), the seed that `.loc` appends. Row 12k+3a+s holds municipality k and name `stage_age`. Its amount is the population paired by `zip` for S, the random seed for I, and 0 for R. |
| InitialConditionByAge.InitialConditionTotal | use_flepiMoP/w_age_groups/model_input/build-initial_condition.py:30-55 | The amounts add up to the population that `zip` pairs with the model's age groups, plus the one seed. |
| InitialConditionByAge.InitialConditionTotalOfFourAges | use_flepiMoP/w_age_groups/model_input/build-initial_condition.py:30-55 | With four data age groups, the amounts add up to the whole population plus one. |
| InitialConditionTotal.Subpops | use_flepiMoP/wo_age_groups/model_input/build-initial_condition.py:38 | The `groupby` municipality keys strictly increase and are exactly the data's codes. |
| InitialConditionTotal.GroupedStagesSorted | use_flepiMoP/wo_age_groups/model_input/build-initial_condition.py:38 | The sorted stage keys are `I`, `R`, `S`: the same names, in lexicographic order. |
| InitialConditionTotal.GroupAmountOfLongTable | use_flepiMoP/wo_age_groups/model_input/build-initial_condition.py:29-38 | Summing over the age groups gives a municipality's population for `S` and 0 for `I` and `R`. |
| InitialConditionTotal.SeededGroupBlock | use_flepiMoP/wo_age_groups/model_input/build-initial_condition.py:38-41 | Setting the seed makes each grouped block the expected one. Blocks other than Arlon's are already expected before the seed. |
| InitialConditionTotal.SeededInPlace | use_flepiMoP/wo_age_groups/model_input/build-initial_condition.py:41 | If Arlon is in the data, the seed overwrites its `I` row in place. |
| InitialConditionTotal.SeedAppended | use_flepiMoP/wo_age_groups/model_input/build-initial_condition.py:41 | If Arlon is missing, `.loc` enlarges the series with one `(81001, 'I', 1)` row at its end. |
| InitialConditionTotal.InitialConditionWithoutAgesLayout | use_flepiMoP/wo_age_groups/model_input/build-initial_condition.py:26-41 | For each municipality in ascending order, the output is its rows `I`, `R`, `S`, holding (1 in Arlon, else 0), 0, and the population. The seed row follows if Arlon is missing. |
| InitialConditionTotal.SusceptiblesTotal | use_flepiMoP/wo_age_groups/model_input/build-initial_condition.py:32-38 | The grouped susceptibles add up to the whole population. |
| InitialConditionTotal.InitialConditionWithoutAgesTotal | use_flepiMoP/wo_age_groups/model_input/build-initial_condition.py:26-41 | The amounts add up to the whole population plus the one seed. |
| BuildDemography.BuildDemography | use_flepiMoP/w_age_groups/model_input/build-demography.py:20-21 | The output has one row per NIS code of the data, in strictly increasing order, holding the sum of that code's rows. |
| BuildDemography.BuildDemographyTotal | use_flepiMoP/w_age_groups/model_input/build-demography.py:20 | Summing per municipality keeps the whole population. |
| BuildDemography.BuildDemographyOfGrid | use_flepiMoP/w_age_groups/model_input/build-demography.py:18-21 | Read from the demography grid, there is one row per municipality, holding the sum over its age groups. |

## Left out

- In a textbook SIR jump process the S→I rate is `λ·S`. Both `compute_rates` functions return the per-capita `λ`, and pySODM multiplies it by the compartment. The model follows the code: `PerCapitaRates` holds `λ`, and `MeanFieldJumpIsEulerStep` states the multiplication.
- The time `t` and the leap length `tau` are unused by `integrate`, `compute_rates` and `apply_transitionings`. They are parameters that have no effect.
- pySODM's solver and its tau-leaping sampler (binomial draws from the rates) are not modelled: transition counts are an input to `ApplyTransitionings`.
- The tensorflow variant `spatial_ODE_SIR_tf` (use_pySODM/models.py:42-69) is left out. It computes the same expression on tensors.
- LegacyModel: the contact matrix `N` is 2-D only. `np.atleast_3d(N)` of an age-by-location contact stack is not modelled.
- ContactModel: `M` is 2-D in the contact-tensor model. Its `M.shape[0]` and `'ab,cd->abcd'` require that.
- Shape mismatches that numpy reports as broadcast errors are preconditions, and so are divisions by a zero total population or a zero visiting population. The source does not handle them either.
- Utils.GetMobilityMatrix and Utils.MobilityRowTotals require every `inhabitants[i] != 0`. For a municipality with no inhabitants, the division at use_pySODM/utils.py:113 gives numpy `inf` or `nan` in that row instead of raising, and that row is not modelled.
- Floating-point rounding is not modelled: arithmetic is over exact reals. For example, `n/len(...)` in `uniform` adds back to `n` exactly here.
- File reads and writes (CSV, Excel) and the `print` of the municipality count are left out. Their tables are parameters and results.
- `random.choice`, `random.randint` and `np.random.multinomial` are not modelled. The drawn position or the drawn counts are parameters, and SeededColumnHoldsN assumes the multinomial draw adds up to `n`.
- `name2NIS` and `construct_coordinates_dictionary` read the census table. It is the `NameRow` list parameter.
- `get_contact_matrix` (use_pySODM/utils.py:115-118) only reads an Excel sheet. There is nothing to model beyond I/O.
- FormatDemography.SortByNis: pandas' default sort is not stable. The model is an insertion sort, and only ordering by NIS code, permutation and total are claimed, not the relative order of equal codes.
- The age bins produced by `pd.cut` are interval labels in the source, not strings. The model keeps them as bin positions, and AgeGroupLabelsNameBins links them to the model's labels.
- The demography CSV read by the build scripts is the `Grid` abstraction: every municipality has every age group once, and codes are distinct. The grid itself is not derived from `format_demography`'s output.
- Utils.InfectedAt, Utils.AgeByLocation and Utils.ConstructInitialSusceptible read the demography as the same `Grid`. The source reshapes the flat column with `reshape(n_NIS, n_age)` (use_pySODM/utils.py:72-80 and 90-93), which is right only when the rows are NIS-major and every municipality lists the ages in one shared order. The sort at analysis/data_conversion/format_demography.py:70 is not stable, so the file does not guarantee that order; the model assumes it.
- VaccinationCoverage.FilledRow: it gives row `i` the coverage at its position among its municipality's rows (`Rank`). This mirrors the positional assignment `data.loc[int(NIS), slice(None)] = vaccine_coverage[region]` at data/conversion/make_vaccination_coverage.py:56. That pairing is right only when each municipality's rows come in the age order `0-5`, `5-15`, `15-65`, `65+`. The unstable sort at analysis/data_conversion/format_demography.py:70 does not guarantee that order. The model assumes the rows are in that order and does not check that the coverages land on the right age labels.
- Compartments.Derivatives, Compartments.PerCapitaRates and the `Integrate` and `ComputeRates` of both models require `gamma != 0`. `1/gamma` is computed on the scalar before any array operation. With `gamma = 0` it raises `ZeroDivisionError` for a Python number, such as the `'gamma': 5` of use_pySODM/simulate_pySODM.py:21, and gives `inf` only for a numpy scalar. Neither case is modelled.
- InitialConditionByAge: `.loc` on a missing Arlon key enlarges the series. The model appends one row at the end, as pandas does for a new key. Index ordering after enlargement is not modelled further.
- The exception types (`ValueError`, `AttributeError`, `IndexError`, `NameError`) are datatype constructors. Their messages are left out.
- VaccinationCoverage.Coverage: the raw five-group coverages of lines 28-32 are overwritten before use, so they are not modelled.
- The second `vaccine_coverage` dictionary holds the 65+ values precomputed from 65-85 and 85+ shares. That derivation (the 84.9%/15.1% weighting) happens outside the code and is not checked.
- `simulate_pySODM.py` and the other analysis scripts are drivers that only call the modelled functions and plot. They are not part of this model.

## Findings

| source | as written | input that shows it | evidently intended | confidence | as-written member | corrected member |
|---|---|---|---|---|---|---|
| use_pySODM/utils.py:53 | `random.choice(demography['NIS'].unique().values)`: `unique()` returns a numpy array, which has no `.values`, so `loc='random'` raises `AttributeError` | `construct_initial_infected(loc='random')` with any demography | pick a municipality uniformly from the unique NIS codes and seed it | not executed | Utils.RandomLocationAlwaysFails | Utils.RandomLocationSeedsChosenMunicipality |

=== FILE: arrays.dfy ===
/**
 * Dense real arrays as nested sequences, the finite sums the einsum
 * contractions reduce to, and the handful of facts about those sums that the
 * engine's proofs rest on.
 */
module Arrays {

  /** A two-dimensional array, row-major: `A[i][j]`. */
  type Matrix = seq<seq<real>>

  /** `A` has exactly `rows` rows of `cols` entries each. */
  predicate IsMatrix(A: Matrix, rows: nat, cols: nat) {
    |A| == rows && forall i :: 0 <= i < rows ==> |A[i]| == cols
  }

  /** Number of columns of a rectangular array (0 when it has no rows). */
  function Cols(A: Matrix): nat {
    if |A| == 0 then 0 else |A[0]|
  }

  /** `A` and `B` have the same number of rows and each row pair has the same length. */
  predicate SameShape(A: Matrix, B: Matrix) {
    |A| == |B| && forall i :: 0 <= i < |A| ==> |A[i]| == |B[i]|
  }

  predicate NonNegative(A: Matrix) {
    forall i, j :: 0 <= i < |A| && 0 <= j < |A[i]| ==> A[i][j] >= 0.0
  }

  predicate AllZero(A: Matrix) {
    forall i, j :: 0 <= i < |A| && 0 <= j < |A[i]| ==> A[i][j] == 0.0
  }

  /** Element-wise `A <= B`. */
  predicate Below(A: Matrix, B: Matrix)
    requires SameShape(A, B)
  {
    forall i, j :: 0 <= i < |A| && 0 <= j < |A[i]| ==> A[i][j] <= B[i][j]
  }

  /** Sum of a vector of reals, folded from the front. */
  function Sum(s: seq<real>): real {
    if |s| == 0 then 0.0 else s[0] + Sum(s[1..])
  }

  /** An array of the shape of `A` holding `v` everywhere (numpy `np.ones(A.shape) * v`). */
  function ConstLike(A: Matrix, v: real): (B: Matrix)
    ensures SameShape(B, A)
    ensures forall i, j :: 0 <= i < |B| && 0 <= j < |B[i]| ==> B[i][j] == v
  {
    seq(|A|, i requires 0 <= i < |A| => seq(|A[i]|, j => v))
  }

  function Add(A: Matrix, B: Matrix): (C: Matrix)
    requires SameShape(A, B)
    ensures SameShape(C, A)
  {
    seq(|A|, i requires 0 <= i < |A| =>
      seq(|A[i]|, j requires 0 <= j < |A[i]| => A[i][j] + B[i][j]))
  }

  function Sub(A: Matrix, B: Matrix): (C: Matrix)
    requires SameShape(A, B)
    ensures SameShape(C, A)
  {
    seq(|A|, i requires 0 <= i < |A| =>
      seq(|A[i]|, j requires 0 <= j < |A[i]| => A[i][j] - B[i][j]))
  }

  /** Element-wise product, numpy's `A * B` on equal shapes. */
  function Hadamard(A: Matrix, B: Matrix): (C: Matrix)
    requires SameShape(A, B)
    ensures SameShape(C, A)
  {
    seq(|A|, i requires 0 <= i < |A| =>
      seq(|A[i]|, j requires 0 <= j < |A[i]| => A[i][j] * B[i][j]))
  }

  /** Element-wise quotient, numpy's `A / B`; every divisor must be non-zero. */
  function Quotient(A: Matrix, B: Matrix): (C: Matrix)
    requires SameShape(A, B)
    requires forall i, j :: 0 <= i < |B| && 0 <= j < |B[i]| ==> B[i][j] != 0.0
    ensures SameShape(C, A)
  {
    seq(|A|, i requires 0 <= i < |A| =>
      seq(|A[i]|, j requires 0 <= j < |A[i]| => A[i][j] / B[i][j]))
  }

  function Scale(c: real, A: Matrix): (C: Matrix)
    ensures SameShape(C, A)
  {
    seq(|A|, i requires 0 <= i < |A| => seq(|A[i]|, j requires 0 <= j < |A[i]| => c * A[i][j]))
  }

  function Neg(A: Matrix): (C: Matrix)
    ensures SameShape(C, A)
  {
    seq(|A|, i requires 0 <= i < |A| => seq(|A[i]|, j requires 0 <= j < |A[i]| => - A[i][j]))
  }

  lemma {:induction false} SumOfZeros(s: seq<real>)
    requires forall k :: 0 <= k < |s| ==> s[k] == 0.0
    ensures Sum(s) == 0.0
  {
    if |s| > 0 {
      SumOfZeros(s[1..]);
    }
  }

  lemma {:induction false} SumNonNegative(s: seq<real>)
    requires forall k :: 0 <= k < |s| ==> s[k] >= 0.0
    ensures Sum(s) >= 0.0
  {
    if |s| > 0 {
      SumNonNegative(s[1..]);
    }
  }

  /** Sums are monotone in every term. */
  lemma {:induction false} SumMonotone(s: seq<real>, t: seq<real>)
    requires |s| == |t|
    requires forall k :: 0 <= k < |s| ==> s[k] <= t[k]
    ensures Sum(s) <= Sum(t)
  {
    if |s| > 0 {
      SumMonotone(s[1..], t[1..]);
    }
  }

  /** Sums are linear: a term-wise combination `x*s + y*t` sums to `x*Sum(s) + y*Sum(t)`. */
  lemma {:induction false} SumLinear(s: seq<real>, t: seq<real>, u: seq<real>, x: real, y: real)
    requires |s| == |t| == |u|
    requires forall k :: 0 <= k < |u| ==> u[k] == x * s[k] + y * t[k]
    ensures Sum(u) == x * Sum(s) + y * Sum(t)
  {
    if |u| > 0 {
      SumLinear(s[1..], t[1..], u[1..], x, y);
    }
  }

  /** A constant factor comes out of a sum. */
  lemma {:induction false} SumScale(s: seq<real>, u: seq<real>, x: real)
    requires |s| == |u|
    requires forall k :: 0 <= k < |u| ==> u[k] == x * s[k]
    ensures Sum(u) == x * Sum(s)
  {
    if |u| > 0 {
      SumScale(s[1..], u[1..], x);
    }
  }

  /** A sum whose terms vanish everywhere except at index `c` is that one term. */
  lemma {:induction false} SumSingleTerm(s: seq<real>, c: nat)
    requires c < |s|
    requires forall k :: 0 <= k < |s| && k != c ==> s[k] == 0.0
    ensures Sum(s) == s[c]
  {
    if c == 0 {
      SumOfZeros(s[1..]);
    } else {
      SumSingleTerm(s[1..], c - 1);
    }
  }

  /** Sum of `n` copies of `v`. */
  lemma {:induction false} SumConstant(s: seq<real>, v: real)
    requires forall k :: 0 <= k < |s| ==> s[k] == v
    ensures Sum(s) == |s| as real * v
  {
    if |s| > 0 {
      SumConstant(s[1..], v);
    }
  }

  /** Two arrays of one shape that agree in every entry are equal. */
  lemma MatrixExtensionality(A: Matrix, B: Matrix)
    requires SameShape(A, B)
    requires forall i, j :: 0 <= i < |A| && 0 <= j < |A[i]| ==> A[i][j] == B[i][j]
    ensures A == B
  {
    forall i | 0 <= i < |A|
      ensures A[i] == B[i]
    {
      assert forall j :: 0 <= j < |A[i]| ==> A[i][j] == B[i][j];
    }
  }

  /** Inner product `sum_k u[k] * v[k]`. */
  function Dot(u: seq<real>, v: seq<real>): real
    requires |u| == |v|
  {
    if |u| == 0 then 0.0 else u[0] * v[0] + Dot(u[1..], v[1..])
  }

  /** One step of the linearity of the inner product, proved apart from any other fact. */
  lemma LinearStep(w: real, z: real, e0: real, m0: real, v0: real, de: real, dm: real)
    ensures (w * e0 + z * m0) * v0 + (w * de + z * dm) == w * (e0 * v0 + de) + z * (m0 * v0 + dm)
  {
  }

  lemma ProductNonNegative(p: real, q: real)
    requires p >= 0.0 && q >= 0.0
    ensures p * q >= 0.0
  {
  }

  /** A share of a positive whole lies in `[0, 1]`. */
  lemma FractionBounds(p: real, q: real)
    requires 0.0 <= p <= q && q > 0.0
    ensures 0.0 <= p / q <= 1.0
  {
    assert p / q * q == p;
  }

  /** A non-negative multiple of a non-negative array is non-negative. */
  lemma ScaleNonNegative(c: real, A: Matrix)
    requires c >= 0.0 && NonNegative(A)
    ensures NonNegative(Scale(c, A))
  {
    var B := Scale(c, A);
    forall i, j | 0 <= i < |B| && 0 <= j < |B[i]|
      ensures B[i][j] >= 0.0
    {
      ProductNonNegative(c, A[i][j]);
    }
  }

  /** Dividing zeros by non-zeros gives zeros. */
  lemma QuotientOfZero(A: Matrix, B: Matrix)
    requires SameShape(A, B) && AllZero(A)
    requires forall i, j :: 0 <= i < |B| && 0 <= j < |B[i]| ==> B[i][j] != 0.0
    ensures AllZero(Quotient(A, B))
  {
    var C := Quotient(A, B);
    forall i, j | 0 <= i < |C| && 0 <= j < |C[i]|
      ensures C[i][j] == 0.0
    {
      assert C[i][j] == A[i][j] / B[i][j];
    }
  }

  /** One entry of the weighted sum `a A + b B`. */
  lemma WeightedSumEntry(a: real, A: Matrix, b: real, B: Matrix, i: nat, j: nat)
    requires SameShape(A, B) && i < |A| && j < |A[i]|
    ensures Add(Scale(a, A), Scale(b, B))[i][j] == a * A[i][j] + b * B[i][j]
  {
  }

  /** The inner product is linear in its left argument. */
  lemma {:induction false} DotLinear(u: seq<real>, e: seq<real>, m: seq<real>, v: seq<real>, w: real, z: real)
    requires |u| == |e| == |m| == |v|
    requires forall k :: 0 <= k < |u| ==> u[k] == w * e[k] + z * m[k]
    ensures Dot(u, v) == w * Dot(e, v) + z * Dot(m, v)
  {
    if |u| > 0 {
      var de, dm := Dot(e[1..], v[1..]), Dot(m[1..], v[1..]);
      DotLinear(u[1..], e[1..], m[1..], v[1..], w, z);
      assert Dot(u, v) == u[0] * v[0] + (w * de + z * dm);
      LinearStep(w, z, e[0], m[0], v[0], de, dm);
    }
  }

  /** Against a unit vector the inner product selects one entry. */
  lemma {:induction false} DotUnit(e: seq<real>, v: seq<real>, c: nat)
    requires |e| == |v| && c < |v|
    requires forall k :: 0 <= k < |e| ==> e[k] == if k == c then 1.0 else 0.0
    ensures Dot(e, v) == v[c]
  {
    if c == 0 {
      DotZeroLeft(e[1..], v[1..]);
    } else {
      DotUnit(e[1..], v[1..], c - 1);
    }
  }

  lemma {:induction false} DotZeroLeft(u: seq<real>, v: seq<real>)
    requires |u| == |v|
    requires forall k :: 0 <= k < |u| ==> u[k] == 0.0
    ensures Dot(u, v) == 0.0
  {
    if |u| > 0 {
      DotZeroLeft(u[1..], v[1..]);
    }
  }

  lemma {:induction false} DotZeroRight(u: seq<real>, v: seq<real>)
    requires |u| == |v|
    requires forall k :: 0 <= k < |v| ==> v[k] == 0.0
    ensures Dot(u, v) == 0.0
  {
    if |u| > 0 {
      DotZeroRight(u[1..], v[1..]);
    }
  }

  lemma {:induction false} DotNonNegative(u: seq<real>, v: seq<real>)
    requires |u| == |v|
    requires forall k :: 0 <= k < |u| ==> u[k] >= 0.0 && v[k] >= 0.0
    ensures Dot(u, v) >= 0.0
  {
    if |u| > 0 {
      DotNonNegative(u[1..], v[1..]);
    }
  }

  /** With non-negative weights the inner product is monotone in the other argument. */
  lemma {:induction false} DotMonotone(u: seq<real>, v: seq<real>, v': seq<real>)
    requires |u| == |v| == |v'|
    requires forall k :: 0 <= k < |u| ==> u[k] >= 0.0 && v[k] <= v'[k]
    ensures Dot(u, v) <= Dot(u, v')
  {
    if |u| > 0 {
      DotMonotone(u[1..], v[1..], v'[1..]);
      assert u[0] * v[0] <= u[0] * v'[0];
    }
  }

  /** With non-negative weights the inner product is monotone in its left argument too. */
  lemma {:induction false} DotMonotoneLeft(u: seq<real>, u': seq<real>, v: seq<real>)
    requires |u| == |u'| == |v|
    requires forall k :: 0 <= k < |u| ==> v[k] >= 0.0 && u[k] <= u'[k]
    ensures Dot(u, v) <= Dot(u', v)
  {
    if |u| > 0 {
      DotMonotoneLeft(u[1..], u'[1..], v[1..]);
      assert u[0] * v[0] <= u'[0] * v[0];
    }
  }

  /** The inner product is the sum of the term-wise products. */
  lemma {:induction false} DotIsSum(u: seq<real>, v: seq<real>, s: seq<real>)
    requires |u| == |v| == |s|
    requires forall k :: 0 <= k < |s| ==> s[k] == u[k] * v[k]
    ensures Dot(u, v) == Sum(s)
  {
    if |u| > 0 {
      DotIsSum(u[1..], v[1..], s[1..]);
    }
  }
}

=== FILE: build_demography.dfy ===
/**
 * The flepiMoP demography file: the population of every municipality,
 * summed over the age groups of the demography table, one row per
 * municipality in ascending order of NIS code.
 */
module BuildDemography {
  import opened Tables
  import opened Demography

  /** One output row: a subpopulation (municipality) and its population. */
  datatype SubpopRow = SubpopRow(subpop: int, population: int)

  function SubpopPopulation(r: SubpopRow): int {
    r.population
  }

  function Subpop(r: SubpopRow): int {
    r.subpop
  }

  /** `groupby(by='NIS').sum()` with the index renamed to `subpop`. */
  function BuildDemography(rows: seq<Record>): (out: seq<SubpopRow>)
    ensures IncreasingBy(out, Subpop)
    ensures forall x :: (exists i :: 0 <= i < |out| && out[i].subpop == x) <==> x in KeysOf(rows, Nis)
    ensures forall i :: 0 <= i < |out| ==> out[i].population == SumOf(Keep(rows, HasKey(Nis, out[i].subpop)), Population)
  {
    var keys := SortedKeys(KeysOf(rows, Nis));
    var sums := GroupSums(rows, Nis, Population, keys);
    var out := seq(|keys|, i requires 0 <= i < |keys| => SubpopRow(keys[i], sums[i]));
    assert forall x :: (exists i :: 0 <= i < |out| && out[i].subpop == x) <==> x in keys by {
      forall x | x in keys
        ensures exists i :: 0 <= i < |out| && out[i].subpop == x
      {
        var i :| 0 <= i < |keys| && keys[i] == x;
        assert out[i].subpop == x;
      }
    }
    out
  }

  /** Summing per municipality keeps the whole population. */
  lemma BuildDemographyTotal(rows: seq<Record>)
    ensures SumOf(BuildDemography(rows), SubpopPopulation) == SumOf(rows, Population)
  {
    var keys := SortedKeys(KeysOf(rows, Nis));
    var out := BuildDemography(rows);
    StrictlyIncreasingIsDistinct(keys);
    forall i | 0 <= i < |rows|
      ensures Nis(rows[i]) in keys
    {
      assert KeysOf(rows, Nis)[i] == Nis(rows[i]);
    }
    GroupSumsTotal(rows, Nis, Population, keys);
    SumOfIsTotal(out, SubpopPopulation, GroupSums(rows, Nis, Population, keys));
  }

  /**
   * Read from a demography grid, the file has one row per municipality of
   * the grid, holding the sum of that municipality's age groups.
   */
  lemma BuildDemographyOfGrid(g: Grid, k: nat)
    requires WellFormed(g) && k < |g.nis|
    ensures |BuildDemography(Records(g))| == |g.nis|
    ensures exists i :: 0 <= i < |g.nis| && BuildDemography(Records(g))[i] == SubpopRow(g.nis[k], RowTotal(g, k))
  {
    var out := BuildDemography(Records(g));
    var keys := SortedKeys(KeysOf(Records(g), Nis));
    RecordCodes(g);
    SameMembersSameLength(keys, g.nis);
    assert g.nis[k] in KeysOf(Records(g), Nis);
    var i :| 0 <= i < |out| && out[i].subpop == g.nis[k];
    MunicipalityTotal(g, k);
  }
}

=== FILE: build_initial_condition.dfy ===
/**
 * The age-stratified flepiMoP initial condition: for every municipality,
 * model age group and infection stage one row `(subpop, mc_name, amount)`;
 * the susceptibles are the population, and one infected person is placed
 * in Arlon (NIS 81001) in an age group drawn at random.
 */
module InitialConditionByAge {
  import opened Tables
  import opened Demography

  /** Arlon, where the first infected person is placed. */
  const NisInit: int := 81001

  /** The infection stages, in the order of the product index. */
  const Stages: seq<string> := ["S", "I", "R"]

  datatype ConditionRow = ConditionRow(subpop: int, mcName: string, amount: int)

  function Amount(r: ConditionRow): int {
    r.amount
  }

  /** The compartment name: stage and age group joined by an underscore. */
  function McName(stage: string, age: string): string {
    stage + "_" + age
  }

  /** The compartment name cut at its first underscore. */
  function SplitMcName(name: string): (parts: (string, string)) {
    if |name| == 0 then ("", "")
    else if name[0] == '_' then ("", name[1..])
    else
      var (stage, age) := SplitMcName(name[1..]);
      ([name[0]] + stage, age)
  }

  /** Splitting a name built from an underscore-free stage gives back the stage and the age group. */
  lemma {:induction false} SplitMcNameRoundTrip(stage: string, age: string)
    requires '_' !in stage
    ensures SplitMcName(McName(stage, age)) == (stage, age)
  {
    if |stage| > 0 {
      assert McName(stage, age)[1..] == McName(stage[1..], age);
      SplitMcNameRoundTrip(stage[1..], age);
      assert [stage[0]] + stage[1..] == stage;
    } else {
      assert McName(stage, age) == "_" + age;
      assert ("_" + age)[1..] == age;
    }
  }

  /** Different (stage, age group) pairs get different compartment names. */
  lemma McNamesDistinct(s1: nat, a1: nat, s2: nat, a2: nat)
    requires s1 < |Stages| && s2 < |Stages| && a1 < |ModelAgeGroups| && a2 < |ModelAgeGroups|
    requires (s1, a1) != (s2, a2)
    ensures McName(Stages[s1], ModelAgeGroups[a1]) != McName(Stages[s2], ModelAgeGroups[a2])
  {
    SplitMcNameRoundTrip(Stages[s1], ModelAgeGroups[a1]);
    SplitMcNameRoundTrip(Stages[s2], ModelAgeGroups[a2]);
  }

  /**
   * The susceptibles of municipality `k` in model age group `a`: the
   * `zip` of the data's age groups with the model's pairs them by
   * position and stops at the shorter list, so a model age group without
   * a data age group keeps 0.
   */
  function Susceptible(g: Grid, k: nat, a: nat): int
    requires WellFormed(g) && k < |g.nis|
  {
    if a < |g.ages| then g.pop[k][a] else 0
  }

  /** The age group of the seed in municipality `k`: `choice` in Arlon, none (4) elsewhere. */
  function SeedAge(g: Grid, choice: nat, k: nat): nat
    requires k < |g.nis|
  {
    if g.nis[k] == NisInit then choice else |ModelAgeGroups|
  }

  /** The amount of cell (municipality `k`, age group `a`, stage `s`). */
  function CellAmount(g: Grid, choice: nat, k: nat, a: nat, s: nat): int
    requires WellFormed(g) && k < |g.nis|
  {
    if s == 0 then Susceptible(g, k, a)
    else if s == 1 then (if a == SeedAge(g, choice, k) then 1 else 0)
    else 0
  }

  /** The three stage rows of one municipality and age group. */
  function AgeBlock(g: Grid, choice: nat, k: nat, a: nat): (block: seq<ConditionRow>)
    requires WellFormed(g) && k < |g.nis| && a < |ModelAgeGroups|
    ensures |block| == |Stages|
    ensures forall s :: 0 <= s < |Stages| ==>
      block[s] == ConditionRow(g.nis[k], McName(Stages[s], ModelAgeGroups[a]), CellAmount(g, choice, k, a, s))
  {
    seq(|Stages|, s requires 0 <= s < |Stages| =>
      ConditionRow(g.nis[k], McName(Stages[s], ModelAgeGroups[a]), CellAmount(g, choice, k, a, s)))
  }

  function AgeBlocks(g: Grid, choice: nat, k: nat): (blocks: seq<seq<ConditionRow>>)
    requires WellFormed(g) && k < |g.nis|
    ensures |blocks| == |ModelAgeGroups|
    ensures forall a :: 0 <= a < |ModelAgeGroups| ==> blocks[a] == AgeBlock(g, choice, k, a)
  {
    seq(|ModelAgeGroups|, a requires 0 <= a < |ModelAgeGroups| => AgeBlock(g, choice, k, a))
  }

  /** The twelve rows of municipality `k`. */
  function SubpopBlock(g: Grid, choice: nat, k: nat): seq<ConditionRow>
    requires WellFormed(g) && k < |g.nis|
  {
    Flatten(AgeBlocks(g, choice, k))
  }

  function SubpopBlocks(g: Grid, choice: nat): (blocks: seq<seq<ConditionRow>>)
    requires WellFormed(g)
    ensures |blocks| == |g.nis|
    ensures forall k :: 0 <= k < |g.nis| ==> blocks[k] == SubpopBlock(g, choice, k)
  {
    seq(|g.nis|, k requires 0 <= k < |g.nis| => SubpopBlock(g, choice, k))
  }

  /**
   * The script, with `choice` the position drawn by `random.choice`.  The
   * product index is subpop-major, then age group, then stage.  Setting
   * the seed on a key the index does not hold enlarges the series by one
   * row at its end.
   */
  function InitialCondition(g: Grid, choice: nat): seq<ConditionRow>
    requires WellFormed(g) && choice < |ModelAgeGroups|
  {
    var product := Flatten(SubpopBlocks(g, choice));
    if NisInit in g.nis then product
    else product + [ConditionRow(NisInit, McName("I", ModelAgeGroups[choice]), 1)]
  }

  lemma SubpopBlockLength(g: Grid, choice: nat, k: nat)
    requires WellFormed(g) && k < |g.nis|
    ensures |SubpopBlock(g, choice, k)| == |ModelAgeGroups| * |Stages|
  {
    FlattenLength(AgeBlocks(g, choice, k), |Stages|);
  }

  /** Without Arlon in the data, the enlarged series ends with the seed `(81001, I_<choice>, 1)`. */
  lemma SeedRowAppended(g: Grid, choice: nat)
    requires WellFormed(g) && choice < |ModelAgeGroups|
    ensures |Flatten(SubpopBlocks(g, choice))| == 12 * |g.nis|
    ensures NisInit !in g.nis ==>
      && |InitialCondition(g, choice)| == 12 * |g.nis| + 1
      && InitialCondition(g, choice)[12 * |g.nis|] == ConditionRow(NisInit, McName("I", ModelAgeGroups[choice]), 1)
  {
    var blocks := SubpopBlocks(g, choice);
    forall b | 0 <= b < |blocks|
      ensures |blocks[b]| == 12
    {
      SubpopBlockLength(g, choice, b);
    }
    FlattenLength(blocks, 12);
  }

  /** Row `12 k + 3 a + s` of the product index, before any enlargement. */
  lemma ProductRow(g: Grid, choice: nat, k: nat, a: nat, s: nat)
    requires WellFormed(g) && choice < |ModelAgeGroups|
    requires k < |g.nis| && a < |ModelAgeGroups| && s < |Stages|
    ensures 12 * k + 3 * a + s < |Flatten(SubpopBlocks(g, choice))|
    ensures Flatten(SubpopBlocks(g, choice))[12 * k + 3 * a + s]
         == ConditionRow(g.nis[k], McName(Stages[s], ModelAgeGroups[a]), CellAmount(g, choice, k, a, s))
  {
    var blocks := SubpopBlocks(g, choice);
    forall b | 0 <= b < |blocks|
      ensures |blocks[b]| == 12
    {
      SubpopBlockLength(g, choice, b);
    }
    FlattenIndex(blocks, 12, k, 3 * a + s);
    FlattenIndex(AgeBlocks(g, choice, k), 3, a, s);
  }

  /**
   * Row `12 k + 3 a + s` is municipality `k`, model age group `a`, stage
   * `s`: the susceptibles hold the population of the data's `a`-th age
   * group (0 when the data has fewer), the infected hold the seed, and
   * nobody is recovered.
   */
  lemma InitialConditionLayout(g: Grid, choice: nat, k: nat, a: nat, s: nat)
    requires WellFormed(g) && choice < |ModelAgeGroups|
    requires k < |g.nis| && a < |ModelAgeGroups| && s < |Stages|
    ensures |InitialCondition(g, choice)| == 12 * |g.nis| + (if NisInit in g.nis then 0 else 1)
    ensures NisInit !in g.nis ==>
      InitialCondition(g, choice)[12 * |g.nis|] == ConditionRow(NisInit, McName("I", ModelAgeGroups[choice]), 1)
    ensures 12 * k + 3 * a + s < |InitialCondition(g, choice)|
    ensures InitialCondition(g, choice)[12 * k + 3 * a + s]
         == ConditionRow(g.nis[k], McName(Stages[s], ModelAgeGroups[a]),
                         if s == 0 then (if a < |g.ages| then g.pop[k][a] else 0)
                         else if s == 1 then (if g.nis[k] == NisInit && a == choice then 1 else 0)
                         else 0)
  {
    SeedRowAppended(g, choice);
    ProductRow(g, choice, k, a, s);
  }

  /** Population of municipality `k` over the age groups the `zip` pairs. */
  function ZippedTotal(g: Grid, k: nat): int
    requires WellFormed(g) && k < |g.nis|
  {
    Total(g.pop[k][..Min(|ModelAgeGroups|, |g.ages|)])
  }

  function ZippedTotals(g: Grid): (t: seq<int>)
    requires WellFormed(g)
    ensures |t| == |g.nis|
    ensures forall k :: 0 <= k < |g.nis| ==> t[k] == ZippedTotal(g, k)
  {
    seq(|g.nis|, k requires 0 <= k < |g.nis| => ZippedTotal(g, k))
  }

  /** One municipality's rows hold its paired population plus the seed if it is Arlon. */
  lemma SubpopBlockTotal(g: Grid, choice: nat, k: nat)
    requires WellFormed(g) && choice < |ModelAgeGroups| && k < |g.nis|
    ensures SumOf(SubpopBlock(g, choice, k), Amount) == ZippedTotal(g, k) + (if g.nis[k] == NisInit then 1 else 0)
  {
    var blocks := AgeBlocks(g, choice, k);
    var padded := Pad(g.pop[k], |ModelAgeGroups|);
    var seeds := Unit(|ModelAgeGroups|, SeedAge(g, choice, k));
    var subtotals := seq(|ModelAgeGroups|, a requires 0 <= a < |ModelAgeGroups| => padded[a] + seeds[a]);
    forall a | 0 <= a < |ModelAgeGroups|
      ensures subtotals[a] == SumOf(blocks[a], Amount)
    {
      var block := AgeBlock(g, choice, k, a);
      assert SumOf(block[2..], Amount) == block[2].amount by {
        assert block[2..][1..] == [];
      }
      assert SumOf(block[1..], Amount) == block[1].amount + SumOf(block[2..], Amount) by {
        assert block[1..][1..] == block[2..];
      }
    }
    SumOfFlatten(blocks, Amount, subtotals);
    TotalPointwise(padded, seeds, subtotals);
    PadTotal(g.pop[k], |ModelAgeGroups|);
    UnitTotal(|ModelAgeGroups|, SeedAge(g, choice, k));
  }

  /**
   * The initial condition holds every person the `zip` pairs with a model
   * age group, plus the one infected seed, whether Arlon is in the data
   * or the seed row is appended.
   */
  lemma InitialConditionTotal(g: Grid, choice: nat)
    requires WellFormed(g) && choice < |ModelAgeGroups|
    ensures SumOf(InitialCondition(g, choice), Amount) == Total(ZippedTotals(g)) + 1
  {
    var blocks := SubpopBlocks(g, choice);
    var seedAt := match IndexOf(g.nis, NisInit) { case Some(i) => i case None => |g.nis| };
    var seeds := Unit(|g.nis|, seedAt);
    var subtotals := seq(|g.nis|, k requires 0 <= k < |g.nis| => ZippedTotal(g, k) + seeds[k]);
    forall k | 0 <= k < |g.nis|
      ensures subtotals[k] == SumOf(blocks[k], Amount)
    {
      SubpopBlockTotal(g, choice, k);
      assert (g.nis[k] == NisInit) == (k == seedAt) by {
        IndexOfDistinct(g.nis, k);
      }
    }
    SumOfFlatten(blocks, Amount, subtotals);
    TotalPointwise(ZippedTotals(g), seeds, subtotals);
    UnitTotal(|g.nis|, seedAt);
    var product := Flatten(blocks);
    if NisInit !in g.nis {
      var extra := [ConditionRow(NisInit, McName("I", ModelAgeGroups[choice]), 1)];
      SumOfAppend(product, extra, Amount);
    }
  }

  /** With four data age groups, the total is the whole population of the grid plus the seed. */
  lemma InitialConditionTotalOfFourAges(g: Grid, choice: nat)
    requires WellFormed(g) && choice < |ModelAgeGroups| && |g.ages| == |ModelAgeGroups|
    ensures SumOf(InitialCondition(g, choice), Amount) == SumOf(Records(g), Population) + 1
  {
    InitialConditionTotal(g, choice);
    var blocks := Blocks(g);
    forall k | 0 <= k < |g.nis|
      ensures ZippedTotals(g)[k] == SumOf(blocks[k], Population)
    {
      assert g.pop[k][..Min(|ModelAgeGroups|, |g.ages|)] == g.pop[k];
      SumOfIsTotal(Block(g, k), Population, g.pop[k]);
    }
    assert Records(g) == Flatten(blocks);
    SumOfFlatten(blocks, Population, ZippedTotals(g));
  }
}

=== FILE: build_initial_condition_total.dfy ===
/**
 * The flepiMoP initial condition without age groups: the long table
 * (municipality, age group, stage) filled with the susceptible population
 * is summed over the age groups, and one infected person is placed in
 * Arlon (NIS 81001).
 */
module InitialConditionTotal {
  import opened Tables
  import opened Demography
  import opened InitialConditionByAge

  /** One row of the long table before the age groups are summed out. */
  datatype LongRow = LongRow(subpop: int, age: string, stage: string, amount: int)

  function LongAmount(r: LongRow): int {
    r.amount
  }

  /** Stage rows `S`, `I`, `R` of municipality `k`, age group `a`: only `S` holds people. */
  function Triple(g: Grid, k: nat, a: nat): (rows: seq<LongRow>)
    requires WellFormed(g) && k < |g.nis| && a < |g.ages|
    ensures |rows| == |Stages|
    ensures forall s :: 0 <= s < |Stages| ==>
      rows[s] == LongRow(g.nis[k], g.ages[a], Stages[s], if s == 0 then g.pop[k][a] else 0)
  {
    seq(|Stages|, s requires 0 <= s < |Stages| =>
      LongRow(g.nis[k], g.ages[a], Stages[s], if s == 0 then g.pop[k][a] else 0))
  }

  function Triples(g: Grid, k: nat): (blocks: seq<seq<LongRow>>)
    requires WellFormed(g) && k < |g.nis|
    ensures |blocks| == |g.ages|
    ensures forall a :: 0 <= a < |g.ages| ==> blocks[a] == Triple(g, k, a)
  {
    seq(|g.ages|, a requires 0 <= a < |g.ages| => Triple(g, k, a))
  }

  function LongBlocks(g: Grid): (blocks: seq<seq<LongRow>>)
    requires WellFormed(g)
    ensures |blocks| == |g.nis|
    ensures forall k :: 0 <= k < |g.nis| ==> blocks[k] == Flatten(Triples(g, k))
  {
    seq(|g.nis|, k requires 0 <= k < |g.nis| => Flatten(Triples(g, k)))
  }

  /** `MultiIndex.from_product([subpops, ages, ['S', 'I', 'R']])` with the susceptibles filled in. */
  function LongTable(g: Grid): seq<LongRow>
    requires WellFormed(g)
  {
    Flatten(LongBlocks(g))
  }

  /** The rows of group `(x, name)`. */
  function InGroup(x: int, name: string): LongRow -> bool {
    (r: LongRow) => r.subpop == x && r.stage == name
  }

  /** The sum over the age groups of group `(x, name)`. */
  function GroupAmount(long: seq<LongRow>, x: int, name: string): int {
    SumOf(Keep(long, InGroup(x, name)), LongAmount)
  }

  /** The stages in the sorted order of the `groupby` keys. */
  const GroupedStages: seq<string> := ["I", "R", "S"]

  /** Strings compared character by character, a prefix first. */
  predicate LexLess(s: string, t: string) {
    (|s| < |t| && s == t[..|s|]) ||
    (exists i :: 0 <= i < |s| && i < |t| && s[..i] == t[..i] && s[i] < t[i])
  }

  /** `I`, `R`, `S` is the sorted order of the stage names. */
  lemma GroupedStagesSorted()
    ensures forall s :: s in Stages <==> s in GroupedStages
    ensures LexLess(GroupedStages[0], GroupedStages[1]) && LexLess(GroupedStages[1], GroupedStages[2])
  {
    assert GroupedStages[0][..0] == GroupedStages[1][..0];
    assert GroupedStages[1][..0] == GroupedStages[2][..0];
  }

  /** The three grouped rows of municipality `x`. */
  function GroupBlock(long: seq<LongRow>, x: int): (rows: seq<ConditionRow>)
    ensures |rows| == |GroupedStages|
    ensures forall s :: 0 <= s < |GroupedStages| ==>
      rows[s] == ConditionRow(x, GroupedStages[s], GroupAmount(long, x, GroupedStages[s]))
  {
    seq(|GroupedStages|, s requires 0 <= s < |GroupedStages| =>
      ConditionRow(x, GroupedStages[s], GroupAmount(long, x, GroupedStages[s])))
  }

  function GroupBlocks(long: seq<LongRow>, keys: seq<int>): (blocks: seq<seq<ConditionRow>>)
    ensures |blocks| == |keys|
    ensures forall i :: 0 <= i < |keys| ==> blocks[i] == GroupBlock(long, keys[i])
  {
    seq(|keys|, i requires 0 <= i < |keys| => GroupBlock(long, keys[i]))
  }

  /** The municipalities in ascending order: the first level of the `groupby` keys. */
  function Subpops(g: Grid): (keys: seq<int>)
    ensures StrictlyIncreasing(keys)
    ensures forall x :: x in keys <==> x in g.nis
  {
    SortedKeys(g.nis)
  }

  /** `groupby(by=['subpop', 'mc_name']).sum()`. */
  function Grouped(g: Grid): seq<ConditionRow>
    requires WellFormed(g)
  {
    Flatten(GroupBlocks(LongTable(g), Subpops(g)))
  }

  /** The row the seed is written to. */
  predicate IsSeedKey(r: ConditionRow) {
    r.subpop == NisInit && r.mcName == "I"
  }

  function SeedRow(r: ConditionRow): ConditionRow {
    if IsSeedKey(r) then r.(amount := 1) else r
  }

  /** `.loc[81001, 'I'] = 1`: every row with that key is set; without one, a row is appended. */
  function Seed(rows: seq<ConditionRow>): (out: seq<ConditionRow>)
  {
    if exists q :: 0 <= q < |rows| && IsSeedKey(rows[q]) then SeedRows(rows)
    else rows + [ConditionRow(NisInit, "I", 1)]
  }

  function SeedRows(rows: seq<ConditionRow>): (out: seq<ConditionRow>)
    ensures |out| == |rows|
    ensures forall q :: 0 <= q < |rows| ==> out[q] == SeedRow(rows[q])
  {
    seq(|rows|, q requires 0 <= q < |rows| => SeedRow(rows[q]))
  }

  /** The script. */
  function InitialConditionWithoutAges(g: Grid): seq<ConditionRow>
    requires WellFormed(g)
  {
    Seed(Grouped(g))
  }

  /** A masked sum over the long table, one municipality block at a time. */
  lemma LongBlockMasked(g: Grid, x: int, name: string, k: nat)
    requires WellFormed(g) && k < |g.nis|
    ensures SumOf(Flatten(Triples(g, k)), Masked(LongAmount, InGroup(x, name)))
         == if name == "S" then SumOf(Block(g, k), Masked(Population, HasKey(Nis, x))) else 0
  {
    var f := Masked(LongAmount, InGroup(x, name));
    var h := Masked(Population, HasKey(Nis, x));
    var block := Block(g, k);
    var cells := seq(|g.ages|, a requires 0 <= a < |g.ages| => if name == "S" then h(block[a]) else 0);
    forall a | 0 <= a < |g.ages|
      ensures cells[a] == SumOf(Triple(g, k, a), f)
    {
      var t := Triple(g, k, a);
      assert SumOf(t[2..], f) == f(t[2]) by {
        assert t[2..][1..] == [];
      }
      assert SumOf(t[1..], f) == f(t[1]) + SumOf(t[2..], f) by {
        assert t[1..][1..] == t[2..];
      }
    }
    SumOfFlatten(Triples(g, k), f, cells);
    if name == "S" {
      SumOfIsTotal(block, h, cells);
    } else {
      TotalZeros(cells);
    }
  }

  /**
   * Summing the long table over the age groups: group `(x, S)` holds the
   * population of municipality `x`, groups `(x, I)` and `(x, R)` hold 0.
   */
  lemma GroupAmountOfLongTable(g: Grid, x: int, name: string)
    requires WellFormed(g)
    ensures GroupAmount(LongTable(g), x, name)
         == if name == "S" then SumOf(Keep(Records(g), HasKey(Nis, x)), Population) else 0
  {
    var f := Masked(LongAmount, InGroup(x, name));
    var h := Masked(Population, HasKey(Nis, x));
    var subtotals := seq(|g.nis|, k requires 0 <= k < |g.nis| =>
      if name == "S" then SumOf(Block(g, k), h) else 0);
    forall k | 0 <= k < |g.nis|
      ensures subtotals[k] == SumOf(LongBlocks(g)[k], f)
    {
      LongBlockMasked(g, x, name, k);
    }
    SumOfKeep(LongTable(g), LongAmount, InGroup(x, name));
    SumOfFlatten(LongBlocks(g), f, subtotals);
    if name == "S" {
      SumOfKeep(Records(g), Population, HasKey(Nis, x));
      assert Records(g) == Flatten(Blocks(g));
      SumOfFlatten(Blocks(g), h, subtotals);
    } else {
      TotalZeros(subtotals);
    }
  }

  lemma {:induction false} SeedRowsAppend(xs: seq<ConditionRow>, ys: seq<ConditionRow>)
    ensures SeedRows(xs + ys) == SeedRows(xs) + SeedRows(ys)
  {
  }

  lemma {:induction false} SeedRowsFlatten(blocks: seq<seq<ConditionRow>>)
    ensures SeedRows(Flatten(blocks)) == Flatten(SeedBlocks(blocks))
  {
    if |blocks| > 0 {
      SeedRowsAppend(blocks[0], Flatten(blocks[1..]));
      SeedRowsFlatten(blocks[1..]);
      assert SeedBlocks(blocks)[1..] == SeedBlocks(blocks[1..]);
    }
  }

  function SeedBlocks(blocks: seq<seq<ConditionRow>>): (out: seq<seq<ConditionRow>>)
    ensures |out| == |blocks|
    ensures forall i :: 0 <= i < |blocks| ==> out[i] == SeedRows(blocks[i])
  {
    seq(|blocks|, i requires 0 <= i < |blocks| => SeedRows(blocks[i]))
  }

  /**
   * The three rows the script should write for municipality `x`: the seed
   * among the infected, nobody recovered, and the municipality's whole
   * population among the susceptibles.
   */
  function ExpectedBlock(g: Grid, x: int): seq<ConditionRow>
    requires WellFormed(g)
  {
    [ConditionRow(x, "I", if x == NisInit then 1 else 0),
     ConditionRow(x, "R", 0),
     ConditionRow(x, "S", SumOf(Keep(Records(g), HasKey(Nis, x)), Population))]
  }

  function ExpectedBlocks(g: Grid): (blocks: seq<seq<ConditionRow>>)
    requires WellFormed(g)
    ensures |blocks| == |Subpops(g)|
    ensures forall i :: 0 <= i < |Subpops(g)| ==> blocks[i] == ExpectedBlock(g, Subpops(g)[i])
  {
    seq(|Subpops(g)|, i requires 0 <= i < |Subpops(g)| => ExpectedBlock(g, Subpops(g)[i]))
  }

  /** The grouped rows of municipality `x`, seeded, are the expected ones; only Arlon's change. */
  lemma SeededGroupBlock(g: Grid, x: int)
    requires WellFormed(g)
    ensures SeedRows(GroupBlock(LongTable(g), x)) == ExpectedBlock(g, x)
    ensures x != NisInit ==> GroupBlock(LongTable(g), x) == ExpectedBlock(g, x)
  {
    var block := GroupBlock(LongTable(g), x);
    var expected := ExpectedBlock(g, x);
    GroupAmountOfLongTable(g, x, "I");
    GroupAmountOfLongTable(g, x, "R");
    GroupAmountOfLongTable(g, x, "S");
    assert SeedRows(block)[0] == expected[0];
    assert SeedRows(block)[1] == expected[1];
    assert SeedRows(block)[2] == expected[2];
  }

  /** The grouped rows hold the seed key exactly when Arlon is one of the municipalities. */
  lemma GroupedHoldsSeedKey(long: seq<LongRow>, keys: seq<int>)
    ensures (exists q :: 0 <= q < |Flatten(GroupBlocks(long, keys))| && IsSeedKey(Flatten(GroupBlocks(long, keys))[q]))
        <==> NisInit in keys
  {
    var blocks := GroupBlocks(long, keys);
    var rows := Flatten(blocks);
    if NisInit in keys {
      var i :| 0 <= i < |keys| && keys[i] == NisInit;
      FlattenIndex(blocks, 3, i, 0);
      assert IsSeedKey(rows[i * 3 + 0]);
    } else {
      forall q | 0 <= q < |rows|
        ensures !IsSeedKey(rows[q])
      {
        FlattenMember(blocks, q);
        var b, j :| 0 <= b < |blocks| && 0 <= j < |blocks[b]| && blocks[b][j] == rows[q];
        assert rows[q].subpop == keys[b];
      }
    }
  }

  /** With Arlon in the data, the seed is set in place, block by block. */
  lemma SeededInPlace(g: Grid)
    requires WellFormed(g) && NisInit in g.nis
    ensures InitialConditionWithoutAges(g) == Flatten(SeedBlocks(GroupBlocks(LongTable(g), Subpops(g))))
  {
    var blocks := GroupBlocks(LongTable(g), Subpops(g));
    assert Grouped(g) == Flatten(blocks);
    assert NisInit in Subpops(g);
    GroupedHoldsSeedKey(LongTable(g), Subpops(g));
    SeedRowsFlatten(blocks);
  }

  /** Without Arlon in the data, the seed is one more row at the end. */
  lemma SeedAppended(g: Grid)
    requires WellFormed(g) && NisInit !in g.nis
    ensures InitialConditionWithoutAges(g) == Grouped(g) + [ConditionRow(NisInit, "I", 1)]
  {
    var rows, long, keys := Grouped(g), LongTable(g), Subpops(g);
    assert rows == Flatten(GroupBlocks(long, keys));
    assert NisInit !in keys;
    GroupedHoldsSeedKey(long, keys);
    forall q | 0 <= q < |rows|
      ensures !IsSeedKey(rows[q])
    {
      assert rows[q] == Flatten(GroupBlocks(long, keys))[q];
    }
    assert InitialConditionWithoutAges(g) == Seed(rows);
  }

  /**
   * The result is, municipality by municipality in ascending order, the
   * expected rows `I`, `R`, `S`; without Arlon in the data the seed is one
   * more row at the end.
   */
  lemma InitialConditionWithoutAgesLayout(g: Grid)
    requires WellFormed(g)
    ensures InitialConditionWithoutAges(g)
         == Flatten(ExpectedBlocks(g)) + (if NisInit in g.nis then [] else [ConditionRow(NisInit, "I", 1)])
  {
    var keys := Subpops(g);
    var blocks := GroupBlocks(LongTable(g), keys);
    if NisInit in g.nis {
      SeededInPlace(g);
      forall i | 0 <= i < |keys|
        ensures SeedBlocks(blocks)[i] == ExpectedBlocks(g)[i]
      {
        SeededGroupBlock(g, keys[i]);
      }
      assert SeedBlocks(blocks) == ExpectedBlocks(g);
      assert Flatten(ExpectedBlocks(g)) + [] == Flatten(ExpectedBlocks(g));
    } else {
      SeedAppended(g);
      forall i | 0 <= i < |keys|
        ensures blocks[i] == ExpectedBlocks(g)[i]
      {
        assert keys[i] != NisInit;
        SeededGroupBlock(g, keys[i]);
      }
      assert blocks == ExpectedBlocks(g);
    }
  }

  /** The susceptibles of a municipality are its row of the grid. */
  lemma SusceptiblesAreRowTotal(g: Grid, k: nat)
    requires WellFormed(g) && k < |g.nis|
    ensures SumOf(Keep(Records(g), HasKey(Nis, g.nis[k])), Population) == RowTotal(g, k)
  {
    MunicipalityTotal(g, k);
  }

  /** The susceptibles of all municipalities add up to the whole population. */
  lemma SusceptiblesTotal(g: Grid)
    requires WellFormed(g)
    ensures Total(GroupSums(Records(g), Nis, Population, Subpops(g))) == SumOf(Records(g), Population)
  {
    var keys := Subpops(g);
    StrictlyIncreasingIsDistinct(keys);
    RecordCodes(g);
    forall q | 0 <= q < |Records(g)|
      ensures Nis(Records(g)[q]) in keys
    {
      assert KeysOf(Records(g), Nis)[q] == Nis(Records(g)[q]);
    }
    GroupSumsTotal(Records(g), Nis, Population, keys);
  }

  /** The seed vector over the municipalities: 1 at Arlon. */
  function SeedVector(keys: seq<int>): (seeds: seq<int>)
    ensures |seeds| == |keys|
  {
    Unit(|keys|, match IndexOf(keys, NisInit) { case Some(i) => i case None => |keys| })
  }

  lemma SeedVectorFacts(keys: seq<int>)
    requires Distinct(keys)
    ensures forall i :: 0 <= i < |keys| ==> SeedVector(keys)[i] == if keys[i] == NisInit then 1 else 0
    ensures Total(SeedVector(keys)) == if NisInit in keys then 1 else 0
  {
    var seedAt := match IndexOf(keys, NisInit) { case Some(i) => i case None => |keys| };
    forall i | 0 <= i < |keys|
      ensures (keys[i] == NisInit) == (i == seedAt)
    {
      IndexOfDistinct(keys, i);
    }
    UnitTotal(|keys|, seedAt);
  }

  /** The result holds the whole population of the data plus the one seed. */
  lemma InitialConditionWithoutAgesTotal(g: Grid)
    requires WellFormed(g)
    ensures SumOf(InitialConditionWithoutAges(g), Amount) == SumOf(Records(g), Population) + 1
  {
    var keys := Subpops(g);
    var expected := ExpectedBlocks(g);
    var susceptible := GroupSums(Records(g), Nis, Population, keys);
    var seeds := SeedVector(keys);
    StrictlyIncreasingIsDistinct(keys);
    SeedVectorFacts(keys);
    SusceptiblesTotal(g);
    var subtotals := seq(|keys|, i requires 0 <= i < |keys| => susceptible[i] + seeds[i]);
    forall i | 0 <= i < |keys|
      ensures subtotals[i] == SumOf(expected[i], Amount)
    {
      ThreeRowTotal(expected[i]);
    }
    SumOfFlatten(expected, Amount, subtotals);
    TotalPointwise(susceptible, seeds, subtotals);
    InitialConditionWithoutAgesLayout(g);
    SumOfAppend(Flatten(expected), if NisInit in g.nis then [] else [ConditionRow(NisInit, "I", 1)], Amount);
  }

  lemma ThreeRowTotal(rows: seq<ConditionRow>)
    requires |rows| == 3
    ensures SumOf(rows, Amount) == rows[0].amount + rows[1].amount + rows[2].amount
  {
    assert SumOf(rows[2..], Amount) == rows[2].amount by {
      assert rows[2..][1..] == [];
    }
    assert SumOf(rows[1..], Amount) == rows[1].amount + SumOf(rows[2..], Amount) by {
      assert rows[1..][1..] == rows[2..];
    }
  }
}

=== FILE: build_mobility.dfy ===
/**
 * The flepiMoP mobility file: the square commuting matrix of the census,
 * one row per origin municipality, rewritten as a long table of
 * `(ori, dest, amount)` rows without the diagonal.
 */
module BuildMobility {
  import opened Wrappers
  import opened Tables

  /** One row of the commuting matrix: the origin's NIS code and its flows, by column position. */
  datatype SourceRow = SourceRow(nis: int, flows: seq<real>)

  /** `data.loc[su].values` does not fit the `n` destinations of `su`. */
  datatype Error = ShapeMismatch(unit: int)

  /** One output row; `rowIndex` is the position the row had before the diagonal was dropped. */
  datatype MobilityRow = MobilityRow(rowIndex: nat, ori: int, dest: int, amount: real)

  function SourceNis(r: SourceRow): int {
    r.nis
  }

  function RowsOf(su: int): SourceRow -> bool {
    (r: SourceRow) => r.nis == su
  }

  /** The flows of origin `su`, which must be exactly one row of `n` values. */
  function Outflows(rows: seq<SourceRow>, su: int, n: nat): (r: Result<seq<real>, Error>)
    ensures r.Success? <==> |Keep(rows, RowsOf(su))| == 1 && |Keep(rows, RowsOf(su))[0].flows| == n
    ensures r.Success? ==> r.value == Keep(rows, RowsOf(su))[0].flows
    ensures r.Failure? ==> r.error == ShapeMismatch(su)
  {
    var matching := Keep(rows, RowsOf(su));
    if |matching| != 1 || |matching[0].flows| != n then Failure(ShapeMismatch(su)) else Success(matching[0].flows)
  }

  /** Every unit from position `k` on has one row of `|units|` flows. */
  predicate FitsFrom(rows: seq<SourceRow>, units: seq<int>, k: nat) {
    forall i :: k <= i < |units| ==> Outflows(rows, units[i], |units|).Success?
  }

  /** The fill loop from unit `k` on: the flows of each origin, or the first misfit. */
  function FillFrom(rows: seq<SourceRow>, units: seq<int>, k: nat): (r: Result<seq<seq<real>>, Error>)
    requires k <= |units|
    ensures r.Success? <==> FitsFrom(rows, units, k)
    ensures r.Success? ==> |r.value| == |units| - k
    ensures r.Success? ==> forall i :: 0 <= i < |r.value| ==> Outflows(rows, units[k + i], |units|) == Success(r.value[i])
    decreases |units| - k
  {
    if k == |units| then Success([])
    else
      var flows :- Outflows(rows, units[k], |units|);
      var rest :- FillFrom(rows, units, k + 1);
      Success([flows] + rest)
  }

  /** Row `(i, j)` of the product index, labelled with its position `i * n + j`. */
  function Pair(units: seq<int>, od: seq<seq<real>>, i: nat, j: nat): MobilityRow
    requires i < |units| && j < |units| && |od| == |units| && |od[i]| == |units|
  {
    MobilityRow(i * |units| + j, units[i], units[j], od[i][j])
  }

  predicate Square(units: seq<int>, od: seq<seq<real>>) {
    |od| == |units| && forall i :: 0 <= i < |od| ==> |od[i]| == |units|
  }

  /** The rows of origin `i`, one per destination. */
  function OriginBlock(units: seq<int>, od: seq<seq<real>>, i: nat): (block: seq<MobilityRow>)
    requires Square(units, od) && i < |units|
    ensures |block| == |units|
    ensures forall j :: 0 <= j < |units| ==> block[j] == Pair(units, od, i, j)
  {
    seq(|units|, j requires 0 <= j < |units| => Pair(units, od, i, j))
  }

  function OriginBlocks(units: seq<int>, od: seq<seq<real>>): (blocks: seq<seq<MobilityRow>>)
    requires Square(units, od)
    ensures |blocks| == |units|
    ensures forall i :: 0 <= i < |units| ==> blocks[i] == OriginBlock(units, od, i)
  {
    seq(|units|, i requires 0 <= i < |units| => OriginBlock(units, od, i))
  }

  /** `MultiIndex.from_product([units, units])` filled and `reset_index`ed. */
  function Product(units: seq<int>, od: seq<seq<real>>): seq<MobilityRow>
    requires Square(units, od)
  {
    Flatten(OriginBlocks(units, od))
  }

  function Label(r: MobilityRow): int {
    r.rowIndex
  }

  /** Position `i * n + j` of the product holds the pair `(i, j)`. */
  lemma ProductCell(units: seq<int>, od: seq<seq<real>>, q: nat)
    requires Square(units, od) && q < |units| * |units|
    ensures |Product(units, od)| == |units| * |units|
    ensures q / |units| < |units| && q % |units| < |units|
    ensures Product(units, od)[q] == Pair(units, od, q / |units|, q % |units|)
  {
    var n := |units|;
    FlatPosition(q, n, n);
    FlattenIndex(OriginBlocks(units, od), n, q / n, q % n);
  }

  /** In the product every row's label is its position. */
  lemma ProductLabels(units: seq<int>, od: seq<seq<real>>)
    requires Square(units, od)
    ensures |Product(units, od)| == |units| * |units|
    ensures forall q :: 0 <= q < |Product(units, od)| ==> Product(units, od)[q].rowIndex == q
  {
    FlattenLength(OriginBlocks(units, od), |units|);
    forall q | 0 <= q < |units| * |units|
      ensures Product(units, od)[q].rowIndex == q
    {
      ProductCell(units, od, q);
      FlatPosition(q, |units|, |units|);
    }
  }

  /** The test that drops the row `(su, su)`. */
  function NotLoopAt(su: int): MobilityRow -> bool {
    (r: MobilityRow) => !(r.ori == su && r.dest == su)
  }

  function OffDiagonal(r: MobilityRow): bool {
    r.ori != r.dest
  }

  /** The drop loop from unit `k` on: every pass removes the diagonal row of one unit. */
  function DropLoops(rows: seq<MobilityRow>, units: seq<int>, k: nat): seq<MobilityRow>
    requires k <= |units|
    decreases |units| - k
  {
    if k == |units| then rows else DropLoops(Keep(rows, NotLoopAt(units[k])), units, k + 1)
  }

  /**
   * The drop loop removes exactly the diagonal: when every diagonal row
   * left has its origin among the units still to visit, the loop keeps the
   * off-diagonal rows and only those.
   */
  lemma {:induction false} DropLoopsIsOffDiagonal(rows: seq<MobilityRow>, units: seq<int>, k: nat)
    requires k <= |units|
    requires forall r :: 0 <= r < |rows| && rows[r].ori == rows[r].dest ==> rows[r].ori in units[k..]
    ensures DropLoops(rows, units, k) == Keep(rows, OffDiagonal)
    decreases |units| - k
  {
    if k == |units| {
      KeepAll(rows, OffDiagonal);
    } else {
      var next := Keep(rows, NotLoopAt(units[k]));
      forall r | 0 <= r < |next| && next[r].ori == next[r].dest
        ensures next[r].ori in units[k + 1..]
      {
        var m :| 0 <= m < |rows| && rows[m] == next[r];
        assert rows[m].ori in units[k..] && rows[m].ori != units[k];
        var t :| 0 <= t < |units[k..]| && units[k..][t] == rows[m].ori;
        assert units[k + 1..][t - 1] == rows[m].ori;
      }
      DropLoopsIsOffDiagonal(next, units, k + 1);
      KeepKeep(rows, NotLoopAt(units[k]), OffDiagonal, OffDiagonal);
    }
  }

  /** The `k`-th destination of origin `i` once its own unit is skipped. */
  function Skip(i: nat, k: nat): nat {
    if k < i then k else k + 1
  }

  /** The origins, in order of first appearance: `data.index.unique()`. */
  function Units(rows: seq<SourceRow>): (units: seq<int>)
    ensures Distinct(units)
    ensures forall x :: x in units <==> x in KeysOf(rows, SourceNis)
  {
    Unique(KeysOf(rows, SourceNis))
  }

  /** The script: fill the product from the matrix rows, then drop the diagonal. */
  function BuildMobility(rows: seq<SourceRow>): (r: Result<seq<MobilityRow>, Error>)
    ensures r.Success? <==> FitsFrom(rows, Units(rows), 0)
  {
    var units := Units(rows);
    var od :- FillFrom(rows, units, 0);
    Success(DropLoops(Product(units, od), units, 0))
  }

  /** Each origin block loses exactly its diagonal row. */
  lemma OffDiagonalBlock(units: seq<int>, od: seq<seq<real>>, i: nat)
    requires Square(units, od) && Distinct(units) && i < |units|
    ensures Keep(OriginBlock(units, od, i), OffDiagonal) == OriginBlock(units, od, i)[..i] + OriginBlock(units, od, i)[i + 1..]
  {
    var block := OriginBlock(units, od, i);
    forall j | 0 <= j < |block|
      ensures OffDiagonal(block[j]) <==> j != i
    {
      if j != i {
        assert units[i] != units[j] by {
          if i < j {
            assert units[i] != units[j];
          } else {
            assert units[j] != units[i];
          }
        }
      }
    }
    KeepAllBut(block, OffDiagonal, i);
  }

  /** The rows of origin `i` to every other destination, in destination order. */
  function OtherDestinations(units: seq<int>, od: seq<seq<real>>, i: nat): (block: seq<MobilityRow>)
    requires Square(units, od) && i < |units|
    ensures |block| == |units| - 1
  {
    seq(|units| - 1, k requires 0 <= k < |units| - 1 => Pair(units, od, i, Skip(i, k)))
  }

  function OffDiagonalBlocks(units: seq<int>, od: seq<seq<real>>): (blocks: seq<seq<MobilityRow>>)
    requires Square(units, od)
    ensures |blocks| == |units|
    ensures forall i :: 0 <= i < |units| ==> blocks[i] == OtherDestinations(units, od, i)
  {
    seq(|units|, i requires 0 <= i < |units| => OtherDestinations(units, od, i))
  }

  /** Origin block `i` without its diagonal row is the block of its other destinations. */
  lemma OffDiagonalRow(units: seq<int>, od: seq<seq<real>>, i: nat)
    requires Square(units, od) && Distinct(units) && i < |units|
    ensures KeepBlocks(OriginBlocks(units, od), OffDiagonal)[i] == OtherDestinations(units, od, i)
  {
    var block := OriginBlock(units, od, i);
    var other := OtherDestinations(units, od, i);
    OffDiagonalBlock(units, od, i);
    var kept := block[..i] + block[i + 1..];
    forall k | 0 <= k < |units| - 1
      ensures kept[k] == other[k]
    {
      if k < i {
        assert kept[k] == block[k];
      } else {
        assert kept[k] == block[k + 1];
      }
    }
  }

  /**
   * Without the diagonal, the product is origin-major: for every origin,
   * its rows to every other destination, in destination order.
   */
  lemma OffDiagonalLayout(units: seq<int>, od: seq<seq<real>>)
    requires Square(units, od) && Distinct(units)
    ensures Keep(Product(units, od), OffDiagonal) == Flatten(OffDiagonalBlocks(units, od))
  {
    var blocks := OriginBlocks(units, od);
    KeepFlatten(blocks, OffDiagonal);
    forall i | 0 <= i < |units|
      ensures KeepBlocks(blocks, OffDiagonal)[i] == OffDiagonalBlocks(units, od)[i]
    {
      OffDiagonalRow(units, od, i);
    }
    assert KeepBlocks(blocks, OffDiagonal) == OffDiagonalBlocks(units, od);
  }

  /**
   * A successful run writes, for every origin in order, one row to every
   * other unit in order, carrying the flow the census row of the origin
   * holds at the destination's position and labelled with its position in
   * the full product.
   */
  lemma BuildMobilityLayout(rows: seq<SourceRow>)
    requires BuildMobility(rows).Success?
    ensures FillFrom(rows, Units(rows), 0).Success? && Square(Units(rows), FillFrom(rows, Units(rows), 0).value)
    ensures forall i :: 0 <= i < |Units(rows)| ==>
      Outflows(rows, Units(rows)[i], |Units(rows)|) == Success(FillFrom(rows, Units(rows), 0).value[i])
    ensures BuildMobility(rows).value == Flatten(OffDiagonalBlocks(Units(rows), FillFrom(rows, Units(rows), 0).value))
  {
    BuildMobilityKeepsOffDiagonal(rows);
    OffDiagonalLayout(Units(rows), FillFrom(rows, Units(rows), 0).value);
  }

  /** A successful run writes one row per ordered pair of distinct units. */
  lemma BuildMobilityLength(rows: seq<SourceRow>)
    requires BuildMobility(rows).Success?
    ensures |BuildMobility(rows).value| == |Units(rows)| * (|Units(rows)| - 1)
  {
    BuildMobilityLayout(rows);
    if |Units(rows)| > 0 {
      FlattenLength(OffDiagonalBlocks(Units(rows), FillFrom(rows, Units(rows), 0).value), |Units(rows)| - 1);
    }
  }

  /** The filled matrix is square, and row `i` holds the flows of origin `i`. */
  lemma FilledSquare(rows: seq<SourceRow>, units: seq<int>)
    requires FillFrom(rows, units, 0).Success?
    ensures Square(units, FillFrom(rows, units, 0).value)
    ensures forall i :: 0 <= i < |units| ==> Outflows(rows, units[i], |units|) == Success(FillFrom(rows, units, 0).value[i])
  {
    var od := FillFrom(rows, units, 0).value;
    forall i | 0 <= i < |units|
      ensures Outflows(rows, units[i], |units|) == Success(od[i]) && |od[i]| == |units|
    {
      assert units[0 + i] == units[i];
    }
  }

  /** A successful run is the product of the filled matrix without its diagonal. */
  lemma BuildMobilityKeepsOffDiagonal(rows: seq<SourceRow>)
    requires BuildMobility(rows).Success?
    ensures FillFrom(rows, Units(rows), 0).Success?
    ensures Square(Units(rows), FillFrom(rows, Units(rows), 0).value)
    ensures forall i :: 0 <= i < |Units(rows)| ==>
      Outflows(rows, Units(rows)[i], |Units(rows)|) == Success(FillFrom(rows, Units(rows), 0).value[i])
    ensures BuildMobility(rows).value == Keep(Product(Units(rows), FillFrom(rows, Units(rows), 0).value), OffDiagonal)
  {
    var units := Units(rows);
    FilledSquare(rows, units);
    var od := FillFrom(rows, units, 0).value;
    assert BuildMobility(rows).value == DropLoops(Product(units, od), units, 0);
    DropOffDiagonal(units, od);
  }

  /** The drop loop over the units removes exactly the product's diagonal. */
  lemma DropOffDiagonal(units: seq<int>, od: seq<seq<real>>)
    requires Square(units, od)
    ensures DropLoops(Product(units, od), units, 0) == Keep(Product(units, od), OffDiagonal)
  {
    var product := Product(units, od);
    FlattenLength(OriginBlocks(units, od), |units|);
    forall r | 0 <= r < |product|
      ensures product[r].ori in units[0..]
    {
      ProductCell(units, od, r);
      assert units[0..] == units;
    }
    DropLoopsIsOffDiagonal(product, units, 0);
  }

  /** The written labels increase strictly: the rows stay in product order. */
  lemma BuildMobilityLabelsIncrease(rows: seq<SourceRow>)
    requires BuildMobility(rows).Success?
    ensures IncreasingBy(BuildMobility(rows).value, Label)
  {
    var units := Units(rows);
    BuildMobilityKeepsOffDiagonal(rows);
    var od := FillFrom(rows, units, 0).value;
    ProductLabels(units, od);
    KeepIncreasing(Product(units, od), Label, OffDiagonal);
  }
}

=== FILE: compartments.dfy ===
/**
 * The S-I-R state over (age, location) cells and the two steps both model
 * classes share: turning a force-of-infection field into derivatives or into
 * per-capita transition rates, and applying realised transition counts.
 */
module Compartments {
  import opened Arrays

  /** The three compartments, each an (age x location) array. Also used for `(dS, dI, dR)`. */
  datatype State = State(S: Matrix, I: Matrix, R: Matrix)

  /**
   * A transition-name map as the jump process exchanges it: `S` holds the
   * list of arrays for the transitions out of S (here only S -> I), `I` the
   * list for those out of I (here only I -> R).
   */
  datatype TransitionMap = TransitionMap(S: seq<Matrix>, I: seq<Matrix>)

  /** S, I and R have one common shape. */
  predicate WellShaped(x: State) {
    SameShape(x.S, x.I) && SameShape(x.S, x.R)
  }

  /** S, I and R are `G x H` arrays. */
  predicate Shaped(x: State, G: nat, H: nat) {
    IsMatrix(x.S, G, H) && IsMatrix(x.I, G, H) && IsMatrix(x.R, G, H)
  }

  predicate NonNegativeState(x: State) {
    NonNegative(x.S) && NonNegative(x.I) && NonNegative(x.R)
  }

  /** `T = S + I + R`, the head-count of every cell. */
  function Total(x: State): (T: Matrix)
    requires WellShaped(x)
    ensures SameShape(T, x.S)
  {
    Add(Add(x.S, x.I), x.R)
  }

  /** Every cell has a non-zero head-count, so `I / (S + I + R)` is defined. */
  predicate Populated(x: State)
    requires WellShaped(x)
  {
    forall i, j :: 0 <= i < |x.S| && 0 <= j < |x.S[i]| ==> x.S[i][j] + x.I[i][j] + x.R[i][j] != 0.0
  }

  /** The infectious fraction `I / (S + I + R)` of every cell. */
  function Prevalence(x: State): (P: Matrix)
    requires WellShaped(x) && Populated(x)
    ensures SameShape(P, x.S)
  {
    Quotient(x.I, Total(x))
  }

  /** Each prevalence times its cell's head-count gives back the infectious count. */
  lemma PrevalenceEntry(x: State, i: nat, j: nat)
    requires WellShaped(x) && Populated(x)
    requires i < |x.S| && j < |x.S[i]|
    ensures Prevalence(x)[i][j] * (x.S[i][j] + x.I[i][j] + x.R[i][j]) == x.I[i][j]
  {
    var T := x.S[i][j] + x.I[i][j] + x.R[i][j];
    assert Prevalence(x)[i][j] == x.I[i][j] / T;
  }

  /**
   * The SIR differentials for a given force of infection `l`:
   * `dS = -l*S`, `dI = l*S - I/gamma`, `dR = I/gamma`.
   */
  function Derivatives(l: Matrix, x: State, gamma: real): (d: State)
    requires WellShaped(x) && SameShape(l, x.S)
    requires gamma != 0.0
    ensures WellShaped(d) && SameShape(d.S, x.S)
    ensures forall i, j :: 0 <= i < |d.S| && 0 <= j < |d.S[i]| ==>
      d.S[i][j] + d.I[i][j] + d.R[i][j] == 0.0
  {
    var infections := Hadamard(l, x.S);
    var recoveries := Scale(1.0 / gamma, x.I);
    State(Neg(infections), Sub(infections, recoveries), recoveries)
  }

  /**
   * The jump-process rates for a given force of infection `l`: `'S' -> [l]`
   * (per susceptible, not multiplied by S) and `'I' -> [1/gamma everywhere]`.
   */
  function PerCapitaRates(l: Matrix, x: State, gamma: real): (r: TransitionMap)
    requires gamma != 0.0
    ensures |r.S| == 1 && |r.I| == 1
    ensures r.S[0] == l
    ensures SameShape(r.I[0], x.S)
    ensures forall i, j :: 0 <= i < |x.S| && 0 <= j < |x.S[i]| ==> r.I[0][i][j] * gamma == 1.0
  {
    TransitionMap([l], [ConstLike(x.S, 1.0 / gamma)])
  }

  /** The transition counts `c` fit the state `x`: one array per transition list, shaped like S. */
  predicate CountsFit(c: TransitionMap, x: State) {
    |c.S| >= 1 && |c.I| >= 1 && SameShape(c.S[0], x.S) && SameShape(c.I[0], x.S)
  }

  /**
   * The tau-leap update: `S - n_SI`, `I + n_SI - n_IR`, `R + n_IR`, where
   * `n_SI` and `n_IR` are the first arrays of the `'S'` and `'I'` entries.
   * No clamping: S goes negative exactly where more infections were drawn
   * than there were susceptibles.
   */
  function ApplyTransitionings(tau: real, c: TransitionMap, x: State): (y: State)
    requires WellShaped(x) && CountsFit(c, x)
    ensures WellShaped(y) && SameShape(y.S, x.S)
    ensures forall i, j :: 0 <= i < |x.S| && 0 <= j < |x.S[i]| ==>
      y.S[i][j] + y.I[i][j] + y.R[i][j] == x.S[i][j] + x.I[i][j] + x.R[i][j]
    ensures forall i, j :: 0 <= i < |x.S| && 0 <= j < |x.S[i]| ==>
      (y.S[i][j] >= 0.0 <==> c.S[0][i][j] <= x.S[i][j])
    ensures forall i, j :: 0 <= i < |x.S| && 0 <= j < |x.S[i]| ==>
      (y.R[i][j] >= x.R[i][j] <==> c.I[0][i][j] >= 0.0)
  {
    var infections := c.S[0];
    var recoveries := c.I[0];
    State(Sub(x.S, infections), Sub(Add(x.I, infections), recoveries), Add(x.R, recoveries))
  }

  /** Drawing no transitions leaves the state as it was. */
  lemma NoTransitionsNoChange(tau: real, c: TransitionMap, x: State)
    requires WellShaped(x) && CountsFit(c, x)
    requires AllZero(c.S[0]) && AllZero(c.I[0])
    ensures ApplyTransitionings(tau, c, x) == x
  {
    var y := ApplyTransitionings(tau, c, x);
    MatrixExtensionality(y.S, x.S);
    MatrixExtensionality(y.I, x.I);
    MatrixExtensionality(y.R, x.R);
  }

  /**
   * Tying the two model flavours together: if the realised counts equal
   * their mean-field values `tau * rate * compartment`, the jump update is
   * one explicit Euler step of the derivatives.
   */
  lemma MeanFieldJumpIsEulerStep(tau: real, l: Matrix, x: State, gamma: real, c: TransitionMap)
    requires WellShaped(x) && SameShape(l, x.S) && gamma != 0.0
    requires CountsFit(c, x)
    requires forall i, j :: 0 <= i < |x.S| && 0 <= j < |x.S[i]| ==>
      c.S[0][i][j] == tau * PerCapitaRates(l, x, gamma).S[0][i][j] * x.S[i][j]
    requires forall i, j :: 0 <= i < |x.S| && 0 <= j < |x.S[i]| ==>
      c.I[0][i][j] == tau * PerCapitaRates(l, x, gamma).I[0][i][j] * x.I[i][j]
    ensures WellShaped(ApplyTransitionings(tau, c, x)) && SameShape(ApplyTransitionings(tau, c, x).S, x.S)
    ensures forall i, j :: 0 <= i < |x.S| && 0 <= j < |x.S[i]| ==>
      ApplyTransitionings(tau, c, x).S[i][j] == x.S[i][j] + tau * Derivatives(l, x, gamma).S[i][j]
    ensures forall i, j :: 0 <= i < |x.S| && 0 <= j < |x.S[i]| ==>
      ApplyTransitionings(tau, c, x).I[i][j] == x.I[i][j] + tau * Derivatives(l, x, gamma).I[i][j]
    ensures forall i, j :: 0 <= i < |x.S| && 0 <= j < |x.S[i]| ==>
      ApplyTransitionings(tau, c, x).R[i][j] == x.R[i][j] + tau * Derivatives(l, x, gamma).R[i][j]
  {
    var r := PerCapitaRates(l, x, gamma);
    forall i, j | 0 <= i < |x.S| && 0 <= j < |x.S[i]|
      ensures ApplyTransitionings(tau, c, x).S[i][j] == x.S[i][j] + tau * Derivatives(l, x, gamma).S[i][j]
      ensures ApplyTransitionings(tau, c, x).I[i][j] == x.I[i][j] + tau * Derivatives(l, x, gamma).I[i][j]
      ensures ApplyTransitionings(tau, c, x).R[i][j] == x.R[i][j] + tau * Derivatives(l, x, gamma).R[i][j]
    {
      assert r.I[0][i][j] == 1.0 / gamma;
      MeanFieldCell(tau, l, x, gamma, c, i, j);
    }
  }

  /** One cell of `MeanFieldJumpIsEulerStep`. */
  lemma MeanFieldCell(tau: real, l: Matrix, x: State, gamma: real, c: TransitionMap, i: nat, j: nat)
    requires WellShaped(x) && SameShape(l, x.S) && gamma != 0.0 && CountsFit(c, x)
    requires i < |x.S| && j < |x.S[i]|
    requires c.S[0][i][j] == tau * l[i][j] * x.S[i][j]
    requires c.I[0][i][j] == tau * (1.0 / gamma) * x.I[i][j]
    ensures ApplyTransitionings(tau, c, x).S[i][j] == x.S[i][j] + tau * Derivatives(l, x, gamma).S[i][j]
    ensures ApplyTransitionings(tau, c, x).I[i][j] == x.I[i][j] + tau * Derivatives(l, x, gamma).I[i][j]
    ensures ApplyTransitionings(tau, c, x).R[i][j] == x.R[i][j] + tau * Derivatives(l, x, gamma).R[i][j]
  {
    var g := 1.0 / gamma;
    var d := Derivatives(l, x, gamma);
    assert d.S[i][j] == - (l[i][j] * x.S[i][j]);
    assert d.I[i][j] == l[i][j] * x.S[i][j] - g * x.I[i][j];
    assert d.R[i][j] == g * x.I[i][j];
    EulerCell(tau, l[i][j], x.S[i][j], g, x.I[i][j]);
  }

  /** One cell of the mean-field jump: moving `tau l s` and `tau g v` is an Euler step of length `tau`. */
  lemma EulerCell(tau: real, l: real, s: real, g: real, v: real)
    ensures s - tau * l * s == s + tau * - (l * s)
    ensures v + tau * l * s - tau * g * v == v + tau * (l * s - g * v)
    ensures tau * g * v == tau * (g * v)
  {
  }

  /** Without infection pressure and without infectious individuals nothing moves. */
  lemma DerivativesAtRest(l: Matrix, x: State, gamma: real)
    requires WellShaped(x) && SameShape(l, x.S) && gamma != 0.0
    requires AllZero(l) && AllZero(x.I)
    ensures var d := Derivatives(l, x, gamma);
            AllZero(d.S) && AllZero(d.I) && AllZero(d.R)
  {
  }

  /** A non-negative force of infection drains S and, with `gamma > 0`, fills R. */
  lemma DerivativeSigns(l: Matrix, x: State, gamma: real)
    requires WellShaped(x) && SameShape(l, x.S) && gamma > 0.0
    requires NonNegative(l) && NonNegativeState(x)
    ensures var d := Derivatives(l, x, gamma);
            forall i, j :: 0 <= i < |x.S| && 0 <= j < |x.S[i]| ==> d.S[i][j] <= 0.0 && d.R[i][j] >= 0.0
  {
    var d := Derivatives(l, x, gamma);
    forall i, j | 0 <= i < |x.S| && 0 <= j < |x.S[i]|
      ensures d.S[i][j] <= 0.0 && d.R[i][j] >= 0.0
    {
      assert l[i][j] * x.S[i][j] >= 0.0;
      assert 1.0 / gamma > 0.0;
      assert (1.0 / gamma) * x.I[i][j] >= 0.0;
    }
  }

  /**
   * The derivatives are the per-capita rates times the compartments they
   * drain: `dS = -r_S S`, `dI = r_S S - r_I I`, `dR = r_I I`.
   */
  lemma RatesDriveDerivatives(l: Matrix, x: State, gamma: real)
    requires WellShaped(x) && SameShape(l, x.S) && gamma != 0.0
    ensures var d := Derivatives(l, x, gamma);
            var r := PerCapitaRates(l, x, gamma);
            forall i, j :: 0 <= i < |x.S| && 0 <= j < |x.S[i]| ==>
              && d.S[i][j] == - r.S[0][i][j] * x.S[i][j]
              && d.I[i][j] == r.S[0][i][j] * x.S[i][j] - r.I[0][i][j] * x.I[i][j]
              && d.R[i][j] == r.I[0][i][j] * x.I[i][j]
  {
  }
}

=== FILE: contact_model.dfy ===
/**
 * The age x location SIR engine that builds the four-index contact tensor
 * `C[a][b][c][d] = (1 - f_v) N[a][b] [c == d] + f_v N[a][b] M[c][d]`
 * and contracts it with the prevalence `I / (S + I + R)`; both its ODE
 * right-hand side and its tau-leaping rates use this force of infection.
 */
module ContactModel {
  import opened Arrays
  import opened Compartments

  /** A four-index array `C[a][b][c][d]` over (age, age, location, location). */
  type Tensor4 = seq<seq<seq<seq<real>>>>

  /** `C` has shape `G x G x H x H`. */
  predicate IsTensor4(C: Tensor4, G: nat, H: nat) {
    && |C| == G
    && (forall a :: 0 <= a < G ==> |C[a]| == G)
    && (forall a, b :: 0 <= a < G && 0 <= b < G ==> |C[a][b]| == H)
    && (forall a, b, c :: 0 <= a < G && 0 <= b < G && 0 <= c < H ==> |C[a][b][c]| == H)
  }

  /** A square array. */
  predicate IsSquare(A: Matrix) {
    IsMatrix(A, |A|, |A|)
  }

  /**
   * The inputs fit together: `N` is `G x G`, `M` is `H x H`, and S, I, R
   * are `G x H` (ages by locations).
   */
  predicate Compatible(x: State, N: Matrix, M: Matrix) {
    IsSquare(N) && IsSquare(M) && Shaped(x, |N|, |M|)
  }

  /** The `n x n` identity, numpy `np.eye(n)`. */
  function Eye(n: nat): (E: Matrix)
    ensures IsMatrix(E, n, n)
  {
    seq(n, i => seq(n, j => if i == j then 1.0 else 0.0))
  }

  /** Outer product of two square arrays, einsum `'ab,cd->abcd'`. */
  function Outer(A: Matrix, B: Matrix): (C: Tensor4)
    requires IsSquare(A) && IsSquare(B)
    ensures IsTensor4(C, |A|, |B|)
  {
    seq(|A|, a requires 0 <= a < |A| =>
      seq(|A|, b requires 0 <= b < |A| =>
        seq(|B|, c requires 0 <= c < |B| =>
          seq(|B|, d requires 0 <= d < |B| => A[a][b] * B[c][d]))))
  }

  /** `x * C1 + y * C2` entry by entry. */
  function Combine(x: real, C1: Tensor4, y: real, C2: Tensor4, G: nat, H: nat): (C: Tensor4)
    requires IsTensor4(C1, G, H) && IsTensor4(C2, G, H)
    ensures IsTensor4(C, G, H)
  {
    seq(G, a requires 0 <= a < G =>
      seq(G, b requires 0 <= b < G =>
        seq(H, c requires 0 <= c < H =>
          seq(H, d requires 0 <= d < H => x * C1[a][b][c][d] + y * C2[a][b][c][d]))))
  }

  /**
   * `C` is the contact tensor of `N`, `M` and `f_v`:
   * `C[a][b][c][d] = (1 - f_v) N[a][b] [c == d] + f_v N[a][b] M[c][d]`.
   */
  predicate IsContactTensor(C: Tensor4, N: Matrix, M: Matrix, fv: real)
    requires IsSquare(N) && IsSquare(M)
  {
    && IsTensor4(C, |N|, |M|)
    && forall a, b, c, d :: 0 <= a < |N| && 0 <= b < |N| && 0 <= c < |M| && 0 <= d < |M| ==>
         C[a][b][c][d] == (1.0 - fv) * N[a][b] * (if c == d then 1.0 else 0.0) + fv * N[a][b] * M[c][d]
  }

  /**
   * The contact tensor as the source assembles it: a share `1 - f_v` of the
   * contacts `N` happens at home (identity over locations) and a share `f_v`
   * at the destinations that `M` weights.
   */
  function ContactTensor(N: Matrix, M: Matrix, fv: real): (C: Tensor4)
    requires IsSquare(N) && IsSquare(M)
    ensures IsContactTensor(C, N, M, fv)
  {
    Combine(1.0 - fv, Outer(N, Eye(|M|)), fv, Outer(N, M), |N|, |M|)
  }

  /** The summands `sum_d C[a][b][c][d] * X[b][d]` of one contracted entry, one per origin age `b`. */
  function ContractTerms(C: Tensor4, X: Matrix, G: nat, H: nat, a: nat, c: nat): (t: seq<real>)
    requires IsTensor4(C, G, H) && IsMatrix(X, G, H) && a < G && c < H
    ensures |t| == G
  {
    seq(G, b requires 0 <= b < G => Dot(C[a][b][c], X[b]))
  }

  /** einsum `'abcd,bd->ac'`: `L[a][c] = sum_b sum_d C[a][b][c][d] * X[b][d]`. */
  function Contract(C: Tensor4, X: Matrix, G: nat, H: nat): (L: Matrix)
    requires IsTensor4(C, G, H) && IsMatrix(X, G, H)
    ensures IsMatrix(L, G, H)
  {
    seq(G, a requires 0 <= a < G =>
      seq(H, c requires 0 <= c < H => Sum(ContractTerms(C, X, G, H, a, c))))
  }

  /** One entry of the contraction is the sum of its summands. */
  lemma ContractEntry(C: Tensor4, X: Matrix, G: nat, H: nat, a: nat, c: nat)
    requires IsTensor4(C, G, H) && IsMatrix(X, G, H) && a < G && c < H
    ensures Contract(C, X, G, H)[a][c] == Sum(ContractTerms(C, X, G, H, a, c))
  {
  }

  /** The force of infection `beta * einsum('abcd,bd->ac', C, I / (S + I + R))`. */
  function ForceOfInfection(beta: real, C: Tensor4, x: State): (l: Matrix)
    requires Shaped(x, |x.S|, Cols(x.S)) && Populated(x)
    requires IsTensor4(C, |x.S|, Cols(x.S))
    ensures IsMatrix(l, |x.S|, Cols(x.S))
  {
    Scale(beta, Contract(C, Prevalence(x), |x.S|, Cols(x.S)))
  }

  /** Infection pressure on age `a` from its own location `c`: `sum_b N[a][b] * P[b][c]`. */
  function HomeTerm(N: Matrix, P: Matrix, a: nat, c: nat): real
    requires IsSquare(N) && a < |N| && |P| == |N|
    requires forall b :: 0 <= b < |P| ==> c < |P[b]|
  {
    Sum(HomeTerms(N, P, a, c))
  }

  /** The summands `N[a][b] * P[b][c]` of the home term, one per contacted age `b`. */
  function HomeTerms(N: Matrix, P: Matrix, a: nat, c: nat): (t: seq<real>)
    requires IsSquare(N) && a < |N| && |P| == |N|
    requires forall b :: 0 <= b < |P| ==> c < |P[b]|
    ensures |t| == |N|
  {
    seq(|N|, b requires 0 <= b < |N| => N[a][b] * P[b][c])
  }

  /** Infection pressure on age `a` of location `c` from the places it visits: `sum_b N[a][b] * sum_d M[c][d] * P[b][d]`. */
  function VisitTerm(N: Matrix, M: Matrix, P: Matrix, a: nat, c: nat): real
    requires IsSquare(N) && IsSquare(M) && a < |N| && c < |M| && IsMatrix(P, |N|, |M|)
  {
    Sum(VisitTerms(N, M, P, a, c))
  }

  /** The summands `N[a][b] * sum_d M[c][d] * P[b][d]` of the visiting term. */
  function VisitTerms(N: Matrix, M: Matrix, P: Matrix, a: nat, c: nat): (t: seq<real>)
    requires IsSquare(N) && IsSquare(M) && a < |N| && c < |M| && IsMatrix(P, |N|, |M|)
    ensures |t| == |N|
  {
    seq(|N|, b requires 0 <= b < |N| => N[a][b] * Dot(M[c], P[b]))
  }

  /** A share `1 - f_v` of the home pressure `h` and a share `f_v` of the visiting pressure `v`. */
  function Mixture(fv: real, h: real, v: real): real {
    (1.0 - fv) * h + fv * v
  }

  /** Mixtures with one `f_v` add component-wise. */
  lemma MixtureAdd(fv: real, h1: real, v1: real, h2: real, v2: real)
    ensures Mixture(fv, h1, v1) + Mixture(fv, h2, v2) == Mixture(fv, h1 + h2, v1 + v2)
  {
  }

  /** Summing mixtures term by term gives the mixture of the sums. */
  lemma {:induction false} SumOfMixtures(h: seq<real>, v: seq<real>, u: seq<real>, fv: real)
    requires |h| == |v| == |u|
    requires forall k :: 0 <= k < |u| ==> u[k] == Mixture(fv, h[k], v[k])
    ensures Sum(u) == Mixture(fv, Sum(h), Sum(v))
    decreases |u|
  {
    if |u| == 0 {
      assert Mixture(fv, 0.0, 0.0) == 0.0;
    } else {
      SumOfMixtures(h[1..], v[1..], u[1..], fv);
      MixtureAdd(fv, h[0], v[0], Sum(h[1..]), Sum(v[1..]));
    }
  }

  /** A mixture of non-negative pressures with `0 <= f_v <= 1` is non-negative. */
  lemma MixtureOfNonNegatives(fv: real, h: real, v: real)
    requires 0.0 <= fv <= 1.0 && h >= 0.0 && v >= 0.0
    ensures Mixture(fv, h, v) >= 0.0
  {
    ProductNonNegative(1.0 - fv, h);
    ProductNonNegative(fv, v);
  }

  /** `(u*n)*p + (f*n)*q == u*(n*p) + f*(n*q)`, proved apart from any other fact. */
  lemma Regroup(u: real, n: real, p: real, f: real, q: real)
    ensures (u * n) * p + (f * n) * q == u * (n * p) + f * (n * q)
  {
  }

  /** One inner sum over destinations: the identity picks out `d = c`, the rest is weighted by `M`. */
  lemma InnerContraction(C: Tensor4, N: Matrix, M: Matrix, fv: real, P: Matrix, a: nat, b: nat, c: nat)
    requires IsSquare(N) && IsSquare(M) && IsMatrix(P, |N|, |M|)
    requires IsContactTensor(C, N, M, fv)
    requires a < |N| && b < |N| && c < |M|
    ensures Dot(C[a][b][c], P[b]) == (1.0 - fv) * (N[a][b] * P[b][c]) + fv * (N[a][b] * Dot(M[c], P[b]))
  {
    var H := |M|;
    var w, z := (1.0 - fv) * N[a][b], fv * N[a][b];
    var unit := seq(H, d requires 0 <= d < H => if c == d then 1.0 else 0.0);
    DotLinear(C[a][b][c], unit, M[c], P[b], w, z);
    DotUnit(unit, P[b], c);
    Regroup(1.0 - fv, N[a][b], P[b][c], fv, Dot(M[c], P[b]));
  }

  /** One summand of a contracted entry is the mixture of the home and visiting summands. */
  lemma ContractTermSplit(C: Tensor4, N: Matrix, M: Matrix, fv: real, P: Matrix, a: nat, b: nat, c: nat)
    requires IsSquare(N) && IsSquare(M) && IsMatrix(P, |N|, |M|)
    requires IsContactTensor(C, N, M, fv)
    requires a < |N| && b < |N| && c < |M|
    ensures ContractTerms(C, P, |N|, |M|, a, c)[b] == Mixture(fv, HomeTerms(N, P, a, c)[b], VisitTerms(N, M, P, a, c)[b])
  {
    InnerContraction(C, N, M, fv, P, a, b, c);
  }

  /** Every summand of a contracted entry splits that way. */
  lemma ContractTermsSplit(C: Tensor4, N: Matrix, M: Matrix, fv: real, P: Matrix, a: nat, c: nat)
    requires IsSquare(N) && IsSquare(M) && IsMatrix(P, |N|, |M|)
    requires IsContactTensor(C, N, M, fv)
    requires a < |N| && c < |M|
    ensures forall b :: 0 <= b < |N| ==>
      ContractTerms(C, P, |N|, |M|, a, c)[b] == Mixture(fv, HomeTerms(N, P, a, c)[b], VisitTerms(N, M, P, a, c)[b])
  {
    forall b | 0 <= b < |N|
      ensures ContractTerms(C, P, |N|, |M|, a, c)[b] == Mixture(fv, HomeTerms(N, P, a, c)[b], VisitTerms(N, M, P, a, c)[b])
    {
      ContractTermSplit(C, N, M, fv, P, a, b, c);
    }
  }

  /**
   * Contracting a contact tensor with any `G x H` array `P` splits into
   * its two parts: `(1 - f_v) * HomeTerm + f_v * VisitTerm`.
   */
  lemma ContractionDecomposition(C: Tensor4, N: Matrix, M: Matrix, fv: real, P: Matrix, a: nat, c: nat)
    requires IsSquare(N) && IsSquare(M) && IsMatrix(P, |N|, |M|)
    requires IsContactTensor(C, N, M, fv)
    requires a < |N| && c < |M|
    ensures Contract(C, P, |N|, |M|)[a][c] == Mixture(fv, HomeTerm(N, P, a, c), VisitTerm(N, M, P, a, c))
  {
    var outer := ContractTerms(C, P, |N|, |M|, a, c);
    var home := HomeTerms(N, P, a, c);
    var visit := VisitTerms(N, M, P, a, c);
    ContractTermsSplit(C, N, M, fv, P, a, c);
    SumOfMixtures(home, visit, outer, fv);
    ContractEntry(C, P, |N|, |M|, a, c);
  }

  /** A scaled contraction entry, over any `G x H` array `P`. */
  lemma ScaledContraction(beta: real, C: Tensor4, N: Matrix, M: Matrix, fv: real, P: Matrix, a: nat, c: nat)
    requires IsSquare(N) && IsSquare(M) && IsMatrix(P, |N|, |M|)
    requires IsContactTensor(C, N, M, fv)
    requires a < |N| && c < |M|
    ensures Scale(beta, Contract(C, P, |N|, |M|))[a][c] == beta * Mixture(fv, HomeTerm(N, P, a, c), VisitTerm(N, M, P, a, c))
  {
    ContractionDecomposition(C, N, M, fv, P, a, c);
  }

  /**
   * The force of infection splits into its home and visiting parts:
   * `l[a][c] = beta * ((1 - f_v) * HomeTerm + f_v * VisitTerm)` over the prevalence.
   */
  lemma ForceDecomposition(beta: real, N: Matrix, M: Matrix, fv: real, x: State, a: nat, c: nat)
    requires Compatible(x, N, M) && Populated(x)
    requires a < |N| && c < |M|
    ensures Cols(x.S) == |M|
    ensures ForceOfInfection(beta, ContactTensor(N, M, fv), x)[a][c]
         == beta * Mixture(fv, HomeTerm(N, Prevalence(x), a, c), VisitTerm(N, M, Prevalence(x), a, c))
  {
    var C, P := ContactTensor(N, M, fv), Prevalence(x);
    assert |x.S| == |N| && Cols(x.S) == |M|;
    assert ForceOfInfection(beta, C, x) == Scale(beta, Contract(C, P, |N|, |M|));
    ScaledContraction(beta, C, N, M, fv, P, a, c);
  }

  /** With `f_v = 0` only the home contacts remain. */
  lemma ForceWithoutVisits(beta: real, N: Matrix, M: Matrix, x: State, a: nat, c: nat)
    requires Compatible(x, N, M) && Populated(x)
    requires a < |N| && c < |M|
    ensures Cols(x.S) == |M|
    ensures ForceOfInfection(beta, ContactTensor(N, M, 0.0), x)[a][c] == beta * HomeTerm(N, Prevalence(x), a, c)
  {
    ForceDecomposition(beta, N, M, 0.0, x, a, c);
  }

  /** With `f_v = 1` the identity (home) part of the tensor vanishes. */
  lemma ForceOnlyVisits(beta: real, N: Matrix, M: Matrix, x: State, a: nat, c: nat)
    requires Compatible(x, N, M) && Populated(x)
    requires a < |N| && c < |M|
    ensures Cols(x.S) == |M|
    ensures ForceOfInfection(beta, ContactTensor(N, M, 1.0), x)[a][c] == beta * VisitTerm(N, M, Prevalence(x), a, c)
  {
    ForceDecomposition(beta, N, M, 1.0, x, a, c);
  }

  /** The prevalence of a state with no infectious individuals is zero everywhere. */
  lemma PrevalenceOfNoInfection(x: State)
    requires WellShaped(x) && Populated(x) && AllZero(x.I)
    ensures AllZero(Prevalence(x))
  {
  }

  /** The prevalence of a non-negative, populated state lies in `[0, 1]`. */
  lemma PrevalenceIsFraction(x: State)
    requires WellShaped(x) && Populated(x) && NonNegativeState(x)
    ensures NonNegative(Prevalence(x))
    ensures forall i, j :: 0 <= i < |x.S| && 0 <= j < |x.S[i]| ==> Prevalence(x)[i][j] <= 1.0
  {
    var P := Prevalence(x);
    forall i, j | 0 <= i < |P| && 0 <= j < |P[i]|
      ensures 0.0 <= P[i][j] <= 1.0
    {
      var T := x.S[i][j] + x.I[i][j] + x.R[i][j];
      assert T > 0.0 && 0.0 <= x.I[i][j] <= T;
      assert P[i][j] == x.I[i][j] / T;
      FractionBounds(x.I[i][j], T);
    }
  }

  /** Contracting a contact tensor with a zero prevalence gives zero everywhere. */
  lemma ContractionOfZero(C: Tensor4, N: Matrix, M: Matrix, fv: real, P: Matrix)
    requires IsSquare(N) && IsSquare(M) && IsMatrix(P, |N|, |M|)
    requires IsContactTensor(C, N, M, fv) && AllZero(P)
    ensures AllZero(Contract(C, P, |N|, |M|))
  {
    var L := Contract(C, P, |N|, |M|);
    forall a, c | 0 <= a < |L| && 0 <= c < |L[a]|
      ensures L[a][c] == 0.0
    {
      ContractionDecomposition(C, N, M, fv, P, a, c);
      SumOfZeros(HomeTerms(N, P, a, c));
      forall b | 0 <= b < |N|
        ensures Dot(M[c], P[b]) == 0.0
      {
        DotZeroRight(M[c], P[b]);
      }
      SumOfZeros(VisitTerms(N, M, P, a, c));
    }
  }

  /** With non-negative `N`, `M`, `P` and `0 <= f_v <= 1` the contraction is non-negative. */
  lemma ContractionNonNegative(C: Tensor4, N: Matrix, M: Matrix, fv: real, P: Matrix)
    requires IsSquare(N) && IsSquare(M) && IsMatrix(P, |N|, |M|)
    requires IsContactTensor(C, N, M, fv)
    requires NonNegative(N) && NonNegative(M) && NonNegative(P) && 0.0 <= fv <= 1.0
    ensures NonNegative(Contract(C, P, |N|, |M|))
  {
    var L := Contract(C, P, |N|, |M|);
    forall a, c | 0 <= a < |L| && 0 <= c < |L[a]|
      ensures L[a][c] >= 0.0
    {
      ContractionDecomposition(C, N, M, fv, P, a, c);
      var home := HomeTerms(N, P, a, c);
      var visit := VisitTerms(N, M, P, a, c);
      forall b | 0 <= b < |N|
        ensures home[b] >= 0.0 && visit[b] >= 0.0
      {
        DotNonNegative(M[c], P[b]);
      }
      SumNonNegative(home);
      SumNonNegative(visit);
      MixtureOfNonNegatives(fv, HomeTerm(N, P, a, c), VisitTerm(N, M, P, a, c));
    }
  }

  /** `spatial_ODE_SIR.integrate`: the derivatives of S, I and R; they cancel in every cell. */
  function Integrate(t: real, x: State, beta: real, gamma: real, fv: real, N: Matrix, M: Matrix): (d: State)
    requires Compatible(x, N, M) && Populated(x) && gamma != 0.0
    ensures Shaped(d, |N|, |M|)
    ensures forall a, c :: 0 <= a < |N| && 0 <= c < |M| ==> d.S[a][c] + d.I[a][c] + d.R[a][c] == 0.0
    ensures d == Derivatives(ForceOfInfection(beta, ContactTensor(N, M, fv), x), x, gamma)
  {
    var l := ForceOfInfection(beta, ContactTensor(N, M, fv), x);
    Derivatives(l, x, gamma)
  }

  /**
   * `spatial_TL_SIR.compute_rates`: `'S' -> [l]` with the same force of
   * infection as `Integrate`, and `'I' -> [1/gamma in every cell]`.
   */
  function ComputeRates(t: real, x: State, beta: real, gamma: real, fv: real, N: Matrix, M: Matrix): (r: TransitionMap)
    requires Compatible(x, N, M) && Populated(x) && gamma != 0.0
    ensures |r.S| == 1 && |r.I| == 1
    ensures IsMatrix(r.S[0], |N|, |M|) && IsMatrix(r.I[0], |N|, |M|)
    ensures forall a, c :: 0 <= a < |N| && 0 <= c < |M| ==> r.I[0][a][c] * gamma == 1.0
    ensures r.S[0] == ForceOfInfection(beta, ContactTensor(N, M, fv), x)
  {
    var l := ForceOfInfection(beta, ContactTensor(N, M, fv), x);
    PerCapitaRates(l, x, gamma)
  }

  /**
   * The S -> I rate of one cell, written out: `beta` times the mixture of
   * home contacts `sum_b N[a][b] P[b][c]` and visits
   * `sum_b sum_d N[a][b] M[c][d] P[b][d]`, with `P = I / (S + I + R)`.
   */
  lemma ComputeRatesCell(t: real, x: State, beta: real, gamma: real, fv: real, N: Matrix, M: Matrix, a: nat, c: nat)
    requires Compatible(x, N, M) && Populated(x) && gamma != 0.0
    requires a < |N| && c < |M|
    ensures ComputeRates(t, x, beta, gamma, fv, N, M).S[0][a][c]
         == beta * Mixture(fv, HomeTerm(N, Prevalence(x), a, c), VisitTerm(N, M, Prevalence(x), a, c))
  {
    ForceDecomposition(beta, N, M, fv, x, a, c);
  }

  /** `spatial_TL_SIR.apply_transitionings`: head-count is conserved cell by cell. */
  function ApplyTransitionings(t: real, tau: real, counts: TransitionMap, x: State): (y: State)
    requires WellShaped(x) && CountsFit(counts, x)
    ensures WellShaped(y) && SameShape(y.S, x.S)
    ensures forall i, j :: 0 <= i < |x.S| && 0 <= j < |x.S[i]| ==>
      y.S[i][j] + y.I[i][j] + y.R[i][j] == x.S[i][j] + x.I[i][j] + x.R[i][j]
  {
    Compartments.ApplyTransitionings(tau, counts, x)
  }

  /**
   * The ODE and the jump process share one force of infection: the jump
   * process's S -> I rate is `ForceOfInfection`, and the derivatives are
   * those of that rate.
   */
  lemma ODEMatchesJumpRates(t: real, x: State, beta: real, gamma: real, fv: real, N: Matrix, M: Matrix)
    requires Compatible(x, N, M) && Populated(x) && gamma != 0.0
    ensures SameShape(ComputeRates(t, x, beta, gamma, fv, N, M).S[0], x.S)
    ensures ComputeRates(t, x, beta, gamma, fv, N, M) == PerCapitaRates(ForceOfInfection(beta, ContactTensor(N, M, fv), x), x, gamma)
    ensures Integrate(t, x, beta, gamma, fv, N, M) == Derivatives(ComputeRates(t, x, beta, gamma, fv, N, M).S[0], x, gamma)
  {
  }

  /** Zero-infection fixed point: without infectious individuals the force of infection and all derivatives vanish. */
  lemma NoInfectionIsFixedPoint(t: real, x: State, beta: real, gamma: real, fv: real, N: Matrix, M: Matrix)
    requires Compatible(x, N, M) && Populated(x) && gamma != 0.0
    requires AllZero(x.I)
    ensures AllZero(ForceOfInfection(beta, ContactTensor(N, M, fv), x))
    ensures AllZero(Integrate(t, x, beta, gamma, fv, N, M).S)
    ensures AllZero(Integrate(t, x, beta, gamma, fv, N, M).I)
    ensures AllZero(Integrate(t, x, beta, gamma, fv, N, M).R)
  {
    var C := ContactTensor(N, M, fv);
    PrevalenceOfNoInfection(x);
    if |N| > 0 {
      assert Cols(x.S) == |M|;
    }
    ContractionOfZero(C, N, M, fv, Prevalence(x));
    var l := ForceOfInfection(beta, C, x);
    DerivativesAtRest(l, x, gamma);
  }

  /**
   * With non-negative inputs, `beta >= 0` and `0 <= f_v <= 1` the force of
   * infection is non-negative, so S never grows; with `gamma > 0` R never shrinks.
   */
  lemma ForceNonNegative(t: real, x: State, beta: real, gamma: real, fv: real, N: Matrix, M: Matrix)
    requires Compatible(x, N, M) && Populated(x) && NonNegativeState(x)
    requires NonNegative(N) && NonNegative(M)
    requires beta >= 0.0 && 0.0 <= fv <= 1.0 && gamma > 0.0
    ensures NonNegative(ForceOfInfection(beta, ContactTensor(N, M, fv), x))
    ensures forall a, c :: 0 <= a < |N| && 0 <= c < |M| ==> Integrate(t, x, beta, gamma, fv, N, M).S[a][c] <= 0.0
    ensures forall a, c :: 0 <= a < |N| && 0 <= c < |M| ==> Integrate(t, x, beta, gamma, fv, N, M).R[a][c] >= 0.0
  {
    var C, P := ContactTensor(N, M, fv), Prevalence(x);
    PrevalenceIsFraction(x);
    ContractionNonNegative(C, N, M, fv, P);
    var L := Contract(C, P, |x.S|, Cols(x.S));
    if |N| > 0 {
      assert Cols(x.S) == |M|;
      assert L == Contract(C, P, |N|, |M|);
    }
    assert NonNegative(L);
    ScaleNonNegative(beta, L);
    var l := ForceOfInfection(beta, C, x);
    assert l == Scale(beta, L);
    DerivativeSigns(l, x, gamma);
    assert Integrate(t, x, beta, gamma, fv, N, M) == Derivatives(l, x, gamma);
  }
}

=== FILE: decimal.dfy ===
/**
 * Python's `str` of an integer: the shortest decimal numeral, with a
 * leading `-` for negative values.  The region of a municipality is read
 * off the characters of this numeral, and the age-group labels are built
 * from numerals too.
 */
module Decimal {

  const Digits: string := "0123456789"

  function DigitChar(d: nat): char
    requires d < 10
  {
    Digits[d]
  }

  /** The value of a decimal digit character. */
  function DigitValue(c: char): DigitReading {
    if '0' <= c <= '9' then Digit((c as int - '0' as int) as nat) else NotDigit
  }

  datatype DigitReading = Digit(value: nat) | NotDigit

  /** The decimal numeral of a natural number, most significant digit first, without leading zeros. */
  function NatString(n: nat): (s: string)
    ensures |s| >= 1
    ensures n >= 10 ==> s[0] != '0'
    decreases n
  {
    if n < 10 then [DigitChar(n)] else NatString(n / 10) + [DigitChar(n % 10)]
  }

  /** `str(n)` for a Python `int`. */
  function IntString(n: int): (s: string)
    ensures |s| >= 1
  {
    if n < 0 then "-" + NatString(-n) else NatString(n)
  }

  /** Reads a string of decimal digits back into its value. */
  function ParseDigits(s: string): (r: int)
    decreases |s|
  {
    if |s| == 0 then 0
    else match DigitValue(s[|s| - 1])
      case Digit(d) => ParseDigits(s[..|s| - 1]) * 10 + d
      case NotDigit => -1
  }

  lemma DigitRoundTrip(d: nat)
    requires d < 10
    ensures DigitValue(DigitChar(d)) == Digit(d)
  {
  }

  /** Reading the numeral of `n` gives back `n`. */
  lemma {:induction false} NatStringRoundTrip(n: nat)
    ensures ParseDigits(NatString(n)) == n
    decreases n
  {
    var s := NatString(n);
    if n < 10 {
      DigitRoundTrip(n);
      assert s[..|s| - 1] == [];
    } else {
      NatStringRoundTrip(n / 10);
      DigitRoundTrip(n % 10);
      assert s[..|s| - 1] == NatString(n / 10);
    }
  }

  /**
   * The first two characters of a five-digit numeral are its ten-thousands
   * and thousands digits.
   */
  lemma FiveDigitPrefix(n: nat)
    requires 10000 <= n < 100000
    ensures |NatString(n)| == 5
    ensures NatString(n)[0] == DigitChar(n / 10000)
    ensures NatString(n)[1] == DigitChar(n / 1000 % 10)
  {
    RepeatedTenths(n);
    NumeralOfRepeatedTenths(n);
  }

  /** Dropping the last digit four times leaves the leading digit. */
  lemma RepeatedTenths(n: nat)
    requires 10000 <= n < 100000
    ensures 1000 <= n / 10 && 100 <= n / 10 / 10 && 10 <= n / 10 / 10 / 10
    ensures n / 10 / 10 / 10 / 10 == n / 10000 < 10
    ensures n / 10 / 10 / 10 % 10 == n / 1000 % 10
  {
    var q1 := n / 10;
    var q2 := q1 / 10;
    var q3 := q2 / 10;
    assert 100 * q2 <= n < 100 * q2 + 100;
    assert 1000 * q3 <= n < 1000 * q3 + 1000;
    assert q3 == n / 1000;
  }

  /** The five characters of a five-digit numeral, read through repeated division by ten. */
  lemma NumeralOfRepeatedTenths(n: nat)
    requires 10000 <= n < 100000
    requires 1000 <= n / 10 && 100 <= n / 10 / 10 && 10 <= n / 10 / 10 / 10
    requires n / 10 / 10 / 10 / 10 < 10
    ensures |NatString(n)| == 5
    ensures NatString(n)[0] == DigitChar(n / 10 / 10 / 10 / 10)
    ensures NatString(n)[1] == DigitChar(n / 10 / 10 / 10 % 10)
  {
    var q1 := n / 10;
    var q2 := q1 / 10;
    var q3 := q2 / 10;
    var q4 := q3 / 10;
    assert NatString(q4) == [DigitChar(q4)];
    assert NatString(q3) == NatString(q4) + [DigitChar(q3 % 10)];
    assert NatString(q2) == NatString(q3) + [DigitChar(q2 % 10)];
    assert NatString(q1) == NatString(q2) + [DigitChar(q1 % 10)];
    assert NatString(n) == NatString(q1) + [DigitChar(n % 10)];
  }
}

=== FILE: demography.dfy ===
/**
 * The interim demography table `demography_municipalities_2017.csv`: one
 * population count per (NIS code, age group), listed NIS-major.  Scripts
 * that read it as a flat table use `Record`s; scripts that reshape it into
 * an (NIS x age) array use the `Grid` view.
 */
module Demography {
  import opened Wrappers
  import opened Tables

  /** The model's age coordinates, youngest first. */
  const ModelAgeGroups: seq<string> := ["0-5", "5-15", "15-65", "65+"]

  /** One row of the flat table. */
  datatype Record = Record(nis: int, age: string, population: int)

  /**
   * The table as an array: `pop[k][a]` is the population of municipality
   * `nis[k]` in age group `ages[a]`.
   */
  datatype Grid = Grid(nis: seq<int>, ages: seq<string>, pop: seq<seq<int>>)

  /**
   * Every municipality has every age group exactly once: the shape the
   * `reshape(n_NIS, n_age)` and `.loc[NIS, age]` readers rely on.
   */
  predicate WellFormed(g: Grid) {
    && |g.ages| >= 1
    && Distinct(g.nis)
    && (forall a, b :: 0 <= a < b < |g.ages| ==> g.ages[a] != g.ages[b])
    && |g.pop| == |g.nis|
    && (forall k :: 0 <= k < |g.pop| ==> |g.pop[k]| == |g.ages|)
  }

  /** Position of `code` in `codes`, the first one if it repeats. */
  function IndexOf(codes: seq<int>, code: int): (r: Option<nat>)
    ensures r.None? <==> code !in codes
    ensures r.Some? ==> r.value < |codes| && codes[r.value] == code
    ensures r.Some? ==> forall k :: 0 <= k < r.value ==> codes[k] != code
  {
    if |codes| == 0 then None
    else if codes[0] == code then Some(0)
    else match IndexOf(codes[1..], code)
      case None => None
      case Some(k) => Some(k + 1)
  }

  /** In a list without repeats, the position of the `k`-th code is `k`. */
  lemma IndexOfDistinct(codes: seq<int>, k: nat)
    requires Distinct(codes) && k < |codes|
    ensures IndexOf(codes, codes[k]) == Some(k)
  {
  }

  /** The rows of municipality `k`, in age order. */
  function Block(g: Grid, k: nat): (rows: seq<Record>)
    requires WellFormed(g) && k < |g.nis|
    ensures |rows| == |g.ages|
    ensures forall a :: 0 <= a < |rows| ==> rows[a] == Record(g.nis[k], g.ages[a], g.pop[k][a])
  {
    seq(|g.ages|, a requires 0 <= a < |g.ages| => Record(g.nis[k], g.ages[a], g.pop[k][a]))
  }

  /** The flat, NIS-major table the grid is read from. */
  function Records(g: Grid): (rows: seq<Record>)
    requires WellFormed(g)
  {
    Flatten(seq(|g.nis|, k requires 0 <= k < |g.nis| => Block(g, k)))
  }

  /** Row `k * n_age + a` of the flat table is cell `(k, a)` of the grid. */
  lemma RecordsLayout(g: Grid, k: nat, a: nat)
    requires WellFormed(g) && k < |g.nis| && a < |g.ages|
    ensures |Records(g)| == |g.nis| * |g.ages|
    ensures k * |g.ages| + a < |Records(g)|
    ensures Records(g)[k * |g.ages| + a] == Record(g.nis[k], g.ages[a], g.pop[k][a])
  {
    var blocks := seq(|g.nis|, k requires 0 <= k < |g.nis| => Block(g, k));
    FlattenIndex(blocks, |g.ages|, k, a);
  }

  function Population(r: Record): int {
    r.population
  }

  function Nis(r: Record): int {
    r.nis
  }

  /** Sum of one municipality's row of the grid. */
  function RowTotal(g: Grid, k: nat): int
    requires WellFormed(g) && k < |g.nis|
  {
    Total(g.pop[k])
  }

  /** The blocks the flat table is made of. */
  function Blocks(g: Grid): (blocks: seq<seq<Record>>)
    requires WellFormed(g)
    ensures |blocks| == |g.nis|
    ensures forall k :: 0 <= k < |g.nis| ==> blocks[k] == Block(g, k)
  {
    seq(|g.nis|, k requires 0 <= k < |g.nis| => Block(g, k))
  }

  /** The block of another municipality has no row of municipality `k`. */
  lemma OtherBlockHasNone(g: Grid, k: nat, b: nat)
    requires WellFormed(g) && k < |g.nis| && b < |g.nis| && b != k
    ensures Keep(Block(g, b), HasKey(Nis, g.nis[k])) == []
  {
    assert g.nis[b] != g.nis[k] by {
      if b < k {
        assert g.nis[b] != g.nis[k];
      } else {
        assert g.nis[k] != g.nis[b];
      }
    }
    KeepNone(Block(g, b), HasKey(Nis, g.nis[k]));
  }

  /** The rows of municipality `k` in the flat table are exactly its block. */
  lemma RowsOfMunicipality(g: Grid, k: nat)
    requires WellFormed(g) && k < |g.nis|
    ensures Keep(Records(g), HasKey(Nis, g.nis[k])) == Block(g, k)
  {
    var blocks := Blocks(g);
    var p := HasKey(Nis, g.nis[k]);
    KeepFlatten(blocks, p);
    var kept := KeepBlocks(blocks, p);
    forall b | 0 <= b < |blocks| && b != k
      ensures kept[b] == []
    {
      OtherBlockHasNone(g, k, b);
    }
    assert forall i :: 0 <= i < |Block(g, k)| ==> p(Block(g, k)[i]);
    KeepAll(Block(g, k), p);
    FlattenOneBlock(kept, k);
  }

  /** The rows of municipality `k` add up to its row of the grid. */
  lemma MunicipalityTotal(g: Grid, k: nat)
    requires WellFormed(g) && k < |g.nis|
    ensures SumOf(Keep(Records(g), HasKey(Nis, g.nis[k])), Population) == RowTotal(g, k)
  {
    RowsOfMunicipality(g, k);
    SumOfIsTotal(Block(g, k), Population, g.pop[k]);
  }

  /** The municipalities listed in the flat table are those of the grid. */
  lemma RecordCodes(g: Grid)
    requires WellFormed(g)
    ensures forall x :: x in KeysOf(Records(g), Nis) <==> x in g.nis
  {
    forall x | x in g.nis
      ensures x in KeysOf(Records(g), Nis)
    {
      var k :| 0 <= k < |g.nis| && g.nis[k] == x;
      RecordsLayout(g, k, 0);
      assert KeysOf(Records(g), Nis)[k * |g.ages|] == x;
    }
    forall x | x in KeysOf(Records(g), Nis)
      ensures x in g.nis
    {
      var i :| 0 <= i < |Records(g)| && KeysOf(Records(g), Nis)[i] == x;
      assert Records(g)[i] in Keep(Records(g), HasKey(Nis, x));
      RecordCodeListed(g, i);
    }
  }

  /** Every row of the flat table belongs to one of the grid's municipalities. */
  lemma RecordCodeListed(g: Grid, i: nat)
    requires WellFormed(g) && i < |Records(g)|
    ensures Records(g)[i].nis in g.nis
  {
    var n := |g.ages|;
    FlattenLength(Blocks(g), n);
    assert Records(g) == Flatten(Blocks(g));
    FlatPosition(i, n, |g.nis|);
    RecordsLayout(g, i / n, i % n);
  }
}

=== FILE: format_demography.dfy ===
/**
 * Formatting of the 2017 population structure: every (municipality, age)
 * count is put into one of four age bins and summed per (NIS code, bin);
 * the municipalities merged in 2019 are fused under their new codes, the
 * codes changed in 2019 are renamed, and the table is sorted by NIS code.
 */
module FormatDemography {
  import opened Wrappers
  import opened Tables
  import opened Decimal
  import Demography

  /** One source row: `CD_MUNTY_REFNIS`, `CD_AGE`, `MS_POPULATION`. */
  datatype SourceRow = SourceRow(nis: int, age: int, population: int)

  /** A left-closed interval `[lo, hi)` of ages. */
  datatype Interval = Interval(lo: int, hi: int)

  predicate Contains(iv: Interval, age: int) {
    iv.lo <= age < iv.hi
  }

  /** The desired age groups `[0,5)`, `[5,15)`, `[15,65)`, `[65,120)`. */
  const AgeBins: seq<Interval> := [Interval(0, 5), Interval(5, 15), Interval(15, 65), Interval(65, 120)]

  /** The first of the bins from position `from` on that holds `age`. */
  function FindBin(age: int, from: nat): (r: Option<nat>)
    requires from <= |AgeBins|
    ensures r.Some? ==> from <= r.value < |AgeBins| && Contains(AgeBins[r.value], age)
    ensures r.None? ==> forall b :: from <= b < |AgeBins| ==> !Contains(AgeBins[b], age)
    decreases |AgeBins| - from
  {
    if from == |AgeBins| then None
    else if Contains(AgeBins[from], age) then Some(from)
    else FindBin(age, from + 1)
  }

  /** `pd.cut(age, bins)`: the bin holding `age`, or none (NaN) outside all of them. */
  function AgeBin(age: int): (r: Option<nat>)
    ensures r.Some? ==> r.value < |AgeBins| && Contains(AgeBins[r.value], age)
    ensures r.None? <==> forall b :: 0 <= b < |AgeBins| ==> !Contains(AgeBins[b], age)
  {
    FindBin(age, 0)
  }

  /** Every age in `[0, 120)` lies in exactly one bin; any other age lies in none. */
  lemma BinsPartitionAges(age: int)
    ensures AgeBin(age).Some? <==> 0 <= age < 120
    ensures forall b :: 0 <= b < |AgeBins| ==> (Contains(AgeBins[b], age) <==> AgeBin(age) == Some(b))
  {
  }

  /**
   * The labels of the model's age coordinates name the bins: `lo-hi` for
   * the first three and `lo+` for the open-ended last one.
   */
  lemma AgeGroupLabelsNameBins()
    ensures |Demography.ModelAgeGroups| == |AgeBins|
    ensures forall b :: 0 <= b < |AgeBins| - 1 ==>
      Demography.ModelAgeGroups[b] == IntString(AgeBins[b].lo) + "-" + IntString(AgeBins[b].hi)
    ensures Demography.ModelAgeGroups[3] == IntString(AgeBins[3].lo) + "+"
  {
    assert IntString(0) == "0" && IntString(5) == "5";
    assert IntString(15) == NatString(1) + [DigitChar(5)] == "15";
    assert IntString(65) == NatString(6) + [DigitChar(5)] == "65";
  }

  /** The bin of a source row, `-1` for an age outside every bin. */
  function SourceBin(r: SourceRow): int {
    match AgeBin(r.age)
    case Some(b) => b
    case None => -1
  }

  function SourceNis(r: SourceRow): int {
    r.nis
  }

  function SourcePopulation(r: SourceRow): int {
    r.population
  }

  /** The row has an age in one of the bins; `groupby` drops the others. */
  predicate Binned(r: SourceRow) {
    SourceBin(r) >= 0
  }

  /** The row belongs to municipality `nis` and bin `b`. */
  function InCell(nis: int, b: int): SourceRow -> bool {
    (r: SourceRow) => r.nis == nis && SourceBin(r) == b
  }

  /** The row is binned and belongs to municipality `nis`. */
  function BinnedAt(nis: int): SourceRow -> bool {
    (r: SourceRow) => Binned(r) && r.nis == nis
  }

  /** One row of the grouped table: `(NIS, age, population)` with the age as a bin position. */
  datatype Cell = Cell(nis: int, bin: nat, population: int)

  function CellNis(c: Cell): int {
    c.nis
  }

  function CellBin(c: Cell): int {
    c.bin
  }

  function CellPopulation(c: Cell): int {
    c.population
  }

  /** Every row's bin is one of the four. */
  predicate BinsInRange(cells: seq<Cell>) {
    forall i :: 0 <= i < |cells| ==> cells[i].bin < |AgeBins|
  }

  /** The four bins of one municipality; a bin without rows sums to 0 (`observed=False`). */
  function NisBlock(rows: seq<SourceRow>, nis: int): (block: seq<Cell>)
    ensures |block| == |AgeBins|
    ensures forall b :: 0 <= b < |AgeBins| ==> block[b].nis == nis && block[b].bin == b
  {
    seq(|AgeBins|, b requires 0 <= b < |AgeBins| => Cell(nis, b, SumOf(Keep(rows, InCell(nis, b)), SourcePopulation)))
  }

  /** The blocks of the given municipalities, in order. */
  function NisBlocks(rows: seq<SourceRow>, keys: seq<int>): (blocks: seq<seq<Cell>>)
    ensures |blocks| == |keys|
    ensures forall k :: 0 <= k < |keys| ==> blocks[k] == NisBlock(rows, keys[k])
  {
    seq(|keys|, k requires 0 <= k < |keys| => NisBlock(rows, keys[k]))
  }

  /** The municipalities of the source, in ascending order. */
  function SourceKeys(rows: seq<SourceRow>): (keys: seq<int>)
    ensures StrictlyIncreasing(keys)
    ensures forall x :: x in keys <==> exists i :: 0 <= i < |rows| && rows[i].nis == x
  {
    var keys := SortedKeys(KeysOf(rows, SourceNis));
    assert forall x :: x in KeysOf(rows, SourceNis) <==> exists i :: 0 <= i < |rows| && rows[i].nis == x;
    keys
  }

  /**
   * `groupby(['CD_MUNTY_REFNIS', 'age_group'], observed=False).sum()`: one
   * row per municipality and bin, municipalities ascending, bins in order.
   */
  function GroupByNisAndBin(rows: seq<SourceRow>): (cells: seq<Cell>)
    ensures BinsInRange(cells)
  {
    var keys := SourceKeys(rows);
    var blocks := NisBlocks(rows, keys);
    FlattenLength(blocks, 4);
    forall i | 0 <= i < |Flatten(blocks)|
      ensures Flatten(blocks)[i].bin < |AgeBins|
    {
      FlattenIndex(blocks, 4, i / 4, i % 4);
    }
    Flatten(blocks)
  }

  /**
   * Row `4k + b` of the grouped table is bin `b` of the `k`-th municipality
   * and holds the population of exactly the source rows of that cell.
   */
  lemma GroupedLayout(rows: seq<SourceRow>, k: nat, b: nat)
    requires k < |SourceKeys(rows)| && b < |AgeBins|
    ensures |GroupByNisAndBin(rows)| == |SourceKeys(rows)| * 4
    ensures k * 4 + b < |GroupByNisAndBin(rows)|
    ensures GroupByNisAndBin(rows)[k * 4 + b]
         == Cell(SourceKeys(rows)[k], b, SumOf(Keep(rows, InCell(SourceKeys(rows)[k], b)), SourcePopulation))
  {
    var keys := SourceKeys(rows);
    var blocks := NisBlocks(rows, keys);
    FlattenIndex(blocks, 4, k, b);
  }

  /** The four bins of one municipality add up to all its binned rows. */
  lemma BlockTotal(rows: seq<SourceRow>, nis: int)
    ensures SumOf(NisBlock(rows, nis), CellPopulation) == SumOf(Keep(rows, BinnedAt(nis)), SourcePopulation)
  {
    var mine := Keep(rows, BinnedAt(nis));
    var bins := Range(|AgeBins|);
    BinnedRowsInBins(rows, nis);
    GroupSumsTotal(mine, SourceBin, SourcePopulation, bins);
    var sums := GroupSums(mine, SourceBin, SourcePopulation, bins);
    forall b | 0 <= b < |AgeBins|
      ensures sums[b] == NisBlock(rows, nis)[b].population
    {
      KeepKeep(rows, BinnedAt(nis), HasKey(SourceBin, b), InCell(nis, b));
    }
    SumOfIsTotal(NisBlock(rows, nis), CellPopulation, sums);
  }

  /** The binned rows of a municipality have their bin among the four. */
  lemma BinnedRowsInBins(rows: seq<SourceRow>, nis: int)
    ensures KeysCovered(Keep(rows, BinnedAt(nis)), SourceBin, Range(|AgeBins|))
  {
    var mine := Keep(rows, BinnedAt(nis));
    forall i | 0 <= i < |mine|
      ensures 0 <= SourceBin(mine[i]) < |AgeBins|
    {
      assert BinnedAt(nis)(mine[i]);
    }
  }

  /** Grouping keeps every binned person and drops only the rows outside every bin. */
  lemma GroupedTotal(rows: seq<SourceRow>)
    ensures SumOf(GroupByNisAndBin(rows), CellPopulation) == SumOf(Keep(rows, Binned), SourcePopulation)
  {
    var keys := SourceKeys(rows);
    var blocks := NisBlocks(rows, keys);
    var binned := Keep(rows, Binned);
    var subtotals := GroupSums(binned, SourceNis, SourcePopulation, keys);
    forall k | 0 <= k < |keys|
      ensures subtotals[k] == SumOf(blocks[k], CellPopulation)
    {
      BlockTotal(rows, keys[k]);
      KeepKeep(rows, Binned, HasKey(SourceNis, keys[k]), BinnedAt(keys[k]));
    }
    SumOfFlatten(blocks, CellPopulation, subtotals);
    StrictlyIncreasingIsDistinct(keys);
    forall i | 0 <= i < |binned|
      ensures SourceNis(binned[i]) in keys
    {
      assert binned[i] in rows;
      var j :| 0 <= j < |rows| && rows[j] == binned[i];
      assert rows[j].nis == binned[i].nis;
    }
    GroupSumsTotal(binned, SourceNis, SourcePopulation, keys);
  }

  /** The row's code is one of `codes`. */
  function InCodes(codes: seq<int>): Cell -> bool {
    (c: Cell) => c.nis in codes
  }

  function NotInCodes(codes: seq<int>): Cell -> bool {
    (c: Cell) => c.nis !in codes
  }

  function InCodesAndBin(codes: seq<int>, b: int): Cell -> bool {
    (c: Cell) => c.nis in codes && c.bin == b
  }

  /** Population of bin `b` summed over the rows of the given codes. */
  function MergedBin(cells: seq<Cell>, codes: seq<int>, b: nat): int {
    SumOf(Keep(cells, InCodesAndBin(codes, b)), CellPopulation)
  }

  /** The four rows appended by a fusion: per bin, the sum over the retired codes. */
  function MergedCells(cells: seq<Cell>, retired: seq<int>, code: int): (merged: seq<Cell>)
    ensures |merged| == |AgeBins|
    ensures forall b :: 0 <= b < |AgeBins| ==> merged[b] == Cell(code, b, MergedBin(cells, retired, b))
  {
    seq(|AgeBins|, b requires 0 <= b < |AgeBins| => Cell(code, b, MergedBin(cells, retired, b)))
  }

  /** The merged rows hold exactly the population of the retired codes. */
  lemma MergedCellsTotal(cells: seq<Cell>, retired: seq<int>, code: int)
    requires BinsInRange(cells)
    ensures SumOf(MergedCells(cells, retired, code), CellPopulation) == SumOf(Keep(cells, InCodes(retired)), CellPopulation)
  {
    var merged := MergedCells(cells, retired, code);
    var inRetired := Keep(cells, InCodes(retired));
    var bins := Range(|AgeBins|);
    RetiredCellsInBins(cells, retired);
    GroupSumsTotal(inRetired, CellBin, CellPopulation, bins);
    var sums := GroupSums(inRetired, CellBin, CellPopulation, bins);
    forall b | 0 <= b < |AgeBins|
      ensures sums[b] == CellPopulation(merged[b])
    {
      KeepKeep(cells, InCodes(retired), HasKey(CellBin, b), InCodesAndBin(retired, b));
    }
    SumOfIsTotal(merged, CellPopulation, sums);
  }

  /** The rows of the retired codes have their bin among the four. */
  lemma RetiredCellsInBins(cells: seq<Cell>, retired: seq<int>)
    requires BinsInRange(cells)
    ensures KeysCovered(Keep(cells, InCodes(retired)), CellBin, Range(|AgeBins|))
  {
    var inRetired := Keep(cells, InCodes(retired));
    forall i | 0 <= i < |inRetired|
      ensures 0 <= CellBin(inRetired[i]) < |AgeBins|
    {
      var j :| 0 <= j < |cells| && cells[j] == inRetired[i];
      assert cells[j].bin < |AgeBins|;
    }
  }

  /**
   * One 2019 fusion: the rows of the retired codes are removed and four rows
   * with the new code and the per-bin sums of the retired codes are appended
   * (also when none of the retired codes is present: then they hold 0).
   */
  function Fuse(cells: seq<Cell>, retired: seq<int>, code: int): (out: seq<Cell>)
    requires BinsInRange(cells)
    ensures BinsInRange(out)
    ensures |out| == |Keep(cells, NotInCodes(retired))| + |AgeBins|
    ensures out[..|Keep(cells, NotInCodes(retired))|] == Keep(cells, NotInCodes(retired))
    ensures code !in retired ==> forall i :: 0 <= i < |out| ==> out[i].nis !in retired
    ensures forall b :: 0 <= b < |AgeBins| ==> out[|out| - |AgeBins| + b] == Cell(code, b, MergedBin(cells, retired, b))
  {
    Keep(cells, NotInCodes(retired)) + MergedCells(cells, retired, code)
  }

  /** A fusion moves population between codes but never creates or loses any. */
  lemma FuseTotal(cells: seq<Cell>, retired: seq<int>, code: int)
    requires BinsInRange(cells)
    ensures SumOf(Fuse(cells, retired, code), CellPopulation) == SumOf(cells, CellPopulation)
  {
    SumOfAppend(Keep(cells, NotInCodes(retired)), MergedCells(cells, retired, code), CellPopulation);
    SumOfSplit(cells, CellPopulation, InCodes(retired), NotInCodes(retired));
    MergedCellsTotal(cells, retired, code);
  }

  /** The codes merged in 2019, per new municipality. */
  const FusionOld: seq<seq<int>> := [
    [72040, 71047],
    [72025, 72029],
    [45017, 45057],
    [44001, 44029],
    [44011, 44049],
    [12030, 12034],
    [44072, 44036, 44080]
  ]

  /** The codes of the merged municipalities, paired by position with `FusionOld`. */
  const FusionNew: seq<int> := [72042, 72043, 45068, 44084, 44083, 12041, 44085]

  /** No new code of a fusion is a retired code of any fusion. */
  lemma FusionCodeFresh(i: nat)
    requires i < |FusionNew|
    ensures |FusionOld| == |FusionNew|
    ensures forall j :: 0 <= j < |FusionOld| ==> FusionNew[i] !in FusionOld[j]
  {
  }

  /** The fusions from position `i` on, applied in order. */
  function FuseFrom(cells: seq<Cell>, i: nat): (out: seq<Cell>)
    requires BinsInRange(cells) && i <= |FusionNew|
    ensures BinsInRange(out)
    decreases |FusionNew| - i
  {
    if i == |FusionNew| then cells else FuseFrom(Fuse(cells, FusionOld[i], FusionNew[i]), i + 1)
  }

  /** All fusions together preserve the total population. */
  lemma {:induction false} FusionsPreserveTotal(cells: seq<Cell>, i: nat)
    requires BinsInRange(cells) && i <= |FusionNew|
    ensures SumOf(FuseFrom(cells, i), CellPopulation) == SumOf(cells, CellPopulation)
    decreases |FusionNew| - i
  {
    if i < |FusionNew| {
      FuseTotal(cells, FusionOld[i], FusionNew[i]);
      FusionsPreserveTotal(Fuse(cells, FusionOld[i], FusionNew[i]), i + 1);
    }
  }

  /** No row carries any of the codes in `FusionOld[..i]`. */
  predicate NoFusedCodes(cells: seq<Cell>, i: nat)
    requires i <= |FusionOld|
  {
    forall j, r :: 0 <= j < i && 0 <= r < |cells| ==> cells[r].nis !in FusionOld[j]
  }

  /** After all fusions none of the retired codes remains. */
  lemma {:induction false} FusionsRemoveOldCodes(cells: seq<Cell>, i: nat)
    requires BinsInRange(cells) && i <= |FusionNew| && NoFusedCodes(cells, i)
    ensures NoFusedCodes(FuseFrom(cells, i), |FusionOld|)
    decreases |FusionNew| - i
  {
    if i < |FusionNew| {
      FuseStep(cells, i);
      FusionsRemoveOldCodes(Fuse(cells, FusionOld[i], FusionNew[i]), i + 1);
    }
  }

  /** One fusion step adds its own retired codes to those that are gone. */
  lemma FuseStep(cells: seq<Cell>, i: nat)
    requires BinsInRange(cells) && i < |FusionNew| && NoFusedCodes(cells, i)
    ensures NoFusedCodes(Fuse(cells, FusionOld[i], FusionNew[i]), i + 1)
  {
    FusionCodeFresh(i);
    var next := Fuse(cells, FusionOld[i], FusionNew[i]);
    var kept := Keep(cells, NotInCodes(FusionOld[i]));
    forall j, r | 0 <= j < i + 1 && 0 <= r < |next|
      ensures next[r].nis !in FusionOld[j]
    {
      if r < |kept| {
        assert next[r] == kept[r];
        var q :| 0 <= q < |cells| && cells[q] == kept[r];
        assert NotInCodes(FusionOld[i])(kept[r]);
      } else {
        assert next[r] == MergedCells(cells, FusionOld[i], FusionNew[i])[r - |kept|];
      }
    }
  }

  /** The codes changed in 2019. */
  const RenameOld: seq<int> := [55022, 56011, 56085, 56087, 52063, 52043, 55010, 55039, 55023, 54007, 54010]

  /** Their replacements, paired by position with `RenameOld`. */
  const RenameNew: seq<int> := [58001, 58002, 58003, 58004, 55085, 55086, 51067, 51068, 51069, 57096, 57097]

  /** `Series.replace(dict(zip(RenameOld, RenameNew)))` on one value. */
  function RenameCode(nis: int): (r: int)
    ensures nis !in RenameOld ==> r == nis
  {
    match Demography.IndexOf(RenameOld, nis)
    case Some(i) => if i < |RenameNew| then RenameNew[i] else nis
    case None => nis
  }

  /** The rename tables are aligned, their old codes distinct, and no new code is an old code of a rename or a fusion. */
  lemma RenameTablesWellFormed()
    ensures |RenameOld| == |RenameNew| == 11
    ensures Distinct(RenameOld)
    ensures forall i :: 0 <= i < 11 ==> RenameNew[i] !in RenameOld
    ensures forall i, j :: 0 <= i < 11 && 0 <= j < 7 ==> RenameNew[i] !in FusionOld[j]
  {
  }

  /** Each listed old code becomes its paired new code. */
  lemma RenameMapsPairs(i: nat)
    requires i < |RenameOld|
    ensures RenameCode(RenameOld[i]) == RenameNew[i]
  {
    RenameTablesWellFormed();
    var r := Demography.IndexOf(RenameOld, RenameOld[i]);
    assert r.Some? && RenameOld[r.value] == RenameOld[i];
  }

  /** Renaming the NIS column. */
  function Rename(cells: seq<Cell>): (out: seq<Cell>)
    ensures |out| == |cells|
    ensures forall i :: 0 <= i < |cells| ==> out[i] == Cell(RenameCode(cells[i].nis), cells[i].bin, cells[i].population)
  {
    seq(|cells|, i requires 0 <= i < |cells| => Cell(RenameCode(cells[i].nis), cells[i].bin, cells[i].population))
  }

  /**
   * Renaming keeps the population and the bins, leaves no old code behind,
   * and cannot bring back a code removed by a fusion.
   */
  lemma RenameKeepsTotalsAndCodes(cells: seq<Cell>)
    requires NoFusedCodes(cells, |FusionOld|)
    ensures SumOf(Rename(cells), CellPopulation) == SumOf(cells, CellPopulation)
    ensures forall r :: 0 <= r < |cells| ==> Rename(cells)[r].nis !in RenameOld
    ensures NoFusedCodes(Rename(cells), |FusionOld|)
  {
    var out := Rename(cells);
    SumOfPointwise(out, CellPopulation, cells, CellPopulation);
    RenameTablesWellFormed();
    forall r | 0 <= r < |cells|
      ensures out[r].nis !in RenameOld
      ensures forall j :: 0 <= j < |FusionOld| ==> out[r].nis !in FusionOld[j]
    {
      var m := Demography.IndexOf(RenameOld, cells[r].nis);
      if m.Some? {
        assert out[r].nis == RenameNew[m.value];
      }
    }
  }

  predicate SortedByNis(cells: seq<Cell>) {
    forall i, j :: 0 <= i < j < |cells| ==> cells[i].nis <= cells[j].nis
  }

  /** Inserts `c` before the first row with a larger code. */
  function InsertByNis(sorted: seq<Cell>, c: Cell): (out: seq<Cell>)
    ensures |out| == |sorted| + 1
  {
    if |sorted| == 0 || c.nis <= sorted[0].nis then [c] + sorted
    else [sorted[0]] + InsertByNis(sorted[1..], c)
  }

  /** Insertion adds `c` and nothing else. */
  lemma {:induction false} InsertIsPermutation(sorted: seq<Cell>, c: Cell)
    ensures multiset(InsertByNis(sorted, c)) == multiset(sorted) + multiset{c}
    ensures SumOf(InsertByNis(sorted, c), CellPopulation) == SumOf(sorted, CellPopulation) + c.population
  {
    if |sorted| > 0 && c.nis > sorted[0].nis {
      var rest := InsertByNis(sorted[1..], c);
      InsertIsPermutation(sorted[1..], c);
      assert sorted == [sorted[0]] + sorted[1..];
      assert ([sorted[0]] + rest)[1..] == rest;
    } else {
      assert ([c] + sorted)[1..] == sorted;
    }
  }

  /** Insertion into a sorted table keeps it sorted. */
  lemma {:induction false} InsertKeepsSorted(sorted: seq<Cell>, c: Cell)
    requires SortedByNis(sorted)
    ensures SortedByNis(InsertByNis(sorted, c))
  {
    if |sorted| > 0 && c.nis > sorted[0].nis {
      var rest := InsertByNis(sorted[1..], c);
      InsertKeepsSorted(sorted[1..], c);
      InsertIsPermutation(sorted[1..], c);
      forall j | 0 <= j < |rest|
        ensures sorted[0].nis <= rest[j].nis
      {
        var r := rest[j];
        assert r in multiset(rest);
        if r != c {
          assert r in multiset(sorted[1..]);
          var k :| 0 <= k < |sorted[1..]| && sorted[1..][k] == r;
          assert sorted[k + 1] == r;
        }
      }
      PrependSorted(sorted[0], rest);
    }
  }

  /** A row no larger than every row of a sorted table can go in front. */
  lemma PrependSorted(x: Cell, rest: seq<Cell>)
    requires SortedByNis(rest)
    requires forall j :: 0 <= j < |rest| ==> x.nis <= rest[j].nis
    ensures SortedByNis([x] + rest)
  {
    var out := [x] + rest;
    forall i, j | 0 <= i < j < |out|
      ensures out[i].nis <= out[j].nis
    {
      assert out[j] == rest[j - 1];
      if i > 0 {
        assert out[i] == rest[i - 1];
      }
    }
  }

  /**
   * `sort_values(by='NIS')`: a permutation sorted by code.  The source's
   * default sort is not stable, so nothing is claimed about the order of
   * rows that share a code.
   */
  function SortByNis(cells: seq<Cell>): (out: seq<Cell>)
    ensures SortedByNis(out)
    ensures multiset(out) == multiset(cells)
    ensures SumOf(out, CellPopulation) == SumOf(cells, CellPopulation)
  {
    if |cells| == 0 then []
    else
      var rest := SortByNis(cells[1..]);
      SortStep(cells, rest);
      InsertByNis(rest, cells[0])
  }

  /** Inserting the first row into a sorted permutation of the others sorts the whole. */
  lemma SortStep(cells: seq<Cell>, rest: seq<Cell>)
    requires |cells| > 0 && SortedByNis(rest)
    requires multiset(rest) == multiset(cells[1..])
    requires SumOf(rest, CellPopulation) == SumOf(cells[1..], CellPopulation)
    ensures SortedByNis(InsertByNis(rest, cells[0]))
    ensures multiset(InsertByNis(rest, cells[0])) == multiset(cells)
    ensures SumOf(InsertByNis(rest, cells[0]), CellPopulation) == SumOf(cells, CellPopulation)
  {
    InsertIsPermutation(rest, cells[0]);
    InsertKeepsSorted(rest, cells[0]);
    assert multiset(cells) == multiset(cells[1..]) + multiset{cells[0]} by {
      assert cells == [cells[0]] + cells[1..];
    }
  }

  /** The whole script: bin, group, fuse, rename, sort. */
  function Format(rows: seq<SourceRow>): (out: seq<Cell>)
  {
    SortByNis(Rename(FuseFrom(GroupByNisAndBin(rows), 0)))
  }

  /**
   * The formatted table is sorted by code, holds every binned person of the
   * source exactly once, and none of the codes retired in 2019.
   */
  lemma FormatProperties(rows: seq<SourceRow>)
    ensures SortedByNis(Format(rows))
    ensures SumOf(Format(rows), CellPopulation) == SumOf(Keep(rows, Binned), SourcePopulation)
    ensures forall r :: 0 <= r < |Format(rows)| ==> Format(rows)[r].nis !in RenameOld
    ensures NoFusedCodes(Format(rows), |FusionOld|)
  {
    var grouped := GroupByNisAndBin(rows);
    GroupedTotal(rows);
    FusionsPreserveTotal(grouped, 0);
    FusionsRemoveOldCodes(grouped, 0);
    var fused := FuseFrom(grouped, 0);
    RenameKeepsTotalsAndCodes(fused);
    var renamed := Rename(fused);
    var out := SortByNis(renamed);
    forall r | 0 <= r < |out|
      ensures out[r].nis !in RenameOld
      ensures forall j :: 0 <= j < |FusionOld| ==> out[r].nis !in FusionOld[j]
    {
      SortedRowFrom(renamed, r);
      var q :| 0 <= q < |renamed| && renamed[q] == out[r];
    }
  }

  /** Sorting only reorders: every sorted row is a row of the input. */
  lemma SortedRowFrom(cells: seq<Cell>, r: nat)
    requires r < |SortByNis(cells)|
    ensures exists q :: 0 <= q < |cells| && cells[q] == SortByNis(cells)[r]
  {
    var out := SortByNis(cells);
    assert out[r] in multiset(out);
    assert out[r] in multiset(cells);
  }
}

=== FILE: legacy_model.dfy ===
/**
 * The earlier formulation of the same engine: instead of a contact tensor it
 * computes "visiting" populations `T_v` and `I_v` with a batched matrix
 * product, and it accepts an origin-destination matrix per age group.
 */
module LegacyModel {
  import opened Arrays
  import opened Compartments
  import opened ContactModel

  /** A three-dimensional array `A[p][q][a]`. */
  type Array3 = seq<seq<seq<real>>>

  /** The mobility argument: one origin-destination matrix for all ages, or one per age group on a third axis. */
  datatype Mobility = Flat(od: Matrix) | Stratified(ods: Array3)

  /** `A` has shape `p x q x r`. */
  predicate IsArray3(A: Array3, p: nat, q: nat, r: nat) {
    && |A| == p
    && (forall i :: 0 <= i < p ==> |A[i]| == q)
    && (forall i, j :: 0 <= i < p && 0 <= j < q ==> |A[i][j]| == r)
  }

  /** `A` is `m x m x 1` or `m x m x n`: the shapes `np.broadcast_to(A, (m, m, n))` accepts. */
  predicate Broadcastable(A: Array3, m: nat, n: nat) {
    && |A| == m
    && (forall p :: 0 <= p < m ==> |A[p]| == m)
    && (forall p, q :: 0 <= p < m && 0 <= q < m ==> |A[p][q]| == 1 || |A[p][q]| == n)
  }

  /** Number of locations the mobility argument covers. */
  function Size(W: Mobility): nat {
    match W
    case Flat(od) => |od|
    case Stratified(ods) => |ods|
  }

  /** `W` is `m x m`, or `m x m x 1`, or `m x m x n`. */
  predicate MobilityShaped(W: Mobility, m: nat, n: nat) {
    match W
    case Flat(w) => IsMatrix(w, m, m)
    case Stratified(w) => Broadcastable(w, m, n)
  }

  predicate NonNegativeMobility(W: Mobility) {
    match W
    case Flat(w) => NonNegative(w)
    case Stratified(w) =>
      forall p, q, a :: 0 <= p < |w| && 0 <= q < |w[p]| && 0 <= a < |w[p][q]| ==> w[p][q][a] >= 0.0
  }

  /** `Weight(W, p, q, a)` reads inside `W`. */
  predicate WeightDefined(W: Mobility, p: nat, q: nat, a: nat) {
    match W
    case Flat(w) => p < |w| && q < |w[p]|
    case Stratified(w) => p < |w| && q < |w[p]| && (|w[p][q]| == 1 || a < |w[p][q]|)
  }

  /**
   * The weight of the trip `p -> q` for age group `a`: the matrix entry when
   * it is shared by all ages, otherwise the age's own slice (a single slice
   * serves every age).
   */
  function Weight(W: Mobility, p: nat, q: nat, a: nat): real
    requires WeightDefined(W, p, q, a)
  {
    match W
    case Flat(w) => w[p][q]
    case Stratified(w) => if |w[p][q]| == 1 then w[p][q][0] else w[p][q][a]
  }

  /** `np.atleast_3d`: a two-dimensional `(m, m)` array becomes `(m, m, 1)`. */
  function AtLeast3D(W: Mobility): (A: Array3)
    ensures |A| == Size(W)
    ensures W.Flat? ==> forall p :: 0 <= p < |W.od| ==> |A[p]| == |W.od[p]|
    ensures W.Flat? ==> forall p, q :: 0 <= p < |W.od| && 0 <= q < |W.od[p]| ==> A[p][q] == [W.od[p][q]]
  {
    match W
    case Flat(w) =>
      seq(|w|, p requires 0 <= p < |w| => seq(|w[p]|, q requires 0 <= q < |w[p]| => [w[p][q]]))
    case Stratified(w) => w
  }

  /** `np.broadcast_to(A, (m, m, n))`: a third axis of length 1 is repeated `n` times. */
  function BroadcastTo(A: Array3, m: nat, n: nat): (B: Array3)
    requires Broadcastable(A, m, n)
    ensures IsArray3(B, m, m, n)
  {
    seq(m, p requires 0 <= p < m =>
      seq(m, q requires 0 <= q < m =>
        seq(n, a requires 0 <= a < n => if |A[p][q]| == 1 then A[p][q][0] else A[p][q][a])))
  }

  /** The broadcast array read through `Weight`. */
  lemma BroadcastWeights(W: Mobility, m: nat, n: nat)
    requires MobilityShaped(W, m, n)
    ensures Broadcastable(AtLeast3D(W), m, n)
    ensures forall p, q, a :: 0 <= p < m && 0 <= q < m && 0 <= a < n ==>
      BroadcastTo(AtLeast3D(W), m, n)[p][q][a] == Weight(W, p, q, a)
  {
  }

  /** The weights `k |-> W[k][j][i]` of every trip into location `j`, read in age group `i`. */
  function Inflow(W: Mobility, j: nat, i: nat, n: nat): (w: seq<real>)
    requires MobilityShaped(W, Size(W), n) && j < Size(W) && i < n
    ensures |w| == Size(W)
    ensures forall k :: 0 <= k < |w| ==> w[k] == Weight(W, k, j, i)
  {
    seq(Size(W), k requires 0 <= k < Size(W) => Weight(W, k, j, i))
  }

  /** `k |-> B[k][j][i]`: column `j` of slice `i` of an `m x m x n` array. */
  function Fiber(B: Array3, m: nat, n: nat, j: nat, i: nat): (v: seq<real>)
    requires IsArray3(B, m, m, n) && j < m && i < n
    ensures |v| == m
  {
    seq(m, k requires 0 <= k < m => B[k][j][i])
  }

  /** Reading column `j` of the age-`i` slice of the broadcast array gives the inflow weights. */
  lemma BroadcastInflow(W: Mobility, m: nat, n: nat, j: nat, i: nat)
    requires MobilityShaped(W, m, n) && Size(W) == m && j < m && i < n
    ensures Broadcastable(AtLeast3D(W), m, n)
    ensures Fiber(BroadcastTo(AtLeast3D(W), m, n), m, n, j, i) == Inflow(W, j, i, n)
  {
    BroadcastWeights(W, m, n);
  }

  /**
   * `matmul_2D_3D_matrix(X, W)`: for an `n x m` array `X` (ages by
   * locations) and an `m x m` or `m x m x 1` or `m x m x n` array `W`,
   * `O[i][j] = sum_k X[i][k] * W[k][j][i]` after `W` is broadcast to `m x m x n`.
   */
  function MatMul2D3D(X: Matrix, W: Mobility): (O: Matrix)
    requires IsMatrix(X, |X|, Size(W)) && MobilityShaped(W, Size(W), |X|)
    ensures IsMatrix(O, |X|, Size(W))
    ensures forall i, j :: 0 <= i < |X| && 0 <= j < Size(W) ==> O[i][j] == Dot(X[i], Inflow(W, j, i, |X|))
  {
    BroadcastWeights(W, Size(W), |X|);
    assert forall i, j :: 0 <= i < |X| && 0 <= j < Size(W) ==>
      Fiber(BroadcastTo(AtLeast3D(W), Size(W), |X|), Size(W), |X|, j, i) == Inflow(W, j, i, |X|) by {
      forall i, j | 0 <= i < |X| && 0 <= j < Size(W) {
        BroadcastInflow(W, Size(W), |X|, j, i);
      }
    }
    var n, m := |X|, Size(W);
    BroadcastWeights(W, m, n);
    var B := BroadcastTo(AtLeast3D(W), m, n);
    seq(n, i requires 0 <= i < n =>
      seq(m, j requires 0 <= j < m =>
        Dot(X[i], Fiber(B, m, n, j, i))))
  }

  /** The ordinary matrix product `X @ w`, written as sums of products. */
  function MatrixProduct(X: Matrix, w: Matrix): (O: Matrix)
    requires IsMatrix(X, |X|, |w|) && IsMatrix(w, |w|, |w|)
    ensures IsMatrix(O, |X|, |w|)
  {
    seq(|X|, i requires 0 <= i < |X| =>
      seq(|w|, j requires 0 <= j < |w| =>
        Sum(seq(|w|, k requires 0 <= k < |w| => X[i][k] * w[k][j]))))
  }

  /** With a single origin-destination matrix the batched product is the ordinary product `X @ w`. */
  lemma FlatIsMatrixProduct(X: Matrix, w: Matrix)
    requires IsMatrix(X, |X|, |w|) && IsMatrix(w, |w|, |w|)
    ensures MatMul2D3D(X, Flat(w)) == MatrixProduct(X, w)
  {
    var O, P := MatMul2D3D(X, Flat(w)), MatrixProduct(X, w);
    forall i, j | 0 <= i < |O| && 0 <= j < |O[i]|
      ensures O[i][j] == P[i][j]
    {
      var v := Inflow(Flat(w), j, i, |X|);
      DotIsSum(X[i], v, seq(|w|, k requires 0 <= k < |w| => X[i][k] * w[k][j]));
    }
    MatrixExtensionality(O, P);
  }

  /** `w` repeated along a third axis of length `r`. */
  function Stack(w: Matrix, r: nat): (A: Array3)
    requires IsSquare(w)
    ensures IsArray3(A, |w|, |w|, r)
  {
    seq(|w|, p requires 0 <= p < |w| => seq(|w|, q requires 0 <= q < |w| => seq(r, a => w[p][q])))
  }

  /**
   * Passing one matrix, or that matrix stacked once or once per age group,
   * gives the same visiting populations: broadcasting is the explicit stack.
   */
  lemma FlatEqualsStack(X: Matrix, w: Matrix, r: nat)
    requires IsMatrix(X, |X|, |w|) && IsSquare(w)
    requires r == 1 || r == |X|
    ensures MobilityShaped(Stratified(Stack(w, r)), |w|, |X|)
    ensures MatMul2D3D(X, Flat(w)) == MatMul2D3D(X, Stratified(Stack(w, r)))
  {
    var W := Stratified(Stack(w, r));
    assert Size(W) == |w|;
    var O, P := MatMul2D3D(X, Flat(w)), MatMul2D3D(X, W);
    forall i, j | 0 <= i < |O| && 0 <= j < |O[i]|
      ensures O[i][j] == P[i][j]
    {
      assert Inflow(Flat(w), j, i, |X|) == Inflow(W, j, i, |X|);
    }
    MatrixExtensionality(O, P);
  }

  /**
   * Visitors never outnumber the visiting population: with non-negative
   * weights, `0 <= X <= Y` entry-wise gives `0 <= X_v <= Y_v`.
   */
  lemma VisitorsBounded(X: Matrix, Y: Matrix, W: Mobility)
    requires IsMatrix(X, |X|, Size(W)) && IsMatrix(Y, |X|, Size(W)) && MobilityShaped(W, Size(W), |X|)
    requires NonNegativeMobility(W) && NonNegative(X) && Below(X, Y)
    ensures NonNegative(MatMul2D3D(X, W))
    ensures Below(MatMul2D3D(X, W), MatMul2D3D(Y, W))
  {
    var O, P := MatMul2D3D(X, W), MatMul2D3D(Y, W);
    forall i, j | 0 <= i < |O| && 0 <= j < |O[i]|
      ensures 0.0 <= O[i][j] <= P[i][j]
    {
      var v := Inflow(W, j, i, |X|);
      DotNonNegative(X[i], v);
      DotMonotoneLeft(X[i], Y[i], v);
    }
  }

  /** Without infectious individuals there are no infectious visitors. */
  lemma VisitorsOfNoInfection(X: Matrix, W: Mobility)
    requires IsMatrix(X, |X|, Size(W)) && MobilityShaped(W, Size(W), |X|)
    requires AllZero(X)
    ensures AllZero(MatMul2D3D(X, W))
  {
    var O := MatMul2D3D(X, W);
    forall i, j | 0 <= i < |O| && 0 <= j < |O[i]|
      ensures O[i][j] == 0.0
    {
      DotZeroLeft(X[i], Inflow(W, j, i, |X|));
    }
  }

  /** The inputs fit: `N` is `G x G`, the state is `G x H`, and `M` covers `H` locations for `G` age groups. */
  predicate LegacyCompatible(x: State, N: Matrix, M: Mobility) {
    IsSquare(N) && Shaped(x, |N|, Size(M)) && MobilityShaped(M, Size(M), |N|)
  }

  /** `T_v = matmul_2D_3D_matrix(S + I + R, M)`: the population present in each location, by age. */
  function VisitingPopulation(x: State, N: Matrix, M: Mobility): (Tv: Matrix)
    requires LegacyCompatible(x, N, M)
    ensures IsMatrix(Tv, |N|, Size(M))
  {
    MatMul2D3D(Total(x), M)
  }

  /** `I_v = matmul_2D_3D_matrix(I, M)`: the infectious individuals present in each location, by age. */
  function VisitingInfectious(x: State, N: Matrix, M: Mobility): (Iv: Matrix)
    requires LegacyCompatible(x, N, M)
    ensures IsMatrix(Iv, |N|, Size(M))
  {
    MatMul2D3D(x.I, M)
  }

  /** Every visiting population is non-zero, so `I_v / T_v` is defined. */
  predicate VisitorsPresent(x: State, N: Matrix, M: Mobility)
    requires LegacyCompatible(x, N, M)
  {
    var Tv := VisitingPopulation(x, N, M);
    forall i, j :: 0 <= i < |N| && 0 <= j < Size(M) ==> Tv[i][j] != 0.0
  }

  /** `I_v / T_v`, the infectious fraction among those present in each location. */
  function VisitorPrevalence(x: State, N: Matrix, M: Mobility): (Pv: Matrix)
    requires LegacyCompatible(x, N, M) && VisitorsPresent(x, N, M)
    ensures IsMatrix(Pv, |N|, Size(M))
  {
    Quotient(VisitingInfectious(x, N, M), VisitingPopulation(x, N, M))
  }

  /** Each visitor prevalence times the population present gives back the infectious present. */
  lemma VisitorPrevalenceEntry(x: State, N: Matrix, M: Mobility, i: nat, j: nat)
    requires LegacyCompatible(x, N, M) && VisitorsPresent(x, N, M)
    requires i < |N| && j < Size(M)
    ensures VisitorPrevalence(x, N, M)[i][j] * VisitingPopulation(x, N, M)[i][j] == VisitingInfectious(x, N, M)[i][j]
  {
    var Tv := VisitingPopulation(x, N, M);
    assert VisitorPrevalence(x, N, M)[i][j] == VisitingInfectious(x, N, M)[i][j] / Tv[i][j];
  }

  /** einsum `'kj,ikj->ij'`: `H[i][j] = sum_k P[k][j] * N3[i][k][j]`. */
  function HomeEinsum(P: Matrix, N3: Array3, G: nat, H: nat): (E: Matrix)
    requires IsMatrix(P, G, H) && IsArray3(N3, G, G, H)
    ensures IsMatrix(E, G, H)
  {
    seq(G, i requires 0 <= i < G =>
      seq(H, j requires 0 <= j < H => Sum(HomeEinsumTerms(P, N3, G, H, i, j))))
  }

  /** The summands `P[k][j] * N3[i][k][j]` of one home entry. */
  function HomeEinsumTerms(P: Matrix, N3: Array3, G: nat, H: nat, i: nat, j: nat): (t: seq<real>)
    requires IsMatrix(P, G, H) && IsArray3(N3, G, G, H) && i < G && j < H
    ensures |t| == G
  {
    seq(G, k requires 0 <= k < G => P[k][j] * N3[i][k][j])
  }

  /** einsum `'jki,lk,ilk->ij'`: `V[i][j] = sum_k sum_l M3[j][k][i] * Pv[l][k] * N3[i][l][k]`. */
  function VisitEinsum(M3: Array3, Pv: Matrix, N3: Array3, G: nat, H: nat): (E: Matrix)
    requires IsArray3(M3, H, H, G) && IsMatrix(Pv, G, H) && IsArray3(N3, G, G, H)
    ensures IsMatrix(E, G, H)
  {
    seq(G, i requires 0 <= i < G =>
      seq(H, j requires 0 <= j < H => Sum(VisitEinsumTerms(M3, Pv, N3, G, H, i, j))))
  }

  /** The summands of one visiting entry, one per destination `k`. */
  function VisitEinsumTerms(M3: Array3, Pv: Matrix, N3: Array3, G: nat, H: nat, i: nat, j: nat): (t: seq<real>)
    requires IsArray3(M3, H, H, G) && IsMatrix(Pv, G, H) && IsArray3(N3, G, G, H) && i < G && j < H
    ensures |t| == H
  {
    seq(H, k requires 0 <= k < H => Sum(VisitEinsumInner(M3, Pv, N3, G, H, i, j, k)))
  }

  /** The summands `M3[j][k][i] * Pv[l][k] * N3[i][l][k]` for one destination `k`. */
  function VisitEinsumInner(M3: Array3, Pv: Matrix, N3: Array3, G: nat, H: nat, i: nat, j: nat, k: nat): (t: seq<real>)
    requires IsArray3(M3, H, H, G) && IsMatrix(Pv, G, H) && IsArray3(N3, G, G, H) && i < G && j < H && k < H
    ensures |t| == G
  {
    seq(G, l requires 0 <= l < G => M3[j][k][i] * Pv[l][k] * N3[i][l][k])
  }

  /** `np.atleast_3d(N)` broadcast over the locations: `N3[i][k][j] = N[i][k]`. */
  function ContactStack(N: Matrix, H: nat): (N3: Array3)
    requires IsSquare(N)
    ensures IsArray3(N3, |N|, |N|, H)
  {
    BroadcastWeights(Flat(N), |N|, H);
    BroadcastTo(AtLeast3D(Flat(N)), |N|, H)
  }

  /** `np.atleast_3d(M)` broadcast over the age groups: `M3[j][k][i] = Weight(M, j, k, i)`. */
  function MobilityStack(M: Mobility, G: nat): (M3: Array3)
    requires MobilityShaped(M, Size(M), G)
    ensures IsArray3(M3, Size(M), Size(M), G)
  {
    BroadcastWeights(M, Size(M), G);
    BroadcastTo(AtLeast3D(M), Size(M), G)
  }

  /**
   * The legacy force of infection:
   * `beta (1 - f_v) einsum('kj,ikj->ij', I/T, N) + beta f_v einsum('jki,lk,ilk->ij', M, I_v/T_v, N)`.
   */
  function LegacyForce(beta: real, fv: real, N: Matrix, M: Mobility, x: State): (l: Matrix)
    requires LegacyCompatible(x, N, M) && Populated(x) && VisitorsPresent(x, N, M)
    ensures IsMatrix(l, |N|, Size(M))
  {
    MixedForce(beta, fv, N, M, Prevalence(x), VisitorPrevalence(x, N, M))
  }

  /** The legacy force of infection over given resident and visitor prevalences `P` and `Pv`. */
  function MixedForce(beta: real, fv: real, N: Matrix, M: Mobility, P: Matrix, Pv: Matrix): (l: Matrix)
    requires IsSquare(N) && MobilityShaped(M, Size(M), |N|)
    requires IsMatrix(P, |N|, Size(M)) && IsMatrix(Pv, |N|, Size(M))
    ensures IsMatrix(l, |N|, Size(M))
  {
    var G, H := |N|, Size(M);
    var N3 := ContactStack(N, H);
    var home := HomeEinsum(P, N3, G, H);
    var visit := VisitEinsum(MobilityStack(M, G), Pv, N3, G, H);
    Add(Scale(beta * (1.0 - fv), home), Scale(beta * fv, visit))
  }

  /**
   * Pressure on age `i` living in `j` from the places it visits: each
   * destination `k`, weighted by the trip `j -> k`, contributes
   * `sum_l N[i][l] * Pv[l][k]`.
   */
  function LegacyVisitTerm(N: Matrix, M: Mobility, Pv: Matrix, i: nat, j: nat): real
    requires IsSquare(N) && MobilityShaped(M, Size(M), |N|) && IsMatrix(Pv, |N|, Size(M))
    requires i < |N| && j < Size(M)
  {
    Sum(LegacyVisitTerms(N, M, Pv, i, j))
  }

  /** The summands of the legacy visiting term: the trip weight to `k` times the home term over `Pv` at `k`. */
  function LegacyVisitTerms(N: Matrix, M: Mobility, Pv: Matrix, i: nat, j: nat): (t: seq<real>)
    requires IsSquare(N) && MobilityShaped(M, Size(M), |N|) && IsMatrix(Pv, |N|, Size(M))
    requires i < |N| && j < Size(M)
    ensures |t| == Size(M)
  {
    seq(Size(M), k requires 0 <= k < Size(M) => Weight(M, j, k, i) * HomeTerm(N, Pv, i, k))
  }

  /** `(a*p)*n == a*(n*p)`, proved apart from any other fact. */
  lemma Reorder(a: real, p: real, n: real)
    ensures a * p * n == a * (n * p)
  {
  }

  /** The legacy home part is the same home term as in the contact-tensor model. */
  lemma HomeEinsumIsHomeTerm(N: Matrix, P: Matrix, H: nat, i: nat, j: nat)
    requires IsSquare(N) && IsMatrix(P, |N|, H) && i < |N| && j < H
    ensures HomeEinsum(P, ContactStack(N, H), |N|, H)[i][j] == HomeTerm(N, P, i, j)
  {
    var G := |N|;
    var N3 := ContactStack(N, H);
    BroadcastWeights(Flat(N), G, H);
    var terms := HomeEinsumTerms(P, N3, G, H, i, j);
    var reference := HomeTerms(N, P, i, j);
    forall k | 0 <= k < G
      ensures terms[k] == reference[k]
    {
      assert N3[i][k][j] == Weight(Flat(N), i, k, j) == N[i][k];
    }
    assert terms == reference;
  }

  /** The legacy visiting part weights each destination's mixed prevalence by the trip to it. */
  lemma VisitEinsumIsVisitTerm(N: Matrix, M: Mobility, Pv: Matrix, i: nat, j: nat)
    requires IsSquare(N) && MobilityShaped(M, Size(M), |N|) && IsMatrix(Pv, |N|, Size(M))
    requires i < |N| && j < Size(M)
    ensures VisitEinsum(MobilityStack(M, |N|), Pv, ContactStack(N, Size(M)), |N|, Size(M))[i][j]
         == LegacyVisitTerm(N, M, Pv, i, j)
  {
    var G, H := |N|, Size(M);
    var N3, M3 := ContactStack(N, H), MobilityStack(M, G);
    BroadcastWeights(Flat(N), G, H);
    BroadcastWeights(M, H, G);
    var outer := VisitEinsumTerms(M3, Pv, N3, G, H, i, j);
    var reference := LegacyVisitTerms(N, M, Pv, i, j);
    forall k | 0 <= k < H
      ensures outer[k] == reference[k]
    {
      assert M3[j][k][i] == Weight(M, j, k, i);
      DestinationSum(M3, Pv, N3, N, H, Weight(M, j, k, i), i, j, k);
    }
    assert outer == reference;
  }

  /**
   * The visiting einsum's contribution of one destination `k`, over any
   * stacks that read back the trip weight `w` and `N`'s row `i`: `w` times
   * the home term at `k`.
   */
  lemma DestinationSum(M3: Array3, Pv: Matrix, N3: Array3, N: Matrix, H: nat, w: real, i: nat, j: nat, k: nat)
    requires IsSquare(N) && IsArray3(M3, H, H, |N|) && IsMatrix(Pv, |N|, H) && IsArray3(N3, |N|, |N|, H)
    requires i < |N| && j < H && k < H
    requires M3[j][k][i] == w
    requires forall l :: 0 <= l < |N| ==> N3[i][l][k] == N[i][l]
    ensures Sum(VisitEinsumInner(M3, Pv, N3, |N|, H, i, j, k)) == w * HomeTerm(N, Pv, i, k)
  {
    var terms := VisitEinsumInner(M3, Pv, N3, |N|, H, i, j, k);
    var mixed := HomeTerms(N, Pv, i, k);
    forall l | 0 <= l < |N|
      ensures terms[l] == w * mixed[l]
    {
      Reorder(w, Pv[l][k], N[i][l]);
    }
    SumScale(mixed, terms, w);
  }

  /**
   * The legacy force of infection splits into `beta (1 - f_v)` times the
   * home term over the resident prevalence `P` and `beta f_v` times the
   * visiting term over the visitor prevalence `Pv`; `LegacyForce` is the
   * case `P = I / T`, `Pv = I_v / T_v`.
   */
  lemma MixedForceDecomposition(beta: real, fv: real, N: Matrix, M: Mobility, P: Matrix, Pv: Matrix, i: nat, j: nat)
    requires IsSquare(N) && MobilityShaped(M, Size(M), |N|)
    requires IsMatrix(P, |N|, Size(M)) && IsMatrix(Pv, |N|, Size(M))
    requires i < |N| && j < Size(M)
    ensures MixedForce(beta, fv, N, M, P, Pv)[i][j]
         == beta * (1.0 - fv) * HomeTerm(N, P, i, j) + beta * fv * LegacyVisitTerm(N, M, Pv, i, j)
  {
    var G, H := |N|, Size(M);
    var N3 := ContactStack(N, H);
    var home := HomeEinsum(P, N3, G, H);
    var visit := VisitEinsum(MobilityStack(M, G), Pv, N3, G, H);
    WeightedSumEntry(beta * (1.0 - fv), home, beta * fv, visit, i, j);
    HomeEinsumIsHomeTerm(N, P, H, i, j);
    VisitEinsumIsVisitTerm(N, M, Pv, i, j);
  }

  /** With non-negative compartments and weights, `0 <= I_v <= T_v` and `I_v / T_v` lies in `[0, 1]`. */
  lemma VisitorPrevalenceIsFraction(x: State, N: Matrix, M: Mobility)
    requires LegacyCompatible(x, N, M) && VisitorsPresent(x, N, M)
    requires NonNegativeState(x) && NonNegativeMobility(M)
    ensures NonNegative(VisitingInfectious(x, N, M))
    ensures Below(VisitingInfectious(x, N, M), VisitingPopulation(x, N, M))
    ensures NonNegative(VisitorPrevalence(x, N, M))
    ensures forall i, j :: 0 <= i < |N| && 0 <= j < Size(M) ==> VisitorPrevalence(x, N, M)[i][j] <= 1.0
  {
    var T := Total(x);
    assert Below(x.I, T);
    VisitorsBounded(x.I, T, M);
    var Iv, Tv, Pv := VisitingInfectious(x, N, M), VisitingPopulation(x, N, M), VisitorPrevalence(x, N, M);
    forall i, j | 0 <= i < |Pv| && 0 <= j < |Pv[i]|
      ensures 0.0 <= Pv[i][j] <= 1.0
    {
      var p, q := Iv[i][j], Tv[i][j];
      assert q > 0.0 && 0.0 <= p <= q;
      assert Pv[i][j] == p / q;
      FractionBounds(p, q);
    }
  }

  /** The home term over a zero prevalence is zero. */
  lemma HomeTermOfZero(N: Matrix, P: Matrix, H: nat, i: nat, j: nat)
    requires IsSquare(N) && IsMatrix(P, |N|, H) && i < |N| && j < H && AllZero(P)
    ensures HomeTerm(N, P, i, j) == 0.0
  {
    SumOfZeros(HomeTerms(N, P, i, j));
  }

  /** The legacy visiting term over a zero visitor prevalence is zero. */
  lemma VisitTermOfZero(N: Matrix, M: Mobility, Pv: Matrix, i: nat, j: nat)
    requires IsSquare(N) && MobilityShaped(M, Size(M), |N|) && IsMatrix(Pv, |N|, Size(M))
    requires i < |N| && j < Size(M) && AllZero(Pv)
    ensures LegacyVisitTerm(N, M, Pv, i, j) == 0.0
  {
    var H := Size(M);
    var visit := LegacyVisitTerms(N, M, Pv, i, j);
    forall k | 0 <= k < H
      ensures visit[k] == 0.0
    {
      SumOfZeros(HomeTerms(N, Pv, i, k));
    }
    SumOfZeros(visit);
  }

  /** The home term over non-negative `N` and `P` is non-negative. */
  lemma HomeTermNonNegative(N: Matrix, P: Matrix, H: nat, i: nat, j: nat)
    requires IsSquare(N) && IsMatrix(P, |N|, H) && i < |N| && j < H
    requires NonNegative(N) && NonNegative(P)
    ensures HomeTerm(N, P, i, j) >= 0.0
  {
    SumNonNegative(HomeTerms(N, P, i, j));
  }

  /** The legacy visiting term over non-negative `N`, `M` and `Pv` is non-negative. */
  lemma VisitTermNonNegative(N: Matrix, M: Mobility, Pv: Matrix, i: nat, j: nat)
    requires IsSquare(N) && MobilityShaped(M, Size(M), |N|) && IsMatrix(Pv, |N|, Size(M))
    requires i < |N| && j < Size(M)
    requires NonNegative(N) && NonNegativeMobility(M) && NonNegative(Pv)
    ensures LegacyVisitTerm(N, M, Pv, i, j) >= 0.0
  {
    var H := Size(M);
    var visit := LegacyVisitTerms(N, M, Pv, i, j);
    forall k | 0 <= k < H
      ensures visit[k] >= 0.0
    {
      var mixed := HomeTerms(N, Pv, i, k);
      SumNonNegative(mixed);
      ProductNonNegative(Weight(M, j, k, i), Sum(mixed));
    }
    SumNonNegative(visit);
  }

  /** `beta (1 - f_v) h + beta f_v v >= 0` for non-negative parts, `beta >= 0` and `0 <= f_v <= 1`. */
  lemma MixtureNonNegative(beta: real, fv: real, h: real, v: real)
    requires beta >= 0.0 && 0.0 <= fv <= 1.0 && h >= 0.0 && v >= 0.0
    ensures beta * (1.0 - fv) * h + beta * fv * v >= 0.0
  {
    ProductNonNegative(beta, 1.0 - fv);
    ProductNonNegative(beta * (1.0 - fv), h);
    ProductNonNegative(beta, fv);
    ProductNonNegative(beta * fv, v);
  }

  /** One cell of the legacy force of infection over zero prevalences. */
  lemma MixedCellOfZero(beta: real, fv: real, N: Matrix, M: Mobility, P: Matrix, Pv: Matrix, i: nat, j: nat)
    requires IsSquare(N) && MobilityShaped(M, Size(M), |N|)
    requires IsMatrix(P, |N|, Size(M)) && IsMatrix(Pv, |N|, Size(M))
    requires AllZero(P) && AllZero(Pv)
    requires i < |N| && j < Size(M)
    ensures MixedForce(beta, fv, N, M, P, Pv)[i][j] == 0.0
  {
    MixedForceDecomposition(beta, fv, N, M, P, Pv, i, j);
    HomeTermOfZero(N, P, Size(M), i, j);
    VisitTermOfZero(N, M, Pv, i, j);
  }

  /** Without infectious individuals both parts of the legacy force of infection vanish. */
  lemma LegacyForceOfNoInfection(beta: real, fv: real, N: Matrix, M: Mobility, x: State)
    requires LegacyCompatible(x, N, M) && Populated(x) && VisitorsPresent(x, N, M)
    requires AllZero(x.I)
    ensures AllZero(VisitingInfectious(x, N, M))
    ensures AllZero(LegacyForce(beta, fv, N, M, x))
  {
    VisitorsOfNoInfection(x.I, M);
    PrevalenceOfNoInfection(x);
    QuotientOfZero(VisitingInfectious(x, N, M), VisitingPopulation(x, N, M));
    var P, Pv := Prevalence(x), VisitorPrevalence(x, N, M);
    var l := MixedForce(beta, fv, N, M, P, Pv);
    forall i, j | 0 <= i < |N| && 0 <= j < Size(M)
      ensures l[i][j] == 0.0
    {
      MixedCellOfZero(beta, fv, N, M, P, Pv, i, j);
    }
  }

  /** One cell of the legacy force of infection over non-negative inputs. */
  lemma MixedCellNonNegative(beta: real, fv: real, N: Matrix, M: Mobility, P: Matrix, Pv: Matrix, i: nat, j: nat)
    requires IsSquare(N) && MobilityShaped(M, Size(M), |N|)
    requires IsMatrix(P, |N|, Size(M)) && IsMatrix(Pv, |N|, Size(M))
    requires NonNegative(P) && NonNegative(Pv) && NonNegative(N) && NonNegativeMobility(M)
    requires beta >= 0.0 && 0.0 <= fv <= 1.0
    requires i < |N| && j < Size(M)
    ensures MixedForce(beta, fv, N, M, P, Pv)[i][j] >= 0.0
  {
    MixedForceDecomposition(beta, fv, N, M, P, Pv, i, j);
    HomeTermNonNegative(N, P, Size(M), i, j);
    VisitTermNonNegative(N, M, Pv, i, j);
    MixtureNonNegative(beta, fv, HomeTerm(N, P, i, j), LegacyVisitTerm(N, M, Pv, i, j));
  }

  /** With non-negative inputs, `beta >= 0` and `0 <= f_v <= 1`, the legacy force of infection is non-negative. */
  lemma LegacyForceNonNegative(beta: real, fv: real, N: Matrix, M: Mobility, x: State)
    requires LegacyCompatible(x, N, M) && Populated(x) && VisitorsPresent(x, N, M)
    requires NonNegativeState(x) && NonNegative(N) && NonNegativeMobility(M)
    requires beta >= 0.0 && 0.0 <= fv <= 1.0
    ensures NonNegative(LegacyForce(beta, fv, N, M, x))
  {
    PrevalenceIsFraction(x);
    VisitorPrevalenceIsFraction(x, N, M);
    var P, Pv := Prevalence(x), VisitorPrevalence(x, N, M);
    var l := MixedForce(beta, fv, N, M, P, Pv);
    forall i, j | 0 <= i < |N| && 0 <= j < Size(M)
      ensures l[i][j] >= 0.0
    {
      MixedCellNonNegative(beta, fv, N, M, P, Pv, i, j);
    }
  }

  /** One cell of `AgreesWithTensorModelWithoutVisits`, over any prevalences. */
  lemma AgreeingCell(beta: real, N: Matrix, m: Matrix, P: Matrix, Pv: Matrix, i: nat, j: nat)
    requires IsSquare(N) && IsSquare(m) && IsMatrix(P, |N|, |m|) && IsMatrix(Pv, |N|, |m|)
    requires i < |N| && j < |m|
    ensures MixedForce(beta, 0.0, N, Flat(m), P, Pv)[i][j] == Scale(beta, Contract(ContactTensor(N, m, 0.0), P, |N|, |m|))[i][j]
  {
    MixedForceDecomposition(beta, 0.0, N, Flat(m), P, Pv, i, j);
    ScaledContraction(beta, ContactTensor(N, m, 0.0), N, m, 0.0, P, i, j);
  }

  /**
   * Without visits the two engines agree: for `f_v = 0` and one
   * origin-destination matrix the legacy force of infection equals the
   * contact-tensor force of infection.
   */
  lemma AgreesWithTensorModelWithoutVisits(beta: real, N: Matrix, m: Matrix, x: State)
    requires Compatible(x, N, m) && Populated(x)
    requires LegacyCompatible(x, N, Flat(m)) && VisitorsPresent(x, N, Flat(m))
    ensures LegacyForce(beta, 0.0, N, Flat(m), x) == ForceOfInfection(beta, ContactTensor(N, m, 0.0), x)
  {
    var P, Pv := Prevalence(x), VisitorPrevalence(x, N, Flat(m));
    var l := MixedForce(beta, 0.0, N, Flat(m), P, Pv);
    var k := ForceOfInfection(beta, ContactTensor(N, m, 0.0), x);
    if |N| > 0 {
      assert |x.S| == |N| && Cols(x.S) == |m|;
      assert k == Scale(beta, Contract(ContactTensor(N, m, 0.0), P, |N|, |m|));
      forall i, j | 0 <= i < |l| && 0 <= j < |l[i]|
        ensures l[i][j] == k[i][j]
      {
        AgreeingCell(beta, N, m, P, Pv, i, j);
      }
    }
    MatrixExtensionality(l, k);
  }

  /** `spatial_ODE_SIR.integrate` (legacy): the derivatives of S, I and R; they cancel in every cell. */
  function Integrate(t: real, x: State, beta: real, gamma: real, fv: real, N: Matrix, M: Mobility): (d: State)
    requires LegacyCompatible(x, N, M) && Populated(x) && VisitorsPresent(x, N, M) && gamma != 0.0
    ensures Shaped(d, |N|, Size(M))
    ensures forall a, c :: 0 <= a < |N| && 0 <= c < Size(M) ==> d.S[a][c] + d.I[a][c] + d.R[a][c] == 0.0
    ensures d == Derivatives(LegacyForce(beta, fv, N, M, x), x, gamma)
  {
    Derivatives(LegacyForce(beta, fv, N, M, x), x, gamma)
  }

  /** `spatial_TL_SIR.compute_rates` (legacy): `'S' -> [l]` and `'I' -> [1/gamma in every cell]`. */
  function ComputeRates(t: real, x: State, beta: real, gamma: real, fv: real, N: Matrix, M: Mobility): (r: TransitionMap)
    requires LegacyCompatible(x, N, M) && Populated(x) && VisitorsPresent(x, N, M) && gamma != 0.0
    ensures |r.S| == 1 && |r.I| == 1
    ensures IsMatrix(r.S[0], |N|, Size(M)) && IsMatrix(r.I[0], |N|, Size(M))
    ensures forall a, c :: 0 <= a < |N| && 0 <= c < Size(M) ==> r.I[0][a][c] * gamma == 1.0
    ensures r.S[0] == LegacyForce(beta, fv, N, M, x)
  {
    PerCapitaRates(LegacyForce(beta, fv, N, M, x), x, gamma)
  }

  /**
   * The legacy S -> I rate of one cell, written out: `beta (1 - f_v)` times
   * the home term over the residents' prevalence plus `beta f_v` times the
   * trip-weighted visiting term over the visitors' prevalence `I_v / T_v`.
   */
  lemma ComputeRatesCell(t: real, x: State, beta: real, gamma: real, fv: real, N: Matrix, M: Mobility, i: nat, j: nat)
    requires LegacyCompatible(x, N, M) && Populated(x) && VisitorsPresent(x, N, M) && gamma != 0.0
    requires i < |N| && j < Size(M)
    ensures ComputeRates(t, x, beta, gamma, fv, N, M).S[0][i][j]
         == beta * (1.0 - fv) * HomeTerm(N, Prevalence(x), i, j)
            + beta * fv * LegacyVisitTerm(N, M, VisitorPrevalence(x, N, M), i, j)
  {
    var P, Pv := Prevalence(x), VisitorPrevalence(x, N, M);
    assert ComputeRates(t, x, beta, gamma, fv, N, M).S[0] == MixedForce(beta, fv, N, M, P, Pv);
    MixedForceDecomposition(beta, fv, N, M, P, Pv, i, j);
  }

  /**
   * The legacy ODE and jump process share one force of infection: the jump
   * process's S -> I rate is `LegacyForce`, and the derivatives are those
   * of that rate.
   */
  lemma ODEMatchesJumpRates(t: real, x: State, beta: real, gamma: real, fv: real, N: Matrix, M: Mobility)
    requires LegacyCompatible(x, N, M) && Populated(x) && VisitorsPresent(x, N, M) && gamma != 0.0
    ensures SameShape(ComputeRates(t, x, beta, gamma, fv, N, M).S[0], x.S)
    ensures ComputeRates(t, x, beta, gamma, fv, N, M) == PerCapitaRates(LegacyForce(beta, fv, N, M, x), x, gamma)
    ensures Integrate(t, x, beta, gamma, fv, N, M) == Derivatives(ComputeRates(t, x, beta, gamma, fv, N, M).S[0], x, gamma)
  {
  }

  /** Zero-infection fixed point of the legacy ODE. */
  lemma NoInfectionIsFixedPoint(t: real, x: State, beta: real, gamma: real, fv: real, N: Matrix, M: Mobility)
    requires LegacyCompatible(x, N, M) && Populated(x) && VisitorsPresent(x, N, M) && gamma != 0.0
    requires AllZero(x.I)
    ensures var d := Integrate(t, x, beta, gamma, fv, N, M);
            AllZero(d.S) && AllZero(d.I) && AllZero(d.R)
  {
    LegacyForceOfNoInfection(beta, fv, N, M, x);
    DerivativesAtRest(LegacyForce(beta, fv, N, M, x), x, gamma);
  }

  /** With non-negative inputs S never grows and, for `gamma > 0`, R never shrinks. */
  lemma DerivativeSignsHold(t: real, x: State, beta: real, gamma: real, fv: real, N: Matrix, M: Mobility)
    requires LegacyCompatible(x, N, M) && Populated(x) && VisitorsPresent(x, N, M)
    requires NonNegativeState(x) && NonNegative(N) && NonNegativeMobility(M)
    requires beta >= 0.0 && 0.0 <= fv <= 1.0 && gamma > 0.0
    ensures var d := Integrate(t, x, beta, gamma, fv, N, M);
            forall a, c :: 0 <= a < |N| && 0 <= c < Size(M) ==> d.S[a][c] <= 0.0 && d.R[a][c] >= 0.0
  {
    LegacyForceNonNegative(beta, fv, N, M, x);
    DerivativeSigns(LegacyForce(beta, fv, N, M, x), x, gamma);
  }
}

=== FILE: model_utils.dfy ===
/**
 * The pure parts of the helpers that prepare the pySODM model's inputs:
 * municipality lookup by name, the seed infections and the susceptibles
 * left over, the normalised mobility matrix and the model's coordinates.
 * File reads become parameters and random draws become given values.
 */
module Utils {
  import opened Wrappers
  import opened Arrays
  import opened Tables
  import opened Demography

  /** One row of the 2011 census table: a NIS code and a municipality name. */
  datatype NameRow = NameRow(nis: int, name: string)

  datatype Error =
    | InvalidName(name: string)          // `ValueError` from `name2NIS`
    | InvalidAgeDist(agedist: string)    // `ValueError` for an unknown `agedist`
    | UnknownLocation(nis: int)          // the chosen NIS has no rows in the demography
    | NoAttributeValues                  // `AttributeError`: `.values` on a numpy array
    | EmptyChoice                        // `IndexError` from `random.choice` on no candidates

  /** Row `i` is the first row of `table` named `name`. */
  predicate FirstNamed(table: seq<NameRow>, name: string, i: nat) {
    && i < |table|
    && table[i].name == name
    && forall j :: 0 <= j < i ==> table[j].name != name
  }

  /** Position of the first row named `name`. */
  function FindName(table: seq<NameRow>, name: string): (r: Option<nat>)
    ensures r.None? <==> forall i :: 0 <= i < |table| ==> table[i].name != name
    ensures r.Some? ==> FirstNamed(table, name, r.value)
  {
    if |table| == 0 then None
    else if table[0].name == name then Some(0)
    else match FindName(table[1..], name)
      case None => None
      case Some(i) => Some(i + 1)
  }

  /** `name2NIS`: the NIS code of the first row with this name, a `ValueError` if there is none. */
  function Name2Nis(table: seq<NameRow>, name: string): (r: Result<int, Error>)
    ensures r.Failure? <==> forall i :: 0 <= i < |table| ==> table[i].name != name
    ensures r.Failure? ==> r.error == InvalidName(name)
    ensures r.Success? ==> exists i: nat :: FirstNamed(table, name, i) && r.value == table[i].nis
  {
    match FindName(table, name)
    case None => Failure(InvalidName(name))
    case Some(i) => Success(table[i].nis)
  }

  /** The three accepted values of `agedist`. */
  predicate ValidAgeDist(agedist: string) {
    agedist == "demographic" || agedist == "uniform" || agedist == "random"
  }

  /**
   * How the `n` seed infections are spread over the age groups of one
   * municipality: the given multinomial draw, `n / n_age` each, or all `n`
   * in the age group at position `pick`.
   */
  function SeedsPerAge(agedist: string, n: real, nAge: nat, counts: seq<real>, pick: nat): (seeds: seq<real>)
    requires ValidAgeDist(agedist) && nAge >= 1
    requires agedist == "demographic" ==> |counts| == nAge
    requires agedist == "random" ==> pick < nAge
    ensures |seeds| == nAge
    ensures agedist == "demographic" ==> seeds == counts
    ensures agedist == "uniform" ==> forall a :: 0 <= a < nAge ==> seeds[a] * nAge as real == n
    ensures agedist == "random" ==> forall a :: 0 <= a < nAge ==> seeds[a] == if a == pick then n else 0.0
  {
    if agedist == "demographic" then counts
    else if agedist == "uniform" then seq(nAge, a => n / nAge as real)
    else seq(nAge, a => if a == pick then n else 0.0)
  }

  /** The uniform and the single-group spreads both hand out exactly `n` infections. */
  lemma SeedsAddUp(agedist: string, n: real, nAge: nat, counts: seq<real>, pick: nat)
    requires ValidAgeDist(agedist) && agedist != "demographic" && nAge >= 1
    requires agedist == "random" ==> pick < nAge
    ensures Sum(SeedsPerAge(agedist, n, nAge, counts, pick)) == n
  {
    var seeds := SeedsPerAge(agedist, n, nAge, counts, pick);
    if agedist == "uniform" {
      SumConstant(seeds, n / nAge as real);
    } else {
      SumSingleTerm(seeds, pick);
    }
  }

  /** An `n_age x n_NIS` array that is zero except column `k`, which holds `column`. */
  function SeedArray(nAge: nat, nNis: nat, k: nat, column: seq<real>): (I0: Matrix)
    requires |column| == nAge && k < nNis
    ensures IsMatrix(I0, nAge, nNis)
    ensures forall a, j :: 0 <= a < nAge && 0 <= j < nNis && j != k ==> I0[a][j] == 0.0
    ensures forall a :: 0 <= a < nAge ==> I0[a][k] == column[a]
  {
    seq(nAge, a requires 0 <= a < nAge => seq(nNis, j => if j == k then column[a] else 0.0))
  }

  /**
   * The body of `construct_initial_infected` once the seeding municipality
   * `initNis` is known: an unknown `agedist` is a `ValueError`, a NIS with
   * no demography rows is an error, otherwise the seeds fill the column of
   * `initNis` in an `n_age x n_NIS` array of zeros.
   */
  function InfectedAt(initNis: int, n: real, agedist: string, g: Grid, counts: seq<real>, pick: nat): (r: Result<Matrix, Error>)
    requires WellFormed(g)
    requires agedist == "demographic" ==> |counts| == |g.ages|
    requires agedist == "random" ==> pick < |g.ages|
    ensures !ValidAgeDist(agedist) ==> r == Failure(InvalidAgeDist(agedist))
    ensures ValidAgeDist(agedist) && initNis !in g.nis ==> r == Failure(UnknownLocation(initNis))
    ensures r.Success? <==> ValidAgeDist(agedist) && initNis in g.nis
    ensures r.Success? ==> IsMatrix(r.value, |g.ages|, |g.nis|)
    ensures r.Success? ==> forall a, j :: 0 <= a < |g.ages| && 0 <= j < |g.nis| && g.nis[j] != initNis ==> r.value[a][j] == 0.0
    ensures r.Success? ==> forall a, j :: 0 <= a < |g.ages| && 0 <= j < |g.nis| && g.nis[j] == initNis ==>
      r.value[a][j] == SeedsPerAge(agedist, n, |g.ages|, counts, pick)[a]
  {
    if !ValidAgeDist(agedist) then Failure(InvalidAgeDist(agedist))
    else match IndexOf(g.nis, initNis)
      case None => Failure(UnknownLocation(initNis))
      case Some(k) => Success(SeedArray(|g.ages|, |g.nis|, k, SeedsPerAge(agedist, n, |g.ages|, counts, pick)))
  }

  /**
   * `construct_initial_infected(loc, n, agedist)` as written: `loc = 'random'`
   * reaches `.values` on the numpy array `unique()` returns and fails; a
   * name is looked up with `name2NIS`.
   */
  function ConstructInitialInfected(loc: string, n: real, agedist: string, names: seq<NameRow>, g: Grid,
                                    counts: seq<real>, pick: nat): (r: Result<Matrix, Error>)
    requires WellFormed(g)
    requires agedist == "demographic" ==> |counts| == |g.ages|
    requires agedist == "random" ==> pick < |g.ages|
    ensures loc == "random" ==> r == Failure(NoAttributeValues)
    ensures loc != "random" && Name2Nis(names, loc).Failure? ==> r == Failure(InvalidName(loc))
    ensures loc != "random" && Name2Nis(names, loc).Success? ==>
      r == InfectedAt(Name2Nis(names, loc).value, n, agedist, g, counts, pick)
  {
    if loc == "random" then Failure(NoAttributeValues)
    else
      var initNis :- Name2Nis(names, loc);
      InfectedAt(initNis, n, agedist, g, counts, pick)
  }

  /**
   * `construct_initial_infected` with the evidently intended
   * `random.choice(demography['NIS'].unique())`: `choice` is the position
   * the random choice picks among the municipalities.
   */
  function ConstructInitialInfectedFixed(loc: string, n: real, agedist: string, names: seq<NameRow>, g: Grid,
                                         counts: seq<real>, pick: nat, choice: nat): (r: Result<Matrix, Error>)
    requires WellFormed(g)
    requires agedist == "demographic" ==> |counts| == |g.ages|
    requires agedist == "random" ==> pick < |g.ages|
    requires loc == "random" && |g.nis| > 0 ==> choice < |g.nis|
    ensures loc == "random" && |g.nis| == 0 ==> r == Failure(EmptyChoice)
    ensures loc == "random" && |g.nis| > 0 ==> r == InfectedAt(g.nis[choice], n, agedist, g, counts, pick)
    ensures loc != "random" ==> r == ConstructInitialInfected(loc, n, agedist, names, g, counts, pick)
  {
    if loc == "random" then
      if |g.nis| == 0 then Failure(EmptyChoice) else InfectedAt(g.nis[choice], n, agedist, g, counts, pick)
    else
      ConstructInitialInfected(loc, n, agedist, names, g, counts, pick)
  }

  /** With the fix, a random location with a valid `agedist` always yields an array seeded in the chosen municipality. */
  lemma RandomLocationSeedsChosenMunicipality(n: real, agedist: string, names: seq<NameRow>, g: Grid,
                                              counts: seq<real>, pick: nat, choice: nat)
    requires WellFormed(g) && ValidAgeDist(agedist) && choice < |g.nis|
    requires agedist == "demographic" ==> |counts| == |g.ages|
    requires agedist == "random" ==> pick < |g.ages|
    ensures ConstructInitialInfectedFixed("random", n, agedist, names, g, counts, pick, choice).Success?
    ensures var I0 := ConstructInitialInfectedFixed("random", n, agedist, names, g, counts, pick, choice).value;
            IsMatrix(I0, |g.ages|, |g.nis|)
            && (forall a, j :: 0 <= a < |g.ages| && 0 <= j < |g.nis| && j != choice ==> I0[a][j] == 0.0)
            && (forall a :: 0 <= a < |g.ages| ==> I0[a][choice] == SeedsPerAge(agedist, n, |g.ages|, counts, pick)[a])
  {
    assert g.nis[choice] in g.nis;
  }

  /**
   * The as-written function never produces an array for `loc = 'random'`,
   * while the fixed one, for the same inputs and a valid `agedist`, seeds
   * the chosen municipality.
   */
  lemma RandomLocationAlwaysFails(n: real, agedist: string, names: seq<NameRow>, g: Grid,
                                  counts: seq<real>, pick: nat, choice: nat)
    requires WellFormed(g) && ValidAgeDist(agedist) && choice < |g.nis|
    requires agedist == "demographic" ==> |counts| == |g.ages|
    requires agedist == "random" ==> pick < |g.ages|
    ensures ConstructInitialInfected("random", n, agedist, names, g, counts, pick) == Failure(NoAttributeValues)
    ensures ConstructInitialInfectedFixed("random", n, agedist, names, g, counts, pick, choice).Success?
  {
    RandomLocationSeedsChosenMunicipality(n, agedist, names, g, counts, pick, choice);
  }

  /** Column `k` of an array. */
  function Column(A: Matrix, rows: nat, k: nat): (c: seq<real>)
    requires |A| == rows && forall a :: 0 <= a < rows ==> k < |A[a]|
    ensures |c| == rows
  {
    seq(rows, a requires 0 <= a < rows => A[a][k])
  }

  /**
   * The seeded column of a successful result holds exactly `n` infections
   * (for a multinomial draw, when the draw adds up to `n`) and every other
   * column none.
   */
  lemma SeededColumnHoldsN(initNis: int, n: real, agedist: string, g: Grid, counts: seq<real>, pick: nat, k: nat)
    requires WellFormed(g)
    requires agedist == "demographic" ==> |counts| == |g.ages| && Sum(counts) == n
    requires agedist == "random" ==> pick < |g.ages|
    requires InfectedAt(initNis, n, agedist, g, counts, pick).Success?
    requires k < |g.nis|
    ensures var I0 := InfectedAt(initNis, n, agedist, g, counts, pick).value;
            Sum(Column(I0, |g.ages|, k)) == if g.nis[k] == initNis then n else 0.0
  {
    var I0 := InfectedAt(initNis, n, agedist, g, counts, pick).value;
    var c := Column(I0, |g.ages|, k);
    if g.nis[k] == initNis {
      assert c == SeedsPerAge(agedist, n, |g.ages|, counts, pick);
      if agedist != "demographic" {
        SeedsAddUp(agedist, n, |g.ages|, counts, pick);
      }
    } else {
      SumOfZeros(c);
    }
  }

  /** The demography reshaped to `n_age x n_NIS`: `P[a][k]` is the population of age group `a` in municipality `k`. */
  function AgeByLocation(g: Grid): (P: Matrix)
    requires WellFormed(g)
    ensures IsMatrix(P, |g.ages|, |g.nis|)
    ensures forall a, k :: 0 <= a < |g.ages| && 0 <= k < |g.nis| ==> P[a][k] == g.pop[k][a] as real
  {
    seq(|g.ages|, a requires 0 <= a < |g.ages| =>
      seq(|g.nis|, k requires 0 <= k < |g.nis| => g.pop[k][a] as real))
  }

  /** `construct_initial_susceptible(I0)`: the demography minus the seed infections, cell by cell. */
  function ConstructInitialSusceptible(g: Grid, I0: Matrix): (S0: Matrix)
    requires WellFormed(g) && IsMatrix(I0, |g.ages|, |g.nis|)
    ensures IsMatrix(S0, |g.ages|, |g.nis|)
    ensures forall a, k :: 0 <= a < |g.ages| && 0 <= k < |g.nis| ==> S0[a][k] + I0[a][k] == g.pop[k][a] as real
    ensures NonNegative(S0) <==> Below(I0, AgeByLocation(g))
  {
    Sub(AgeByLocation(g), I0)
  }

  /**
   * Seeding then subtracting leaves every municipality but the seeded one
   * untouched: its susceptibles are its whole population.
   */
  lemma SusceptiblesOutsideSeed(initNis: int, n: real, agedist: string, g: Grid, counts: seq<real>, pick: nat)
    requires WellFormed(g)
    requires agedist == "demographic" ==> |counts| == |g.ages|
    requires agedist == "random" ==> pick < |g.ages|
    requires InfectedAt(initNis, n, agedist, g, counts, pick).Success?
    ensures var S0 := ConstructInitialSusceptible(g, InfectedAt(initNis, n, agedist, g, counts, pick).value);
            forall a, k :: 0 <= a < |g.ages| && 0 <= k < |g.nis| && g.nis[k] != initNis ==> S0[a][k] == g.pop[k][a] as real
  {
  }

  /** The share of the Belgian population aged 20 to 60 in 2011, the active population the mobility is normalised by. */
  const ActiveShare: real := 0.54

  /**
   * `get_mobility_matrix`: every commuter count `mobility[i][j]` divided by
   * the inhabitants of origin `i` and by the active share `0.54`.
   */
  function GetMobilityMatrix(mobility: Matrix, inhabitants: seq<real>): (W: Matrix)
    requires IsMatrix(mobility, |inhabitants|, Cols(mobility))
    requires forall i :: 0 <= i < |inhabitants| ==> inhabitants[i] != 0.0
    ensures SameShape(W, mobility)
    ensures forall i, j :: 0 <= i < |W| && 0 <= j < |W[i]| ==> mobility[i][j] == inhabitants[i] * ActiveShare * W[i][j]
    ensures forall i, j :: 0 <= i < |W| && 0 <= j < |W[i]| ==> (W[i][j] == 0.0 <==> mobility[i][j] == 0.0)
  {
    seq(|mobility|, i requires 0 <= i < |mobility| =>
      seq(|mobility[i]|, j requires 0 <= j < |mobility[i]| => mobility[i][j] / inhabitants[i] / ActiveShare))
  }

  /**
   * Row `i` of the normalised matrix adds up to the commuters leaving `i`
   * per active inhabitant of `i`.
   */
  lemma MobilityRowTotals(mobility: Matrix, inhabitants: seq<real>, i: nat)
    requires IsMatrix(mobility, |inhabitants|, Cols(mobility))
    requires forall k :: 0 <= k < |inhabitants| ==> inhabitants[k] != 0.0
    requires i < |inhabitants|
    ensures Sum(mobility[i]) == inhabitants[i] * ActiveShare * Sum(GetMobilityMatrix(mobility, inhabitants)[i])
  {
    var W := GetMobilityMatrix(mobility, inhabitants);
    SumScale(W[i], mobility[i], inhabitants[i] * ActiveShare);
  }

  /** The model's coordinates: its age groups and the NIS codes of the municipalities. */
  datatype Coordinates = Coordinates(age: seq<string>, location: seq<int>)

  /** `construct_coordinates_dictionary`: the four age labels, and the NIS column of the 2011 census table. */
  function ConstructCoordinates(table: seq<NameRow>): (c: Coordinates)
    ensures c.age == ["0-5", "5-15", "15-65", "65+"]
    ensures |c.age| == 4 && c.age[0] == "0-5" && c.age[3] == "65+"
    ensures forall a, b :: 0 <= a < b < |c.age| ==> c.age[a] != c.age[b]
    ensures |c.location| == |table|
    ensures forall i :: 0 <= i < |table| ==> c.location[i] == table[i].nis
  {
    Coordinates(ModelAgeGroups, seq(|table|, i requires 0 <= i < |table| => table[i].nis))
  }
}

=== FILE: tables.dfy ===
/**
 * Tables as sequences of records: column sums, row filters, the sorted
 * distinct keys a pandas `groupby` produces, and the flattening of a
 * cartesian product into one row per cell.
 */
module Tables {

  /** Sum of `f` over the rows, folded from the front. */
  function SumOf<T>(xs: seq<T>, f: T -> int): int {
    if |xs| == 0 then 0 else f(xs[0]) + SumOf(xs[1..], f)
  }

  /** The rows satisfying `p`, in their original order. */
  function Keep<T>(xs: seq<T>, p: T -> bool): (ys: seq<T>)
    ensures |ys| <= |xs|
    ensures forall i :: 0 <= i < |ys| ==> ys[i] in xs && p(ys[i])
    ensures forall i :: 0 <= i < |xs| && p(xs[i]) ==> xs[i] in ys
  {
    if |xs| == 0 then []
    else if p(xs[0]) then [xs[0]] + Keep(xs[1..], p)
    else Keep(xs[1..], p)
  }

  /** The test "the key of a row is `k`". */
  function HasKey<T>(key: T -> int, k: int): T -> bool {
    x => key(x) == k
  }

  /** The test "the key of a row is not `k`". */
  function LacksKey<T>(key: T -> int, k: int): T -> bool {
    x => key(x) != k
  }

  /** The keys of all rows, in row order. */
  function KeysOf<T>(xs: seq<T>, key: T -> int): (ks: seq<int>)
    ensures |ks| == |xs|
    ensures forall i :: 0 <= i < |xs| ==> ks[i] == key(xs[i])
  {
    seq(|xs|, i requires 0 <= i < |xs| => key(xs[i]))
  }

  lemma {:induction false} SumOfAppend<T>(xs: seq<T>, ys: seq<T>, f: T -> int)
    ensures SumOf(xs + ys, f) == SumOf(xs, f) + SumOf(ys, f)
  {
    if |xs| == 0 {
      assert xs + ys == ys;
    } else {
      assert (xs + ys)[1..] == xs[1..] + ys;
      SumOfAppend(xs[1..], ys, f);
    }
  }

  /** A sum splits over any row filter and its complement. */
  lemma {:induction false} SumOfSplit<T>(xs: seq<T>, f: T -> int, p: T -> bool, q: T -> bool)
    requires forall x :: q(x) == !p(x)
    ensures SumOf(xs, f) == SumOf(Keep(xs, p), f) + SumOf(Keep(xs, q), f)
  {
    if |xs| > 0 {
      SumOfSplit(xs[1..], f, p, q);
    }
  }

  /** Filtering out one key does not change the rows of any other key. */
  lemma {:induction false} KeepOtherKey<T>(xs: seq<T>, key: T -> int, k0: int, k: int)
    requires k != k0
    ensures Keep(Keep(xs, LacksKey(key, k0)), HasKey(key, k)) == Keep(xs, HasKey(key, k))
  {
    if |xs| > 0 {
      KeepOtherKey(xs[1..], key, k0, k);
    }
  }

  /** Every row's key is one of `ks`. */
  predicate KeysCovered<T>(xs: seq<T>, key: T -> int, ks: seq<int>) {
    forall i :: 0 <= i < |xs| ==> key(xs[i]) in ks
  }

  predicate Distinct(ks: seq<int>) {
    forall i, j :: 0 <= i < j < |ks| ==> ks[i] != ks[j]
  }

  /** The per-key sums `SumOf(rows with key k)` for every `k` of `ks`. */
  function GroupSums<T>(xs: seq<T>, key: T -> int, f: T -> int, ks: seq<int>): (sums: seq<int>)
    ensures |sums| == |ks|
    ensures forall i :: 0 <= i < |ks| ==> sums[i] == SumOf(Keep(xs, HasKey(key, ks[i])), f)
  {
    seq(|ks|, i requires 0 <= i < |ks| => SumOf(Keep(xs, HasKey(key, ks[i])), f))
  }

  function Total(s: seq<int>): int {
    if |s| == 0 then 0 else s[0] + Total(s[1..])
  }

  /**
   * Grouping by a list of distinct keys that covers every row loses
   * nothing: the group sums add up to the sum over all rows.
   */
  lemma {:induction false} GroupSumsTotal<T>(xs: seq<T>, key: T -> int, f: T -> int, ks: seq<int>)
    requires Distinct(ks) && KeysCovered(xs, key, ks)
    ensures Total(GroupSums(xs, key, f, ks)) == SumOf(xs, f)
    decreases |ks|
  {
    if |ks| > 0 {
      var rest := Keep(xs, LacksKey(key, ks[0]));
      SumOfSplit(xs, f, HasKey(key, ks[0]), LacksKey(key, ks[0]));
      RestCovered(xs, key, ks);
      GroupSumsTail(xs, key, f, ks);
      GroupSumsTotal(rest, key, f, ks[1..]);
    }
  }

  /** Once the rows of the first key are gone, the other keys cover the rest. */
  lemma RestCovered<T>(xs: seq<T>, key: T -> int, ks: seq<int>)
    requires |ks| > 0 && KeysCovered(xs, key, ks)
    ensures KeysCovered(Keep(xs, LacksKey(key, ks[0])), key, ks[1..])
  {
    var rest := Keep(xs, LacksKey(key, ks[0]));
    forall i | 0 <= i < |rest|
      ensures key(rest[i]) in ks[1..]
    {
      var j :| 0 <= j < |xs| && xs[j] == rest[i];
      assert key(xs[j]) in ks;
      var m :| 0 <= m < |ks| && ks[m] == key(rest[i]);
      assert LacksKey(key, ks[0])(rest[i]);
      assert m != 0;
      assert ks[1..][m - 1] == ks[m];
    }
  }

  /** The other keys' sums do not see the rows of the first key. */
  lemma GroupSumsTail<T>(xs: seq<T>, key: T -> int, f: T -> int, ks: seq<int>)
    requires |ks| > 0 && Distinct(ks)
    ensures Distinct(ks[1..])
    ensures GroupSums(Keep(xs, LacksKey(key, ks[0])), key, f, ks[1..]) == GroupSums(xs, key, f, ks)[1..]
  {
    var rest := Keep(xs, LacksKey(key, ks[0]));
    forall i | 0 <= i < |ks| - 1
      ensures GroupSums(rest, key, f, ks[1..])[i] == GroupSums(xs, key, f, ks)[i + 1]
    {
      assert ks[1..][i] == ks[i + 1] && ks[i + 1] != ks[0];
      KeepOtherKey(xs, key, ks[0], ks[i + 1]);
    }
  }

  /** The positions `0, 1, ..., n - 1`. */
  function Range(n: nat): (r: seq<int>)
    ensures |r| == n && Distinct(r)
    ensures forall i :: 0 <= i < n ==> r[i] == i
    ensures forall x :: x in r <==> 0 <= x < n
  {
    if n == 0 then []
    else
      var r := Range(n - 1) + [n - 1];
      assert r[n - 1] == n - 1;
      r
  }

  predicate StrictlyIncreasing(ks: seq<int>) {
    forall i, j :: 0 <= i < j < |ks| ==> ks[i] < ks[j]
  }

  /** Insert `k` into a strictly increasing list unless it is already there. */
  function InsertKey(ks: seq<int>, k: int): (out: seq<int>)
    requires StrictlyIncreasing(ks)
    ensures StrictlyIncreasing(out)
    ensures forall x :: x in out <==> x in ks || x == k
    ensures |out| > 0 && out[0] == if |ks| > 0 && ks[0] < k then ks[0] else k
  {
    if |ks| == 0 then [k]
    else if k < ks[0] then
      PrependIncreasing(k, ks);
      [k] + ks
    else if k == ks[0] then ks
    else
      var rest := InsertKey(ks[1..], k);
      PrependIncreasing(ks[0], rest);
      [ks[0]] + rest
  }

  /** A key below the first of a strictly increasing list can go in front. */
  lemma PrependIncreasing(k: int, ks: seq<int>)
    requires StrictlyIncreasing(ks) && (|ks| > 0 ==> k < ks[0])
    ensures StrictlyIncreasing([k] + ks)
  {
    var out := [k] + ks;
    forall a, b | 0 <= a < b < |out|
      ensures out[a] < out[b]
    {
      assert out[b] == ks[b - 1];
      if a > 0 {
        assert out[a] == ks[a - 1];
      } else if b > 1 {
        assert ks[0] < ks[b - 1];
      }
    }
  }

  /**
   * The distinct values of `ks` in ascending order: the group keys of a
   * pandas `groupby` (which sorts them by default).
   */
  function SortedKeys(ks: seq<int>): (out: seq<int>)
    ensures StrictlyIncreasing(out)
    ensures forall x :: x in out <==> x in ks
  {
    if |ks| == 0 then [] else InsertKey(SortedKeys(ks[..|ks| - 1]), ks[|ks| - 1])
  }

  lemma StrictlyIncreasingIsDistinct(ks: seq<int>)
    requires StrictlyIncreasing(ks)
    ensures Distinct(ks)
  {
  }

  /** Concatenation of the blocks, numpy's `reshape(-1)` of a nested table. */
  function Flatten<T>(blocks: seq<seq<T>>): seq<T> {
    if |blocks| == 0 then [] else blocks[0] + Flatten(blocks[1..])
  }

  /** Every entry of a flattening is an entry of one of the blocks. */
  lemma {:induction false} FlattenMember<T>(blocks: seq<seq<T>>, q: nat)
    requires q < |Flatten(blocks)|
    ensures exists b, j :: 0 <= b < |blocks| && 0 <= j < |blocks[b]| && blocks[b][j] == Flatten(blocks)[q]
  {
    if q < |blocks[0]| {
      assert blocks[0][q] == Flatten(blocks)[q];
    } else {
      FlattenMember(blocks[1..], q - |blocks[0]|);
      var b, j :| 0 <= b < |blocks[1..]| && 0 <= j < |blocks[1..][b]| && blocks[1..][b][j] == Flatten(blocks[1..])[q - |blocks[0]|];
      assert blocks[b + 1][j] == Flatten(blocks)[q];
    }
  }

  /** Blocks of one common length `w` place entry `k` of block `i` at `i * w + k`. */
  lemma {:induction false} FlattenIndex<T>(blocks: seq<seq<T>>, w: nat, i: nat, k: nat)
    requires forall b :: 0 <= b < |blocks| ==> |blocks[b]| == w
    requires i < |blocks| && k < w
    ensures |Flatten(blocks)| == |blocks| * w
    ensures i * w + k < |Flatten(blocks)| && Flatten(blocks)[i * w + k] == blocks[i][k]
  {
    FlattenLength(blocks, w);
    if i > 0 {
      FlattenIndex(blocks[1..], w, i - 1, k);
      assert (i - 1) * w + k + w == i * w + k;
    }
  }

  lemma {:induction false} FlattenLength<T>(blocks: seq<seq<T>>, w: nat)
    requires forall b :: 0 <= b < |blocks| ==> |blocks[b]| == w
    ensures |Flatten(blocks)| == |blocks| * w
  {
    if |blocks| > 0 {
      FlattenLength(blocks[1..], w);
      assert |blocks| * w == w + (|blocks| - 1) * w;
    }
  }

  /** Filtering twice is filtering once by the conjunction. */
  lemma {:induction false} KeepKeep<T>(xs: seq<T>, p: T -> bool, q: T -> bool, r: T -> bool)
    requires forall x :: r(x) == (p(x) && q(x))
    ensures Keep(Keep(xs, p), q) == Keep(xs, r)
  {
    if |xs| > 0 {
      KeepKeep(xs[1..], p, q, r);
    }
  }

  /** A filter that every row passes keeps the table as it is. */
  lemma {:induction false} KeepAll<T>(xs: seq<T>, p: T -> bool)
    requires forall i :: 0 <= i < |xs| ==> p(xs[i])
    ensures Keep(xs, p) == xs
  {
    if |xs| > 0 {
      KeepAll(xs[1..], p);
    }
  }

  /** A column sum is the total of the column. */
  lemma {:induction false} SumOfIsTotal<T>(xs: seq<T>, f: T -> int, col: seq<int>)
    requires |col| == |xs| && forall i :: 0 <= i < |xs| ==> col[i] == f(xs[i])
    ensures SumOf(xs, f) == Total(col)
  {
    if |xs| > 0 {
      SumOfIsTotal(xs[1..], f, col[1..]);
    }
  }

  /** Two tables whose rows agree in the summed column have the same sum. */
  lemma {:induction false} SumOfPointwise<T, U>(xs: seq<T>, f: T -> int, ys: seq<U>, g: U -> int)
    requires |xs| == |ys| && forall i :: 0 <= i < |xs| ==> f(xs[i]) == g(ys[i])
    ensures SumOf(xs, f) == SumOf(ys, g)
  {
    if |xs| > 0 {
      SumOfPointwise(xs[1..], f, ys[1..], g);
    }
  }

  /** Summing a flattened table block by block. */
  lemma {:induction false} SumOfFlatten<T>(blocks: seq<seq<T>>, f: T -> int, subtotals: seq<int>)
    requires |subtotals| == |blocks| && forall i :: 0 <= i < |blocks| ==> subtotals[i] == SumOf(blocks[i], f)
    ensures SumOf(Flatten(blocks), f) == Total(subtotals)
  {
    if |blocks| > 0 {
      SumOfAppend(blocks[0], Flatten(blocks[1..]), f);
      SumOfFlatten(blocks[1..], f, subtotals[1..]);
    }
  }

  lemma {:induction false} KeepAppend<T>(xs: seq<T>, ys: seq<T>, p: T -> bool)
    ensures Keep(xs + ys, p) == Keep(xs, p) + Keep(ys, p)
  {
    if |xs| == 0 {
      assert xs + ys == ys;
    } else {
      assert (xs + ys)[1..] == xs[1..] + ys;
      KeepAppend(xs[1..], ys, p);
    }
  }

  /** A filter no row passes leaves nothing. */
  lemma {:induction false} KeepNone<T>(xs: seq<T>, p: T -> bool)
    requires forall i :: 0 <= i < |xs| ==> !p(xs[i])
    ensures Keep(xs, p) == []
  {
    if |xs| > 0 {
      KeepNone(xs[1..], p);
    }
  }

  /** A filter that rejects only the row at position `i` removes just that row. */
  lemma {:induction false} KeepAllBut<T>(xs: seq<T>, p: T -> bool, i: nat)
    requires i < |xs|
    requires forall j :: 0 <= j < |xs| ==> (p(xs[j]) <==> j != i)
    ensures Keep(xs, p) == xs[..i] + xs[i + 1..]
  {
    var tail := xs[1..];
    if i == 0 {
      forall j | 0 <= j < |tail|
        ensures p(tail[j])
      {
        assert tail[j] == xs[j + 1];
      }
      KeepAll(tail, p);
    } else {
      forall j | 0 <= j < |tail|
        ensures p(tail[j]) <==> j != i - 1
      {
        assert tail[j] == xs[j + 1];
      }
      KeepAllBut(tail, p, i - 1);
      assert xs[..i] == [xs[0]] + tail[..i - 1];
      assert xs[i + 1..] == tail[i..];
    }
  }

  /** Every block filtered on its own. */
  function KeepBlocks<T>(blocks: seq<seq<T>>, p: T -> bool): (out: seq<seq<T>>)
    ensures |out| == |blocks|
    ensures forall i :: 0 <= i < |blocks| ==> out[i] == Keep(blocks[i], p)
  {
    if |blocks| == 0 then [] else [Keep(blocks[0], p)] + KeepBlocks(blocks[1..], p)
  }

  /** Filtering a flattened table is flattening the filtered blocks. */
  lemma {:induction false} KeepFlatten<T>(blocks: seq<seq<T>>, p: T -> bool)
    ensures Keep(Flatten(blocks), p) == Flatten(KeepBlocks(blocks, p))
  {
    if |blocks| > 0 {
      KeepAppend(blocks[0], Flatten(blocks[1..]), p);
      KeepFlatten(blocks[1..], p);
      assert KeepBlocks(blocks, p)[1..] == KeepBlocks(blocks[1..], p);
    }
  }

  /** Flattening blocks that are all empty except block `k` gives block `k`. */
  lemma {:induction false} FlattenOneBlock<T>(blocks: seq<seq<T>>, k: nat)
    requires k < |blocks| && forall i :: 0 <= i < |blocks| && i != k ==> blocks[i] == []
    ensures Flatten(blocks) == blocks[k]
  {
    if k == 0 {
      FlattenEmptyBlocks(blocks[1..]);
    } else {
      FlattenOneBlock(blocks[1..], k - 1);
    }
  }

  lemma {:induction false} FlattenEmptyBlocks<T>(blocks: seq<seq<T>>)
    requires forall i :: 0 <= i < |blocks| ==> blocks[i] == []
    ensures Flatten(blocks) == []
  {
    if |blocks| > 0 {
      FlattenEmptyBlocks(blocks[1..]);
    }
  }

  /** Flattening the first `k` blocks gives the prefix of length `k * w`. */
  lemma {:induction false} FlattenPrefix<T>(blocks: seq<seq<T>>, w: nat, k: nat)
    requires forall b :: 0 <= b < |blocks| ==> |blocks[b]| == w
    requires k <= |blocks|
    ensures |Flatten(blocks)| == |blocks| * w
    ensures k * w <= |Flatten(blocks)|
    ensures Flatten(blocks[..k]) == Flatten(blocks)[..k * w]
  {
    FlattenLength(blocks, w);
    if k > 0 {
      FlattenPrefix(blocks[1..], w, k - 1);
      assert blocks[..k][1..] == blocks[1..][..k - 1];
      assert k * w == w + (k - 1) * w;
    } else {
      assert Flatten(blocks)[..0] == [];
    }
  }

  /** The distinct values of `ks` in order of first appearance (`Series.unique`). */
  function Unique(ks: seq<int>): (u: seq<int>)
    ensures Distinct(u)
    ensures forall x :: x in u <==> x in ks
    ensures |ks| > 0 ==> |u| > 0 && u[0] == ks[0]
  {
    if |ks| == 0 then []
    else
      var u := Unique(ks[..|ks| - 1]);
      assert forall x :: x in ks <==> x in ks[..|ks| - 1] || x == ks[|ks| - 1];
      if ks[|ks| - 1] in u then u else u + [ks[|ks| - 1]]
  }

  /** The rows are in strictly increasing order of `key`. */
  predicate IncreasingBy<T>(xs: seq<T>, key: T -> int) {
    forall i, j :: 0 <= i < j < |xs| ==> key(xs[i]) < key(xs[j])
  }

  /** Filtering keeps the order of the rows. */
  lemma {:induction false} KeepIncreasing<T>(xs: seq<T>, key: T -> int, p: T -> bool)
    requires IncreasingBy(xs, key)
    ensures IncreasingBy(Keep(xs, p), key)
  {
    if |xs| > 0 {
      var rest := Keep(xs[1..], p);
      KeepIncreasing(xs[1..], key, p);
      if p(xs[0]) {
        forall j | 0 <= j < |rest|
          ensures key(xs[0]) < key(rest[j])
        {
          var m :| 0 <= m < |xs[1..]| && xs[1..][m] == rest[j];
          assert xs[m + 1] == rest[j];
        }
        PrependIncreasingBy(xs[0], rest, key);
      }
    }
  }

  /** A row whose key is below every key of an ordered table can go in front. */
  lemma PrependIncreasingBy<T>(x: T, ys: seq<T>, key: T -> int)
    requires IncreasingBy(ys, key)
    requires forall j :: 0 <= j < |ys| ==> key(x) < key(ys[j])
    ensures IncreasingBy([x] + ys, key)
  {
    var out := [x] + ys;
    forall a, b | 0 <= a < b < |out|
      ensures key(out[a]) < key(out[b])
    {
      assert out[b] == ys[b - 1];
      if a > 0 {
        assert out[a] == ys[a - 1];
      }
    }
  }

  /** Position `i` of `m` blocks of width `w` is entry `i % w` of block `i / w`. */
  lemma FlatPosition(i: nat, w: nat, m: nat)
    requires i < m * w
    ensures w > 0 && i / w < m && i % w < w && (i / w) * w + i % w == i
  {
    if i / w >= m {
      MultiplyMonotone(m, i / w, w);
    }
  }

  lemma MultiplyMonotone(a: nat, b: nat, w: nat)
    requires a <= b
    ensures a * w <= b * w
  {
  }

  /** Two duplicate-free lists with the same members have the same length. */
  lemma SameMembersSameLength(xs: seq<int>, ys: seq<int>)
    requires Distinct(xs) && Distinct(ys) && forall x :: x in xs <==> x in ys
    ensures |xs| == |ys|
  {
    DistinctCardinality(xs);
    DistinctCardinality(ys);
    assert (set x | x in xs) == (set y | y in ys);
  }

  lemma {:induction false} DistinctCardinality(xs: seq<int>)
    requires Distinct(xs)
    ensures |set x | x in xs| == |xs|
  {
    if |xs| > 0 {
      var rest := xs[1..];
      DistinctCardinality(rest);
      assert (set x | x in xs) == (set x | x in rest) + {xs[0]};
      assert xs[0] !in rest;
    }
  }

  lemma {:induction false} TotalAppend(s: seq<int>, t: seq<int>)
    ensures Total(s + t) == Total(s) + Total(t)
  {
    if |s| == 0 {
      assert s + t == t;
    } else {
      assert (s + t)[1..] == s[1..] + t;
      TotalAppend(s[1..], t);
    }
  }

  /** The total of a pointwise sum is the sum of the totals. */
  lemma {:induction false} TotalPointwise(s: seq<int>, t: seq<int>, u: seq<int>)
    requires |s| == |t| == |u| && forall i :: 0 <= i < |u| ==> u[i] == s[i] + t[i]
    ensures Total(u) == Total(s) + Total(t)
  {
    if |u| > 0 {
      TotalPointwise(s[1..], t[1..], u[1..]);
    }
  }

  /** Length `w`, 1 at position `p` and 0 elsewhere (all 0 when `p >= w`). */
  function Unit(w: nat, p: nat): (u: seq<int>)
    ensures |u| == w
    ensures forall i :: 0 <= i < w ==> u[i] == if i == p then 1 else 0
  {
    seq(w, i requires 0 <= i < w => if i == p then 1 else 0)
  }

  lemma {:induction false} UnitTotal(w: nat, p: nat)
    ensures Total(Unit(w, p)) == if p < w then 1 else 0
  {
    if w > 0 {
      UnitTotal(w - 1, p);
      assert Unit(w, p) == Unit(w - 1, p) + [if w - 1 == p then 1 else 0];
      TotalAppend(Unit(w - 1, p), [if w - 1 == p then 1 else 0]);
    }
  }

  function Min(a: nat, b: nat): nat {
    if a < b then a else b
  }

  /** `p` cut or padded with zeros to length `w`: what a `zip` with `w` slots fills in. */
  function Pad(p: seq<int>, w: nat): (q: seq<int>)
    ensures |q| == w
    ensures forall i :: 0 <= i < w ==> q[i] == if i < |p| then p[i] else 0
  {
    seq(w, i requires 0 <= i < w => if i < |p| then p[i] else 0)
  }

  /** The padded slots add up to the entries that fit. */
  lemma {:induction false} PadTotal(p: seq<int>, w: nat)
    ensures Total(Pad(p, w)) == Total(p[..Min(w, |p|)])
  {
    if w > 0 {
      PadTotal(p, w - 1);
      var x := if w - 1 < |p| then p[w - 1] else 0;
      assert Pad(p, w) == Pad(p, w - 1) + [x];
      TotalAppend(Pad(p, w - 1), [x]);
      if w - 1 < |p| {
        assert p[..w] == p[..w - 1] + [x];
        TotalAppend(p[..w - 1], [x]);
      }
    } else {
      assert p[..0] == [];
    }
  }

  /** `f` on the rows passing `p`, 0 on the others. */
  function Masked<T>(f: T -> int, p: T -> bool): T -> int {
    x => if p(x) then f(x) else 0
  }

  /** Summing the filtered rows is summing the masked column over all rows. */
  lemma {:induction false} SumOfKeep<T>(xs: seq<T>, f: T -> int, p: T -> bool)
    ensures SumOf(Keep(xs, p), f) == SumOf(xs, Masked(f, p))
  {
    if |xs| > 0 {
      SumOfKeep(xs[1..], f, p);
    }
  }

  lemma {:induction false} TotalZeros(s: seq<int>)
    requires forall i :: 0 <= i < |s| ==> s[i] == 0
    ensures Total(s) == 0
  {
    if |s| > 0 {
      TotalZeros(s[1..]);
    }
  }
}

=== FILE: vaccination_coverage.dfy ===
/**
 * The vaccination-coverage table: the demography table with every
 * population count replaced by the influenza vaccine coverage of the
 * municipality's region in that age group.  The region is read off the
 * first one or two characters of the decimal NIS code.
 */
module VaccinationCoverage {
  import opened Wrappers
  import opened Tables
  import opened Decimal
  import opened Demography

  datatype Region = Flanders | Wallonia | Brussels

  /** Coverage per age group `0-5`, `5-15`, `15-65`, `65+`. */
  function Coverage(r: Region): (v: seq<real>)
    ensures |v| == |ModelAgeGroups|
    ensures forall a :: 0 <= a < |v| ==> 0.0 <= v[a] <= 1.0
    ensures forall a, b :: 0 <= a < b < |v| ==> v[a] < v[b]
  {
    match r
    case Flanders => [0.011, 0.015, 0.079, 0.278]
    case Wallonia => [0.002, 0.003, 0.011, 0.043]
    case Brussels => [0.002, 0.003, 0.014, 0.059]
  }

  /** What one pass of the region `if` chain does with a code's numeral. */
  datatype Reading =
    | Assigned(region: Region)
    | Unassigned      // no branch matched: `region` keeps its previous value
    | OutOfRange      // `NIS[1]` of a one-character numeral

  /** The region `if` chain on the characters of `s`. */
  function Classify(s: string): Reading
    requires |s| >= 1
  {
    if s[0] in "1347" then Assigned(Flanders)
    else if s[0] in "5689" then Assigned(Wallonia)
    else if s[0] == '2' then
      if |s| < 2 then OutOfRange
      else if s[1] == '1' then Assigned(Brussels)
      else if s[1] in "34" then Assigned(Flanders)
      else if s[1] == '5' then Assigned(Wallonia)
      else Unassigned
    else Unassigned
  }

  /**
   * The regions by the digits of a five-digit code: Flemish provinces
   * start with 1, 3, 4, 7 (and 23, 24 for Flemish Brabant), Walloon ones
   * with 5, 6, 8, 9 (and 25 for Walloon Brabant), Brussels with 21.
   */
  function RegionOfCode(n: int): (r: Option<Region>)
    requires 10000 <= n < 100000
  {
    var first := n / 10000;
    var second := n / 1000 % 10;
    if first in {1, 3, 4, 7} then Some(Flanders)
    else if first in {5, 6, 8, 9} then Some(Wallonia)
    else if first == 2 && second == 1 then Some(Brussels)
    else if first == 2 && second in {3, 4} then Some(Flanders)
    else if first == 2 && second == 5 then Some(Wallonia)
    else None
  }

  /** Reading the numeral of a five-digit code agrees with its digits. */
  lemma ClassifyFiveDigitCode(n: int)
    requires 10000 <= n < 100000
    ensures Classify(IntString(n)) == match RegionOfCode(n) { case Some(r) => Assigned(r) case None => Unassigned }
  {
    FiveDigitPrefix(n);
    var s := IntString(n);
    assert s[0] == Digits[n / 10000] && s[1] == Digits[n / 1000 % 10];
  }

  datatype Error =
    | IndexError(nis: int)                // the numeral of the code has one character
    | NameError(nis: int)                 // no region has been assigned yet
    | LengthMismatch(nis: int, rows: nat) // the four coverages do not fit the code's rows

  /** One pass's choice of region: its own, the one left by the previous pass, or an error. */
  function Pass(code: int, previous: Option<Region>): (r: Result<Region, Error>)
    ensures r.Failure? ==> r.error in {IndexError(code), NameError(code)}
    ensures previous.None? && r.Success? ==> Classify(IntString(code)).Assigned?
  {
    match Classify(IntString(code))
    case OutOfRange => Failure(IndexError(code))
    case Assigned(region) => Success(region)
    case Unassigned => if previous.Some? then Success(previous.value) else Failure(NameError(code))
  }

  /**
   * The loop over the codes, with the region left by the previous pass:
   * the region of each code, or the error of the first pass that fails.
   */
  function RegionsFrom(rows: seq<Record>, codes: seq<int>, previous: Option<Region>): (r: Result<seq<Region>, Error>)
    ensures r.Success? ==> |r.value| == |codes|
  {
    if |codes| == 0 then Success([])
    else
      var region :- Pass(codes[0], previous);
      var count := |Keep(rows, HasKey(Nis, codes[0]))|;
      if count != |ModelAgeGroups| then Failure(LengthMismatch(codes[0], count))
      else
        var rest :- RegionsFrom(rows, codes[1..], Some(region));
        Success([region] + rest)
  }

  /** Position of row `i` among the rows of its own municipality. */
  function Rank(rows: seq<Record>, i: nat): nat
    requires i < |rows|
  {
    |Keep(rows[..i], HasKey(Nis, rows[i].nis))|
  }

  /** A row is preceded by fewer rows of its municipality than there are in all. */
  lemma RankBelowCount(rows: seq<Record>, i: nat)
    requires i < |rows|
    ensures Rank(rows, i) < |Keep(rows, HasKey(Nis, rows[i].nis))|
  {
    var p := HasKey(Nis, rows[i].nis);
    assert rows == rows[..i] + rows[i..];
    KeepAppend(rows[..i], rows[i..], p);
    assert rows[i..][0] == rows[i];
  }

  datatype CoverageRow = CoverageRow(nis: int, age: string, coverage: real)

  /** The script: every row of a municipality gets its region's coverage, in row order. */
  function FillCoverage(rows: seq<Record>): (r: Result<seq<CoverageRow>, Error>)
    ensures r.Success? ==> |r.value| == |rows|
    ensures r.Success? ==> forall i :: 0 <= i < |rows| ==> r.value[i].nis == rows[i].nis && r.value[i].age == rows[i].age
  {
    var codes := Unique(KeysOf(rows, Nis));
    var regions :- RegionsFrom(rows, codes, None);
    Success(seq(|rows|, i requires 0 <= i < |rows| => FilledRow(rows, codes, regions, i)))
  }

  /** Row `i` with its coverage. */
  function FilledRow(rows: seq<Record>, codes: seq<int>, regions: seq<Region>, i: nat): (c: CoverageRow)
    requires i < |rows| && codes == Unique(KeysOf(rows, Nis)) && RegionsFrom(rows, codes, None) == Success(regions)
    ensures c.nis == rows[i].nis && c.age == rows[i].age
  {
    assert rows[i].nis in KeysOf(rows, Nis);
    var j := IndexOf(codes, rows[i].nis).value;
    CountsOfListedCodes(rows, codes, None, regions, j);
    RankBelowCount(rows, i);
    CoverageRow(rows[i].nis, rows[i].age, Coverage(regions[j])[Rank(rows, i)])
  }

  /** A successful loop has seen exactly four rows for every code. */
  lemma {:induction false} CountsOfListedCodes(rows: seq<Record>, codes: seq<int>, previous: Option<Region>, regions: seq<Region>, j: nat)
    requires RegionsFrom(rows, codes, previous) == Success(regions) && j < |codes|
    ensures |Keep(rows, HasKey(Nis, codes[j]))| == |ModelAgeGroups|
  {
    var region := Pass(codes[0], previous).value;
    var rest := RegionsFrom(rows, codes[1..], Some(region));
    assert rest.Success? && |Keep(rows, HasKey(Nis, codes[0]))| == |ModelAgeGroups|;
    if j > 0 {
      assert codes[1..][j - 1] == codes[j];
      CountsOfListedCodes(rows, codes[1..], Some(region), rest.value, j - 1);
    }
  }

  /** A Belgian five-digit code with a region of its own. */
  predicate Regional(n: int) {
    10000 <= n < 100000 && RegionOfCode(n).Some?
  }

  /** Every code is regional and has exactly four rows. */
  predicate WellCoded(rows: seq<Record>, codes: seq<int>) {
    forall j :: 0 <= j < |codes| ==> Regional(codes[j]) && |Keep(rows, HasKey(Nis, codes[j]))| == |ModelAgeGroups|
  }

  /** On well-coded input the loop gives every code the region of its digits. */
  lemma {:induction false} RegionsOfWellCoded(rows: seq<Record>, codes: seq<int>, previous: Option<Region>)
    requires WellCoded(rows, codes)
    ensures RegionsFrom(rows, codes, previous).Success?
    ensures forall j :: 0 <= j < |codes| ==> RegionsFrom(rows, codes, previous).value[j] == RegionOfCode(codes[j]).value
  {
    if |codes| > 0 {
      ClassifyFiveDigitCode(codes[0]);
      var region := RegionOfCode(codes[0]).value;
      assert Pass(codes[0], previous) == Success(region);
      assert WellCoded(rows, codes[1..]) by {
        forall j | 0 <= j < |codes| - 1
          ensures Regional(codes[1..][j]) && |Keep(rows, HasKey(Nis, codes[1..][j]))| == |ModelAgeGroups|
        {
          assert codes[1..][j] == codes[j + 1];
        }
      }
      RegionsOfWellCoded(rows, codes[1..], Some(region));
      var rest := RegionsFrom(rows, codes[1..], Some(region)).value;
      assert RegionsFrom(rows, codes, previous).value == [region] + rest;
      forall j | 1 <= j < |codes|
        ensures ([region] + rest)[j] == RegionOfCode(codes[j]).value
      {
        assert codes[1..][j - 1] == codes[j];
      }
    }
  }

  /** Number of rows of municipality `nis`. */
  function RowCount(rows: seq<Record>, nis: int): nat {
    |Keep(rows, HasKey(Nis, nis))|
  }

  /** Every row's municipality has a regional code and four rows. */
  predicate WellCodedRows(rows: seq<Record>) {
    forall i :: 0 <= i < |rows| ==> Regional(rows[i].nis) && RowCount(rows, rows[i].nis) == |ModelAgeGroups|
  }

  /** The codes the loop visits inherit well-codedness from the rows. */
  lemma UniqueCodesWellCoded(rows: seq<Record>)
    requires WellCodedRows(rows)
    ensures WellCoded(rows, Unique(KeysOf(rows, Nis)))
  {
    var codes := Unique(KeysOf(rows, Nis));
    forall j | 0 <= j < |codes|
      ensures Regional(codes[j]) && |Keep(rows, HasKey(Nis, codes[j]))| == |ModelAgeGroups|
    {
      assert codes[j] in KeysOf(rows, Nis);
      var i :| 0 <= i < |rows| && KeysOf(rows, Nis)[i] == codes[j];
      assert RowCount(rows, rows[i].nis) == |ModelAgeGroups|;
    }
  }

  /** On well-coded rows the script succeeds. */
  lemma FillCoverageSucceeds(rows: seq<Record>)
    requires WellCodedRows(rows)
    ensures FillCoverage(rows).Success?
  {
    UniqueCodesWellCoded(rows);
    RegionsOfWellCoded(rows, Unique(KeysOf(rows, Nis)), None);
  }

  /**
   * On well-coded rows, the `k`-th row of a municipality holds its
   * region's coverage for the `k`-th age group.
   */
  lemma FillCoverageOfWellCoded(rows: seq<Record>, i: nat)
    requires WellCodedRows(rows) && i < |rows|
    ensures FillCoverage(rows).Success?
    ensures Rank(rows, i) < |ModelAgeGroups|
    ensures FillCoverage(rows).value[i].coverage == Coverage(RegionOfCode(rows[i].nis).value)[Rank(rows, i)]
  {
    FillCoverageSucceeds(rows);
    UniqueCodesWellCoded(rows);
    var codes := Unique(KeysOf(rows, Nis));
    RegionsOfWellCoded(rows, codes, None);
    var regions := RegionsFrom(rows, codes, None).value;
    RankBelowCount(rows, i);
    assert FillCoverage(rows).value[i] == FilledRow(rows, codes, regions, i);
    assert rows[i].nis in KeysOf(rows, Nis);
    var j := IndexOf(codes, rows[i].nis).value;
    assert regions[j] == RegionOfCode(codes[j]).value;
  }

  /** The first municipality must have a region of its own: otherwise `region` is never bound. */
  lemma FirstCodeNeedsRegion(rows: seq<Record>)
    requires |rows| > 0 && Classify(IntString(rows[0].nis)) == Unassigned
    ensures FillCoverage(rows) == Failure(NameError(rows[0].nis))
  {
    var codes := Unique(KeysOf(rows, Nis));
    assert KeysOf(rows, Nis)[0] == rows[0].nis;
    assert Pass(codes[0], None) == Failure(NameError(rows[0].nis));
    assert RegionsFrom(rows, codes, None) == Failure(NameError(rows[0].nis));
  }

  /** A code whose numeral is the single character `2` makes the script fail on `NIS[1]`. */
  lemma CodeTwoIsIndexError(rows: seq<Record>)
    requires |rows| > 0 && rows[0].nis == 2
    ensures FillCoverage(rows) == Failure(IndexError(2))
  {
    var codes := Unique(KeysOf(rows, Nis));
    assert KeysOf(rows, Nis)[0] == 2;
    assert IntString(2) == "2" by {
      assert NatString(2) == [DigitChar(2)];
    }
    assert Pass(2, None) == Failure(IndexError(2));
    assert RegionsFrom(rows, codes, None) == Failure(IndexError(2));
  }

  /** A code without a region of its own inherits the region of the code before it. */
  lemma UnassignedInheritsRegion(rows: seq<Record>, codes: seq<int>, region: Region)
    requires |codes| > 0 && Classify(IntString(codes[0])) == Unassigned
    requires RegionsFrom(rows, codes, Some(region)).Success?
    ensures RegionsFrom(rows, codes, Some(region)).value[0] == region
  {
  }
}

=== FILE: wrappers.dfy ===
/** Failure-carrying result types used wherever the modelled Python code raises. */
module Wrappers {

  datatype Option<+T> = None | Some(value: T)

  datatype Result<+T, +E> = Success(value: T) | Failure(error: E) {
    predicate IsFailure() {
      Failure?
    }

    function PropagateFailure<U>(): Result<U, E>
      requires Failure?
    {
      Failure(error)
    }

    function Extract(): T
      requires Success?
    {
      value
    }
  }
}
